=== FILE: README.md ===
# Go board engine, modelled in Dafny

This project models the Go board of `python/go_board.py`. That file is a
straight translation of OpenSpiel's `go_board.h`. The board is a 21×21
"virtual" grid: 441 slots, a guard frame around a board of size up to 19,
`INVALID_POINT = -1` and `PASS = 420`. Every slot holds a `Vertex`:

- `chain_head` names the chain the point belongs to;
- `chain_next` threads a circular list through the chain's stones;
- `color` is the point's colour.

Every slot also holds a `Chain` record. At a chain's head, that record counts
the chain's stones and its pseudo-liberty instances, with the sum and the sum
of squares of those instances. An empty point next to two stones of the chain
is counted twice.

The model is split into modules that follow the program's layers:

| module | what it holds |
|---|---|
| `Colors`, `Coords` | colours, the virtual grid, `board_points`, `neighbours`, `parse_point` and `format_point` (with Python's `str.lower` and `int` for ASCII) |
| `Chains` | the `Chain` record and its arithmetic: atari as the Cauchy–Schwarz equality case, the single liberty as the exact quotient |
| `Xors`, `Zobrist` | xor on unbounded naturals, and the hash as the xor of the table values of the stones |
| `Vertices`, `Boards`, `Sums`, `Tallies`, `Liberties` | circular walks over `chain_next`; `Valid`, the representation invariant the engine keeps; the exact liberty bookkeeping behind it |
| `Queries` | the read-only accessors, including Python's negative list indexing |
| `Updates` | `_set_stone`, `_init_new_chain`, and the liberty debits and credits around a point |
| `Joins`, `Placing`, `Moves` | `_join_chains_around`, followed by `_set_stone` and `_remove_liberty_from_neighbouring_chains` |
| `Removal`, `Captures` | `_remove_chain` and `_capture_dead_chains` |
| `Rules` | what a move means in terms of the colours and chain heads, without the liberty records: which stones are captured, whether the new chain breathes, when ko is set |
| `Engine` | `GoBoard.__init__`, `clone`, `is_legal_move` and `play` |

The board is an immutable datatype. Every mutating method of the source
becomes an operation that returns the new board.

A Python exception becomes an `Err` of a `Result`, tagged `IndexError`,
`ValueError`, `AssertionError` or `ZeroDivisionError`.

The Zobrist table is a parameter `z: (int, Color) -> Key`, where a `Key` is a
natural number at most 2^64: `randint(0, 2**64)` includes both ends. The hash
is therefore below 2^65.

`Valid` is a ghost invariant. It is established by the constructor and kept by
every step of `play`. It says:

- guards lie exactly outside the board area;
- every empty point is a one-point chain whose record counts its empty neighbours;
- the stones of a chain form a closed, repetition-free walk from the head;
- the walk's length is the head's stone count;
- the head's liberty fields are exactly the sum, over the chain's members, of their empty neighbours.

## Model

| member | source | states |
|---|---|---|
| Colors.Opponent | python/go_board.py:23-29 | a stone colour maps to the other stone colour; EMPTY and GUARD map to themselves |
| Colors.OpponentInvolution | python/go_board.py:23-29 | taking the opponent twice gives back the colour |
| Coords.PointTo2d | python/go_board.py:132-138 | both sentinels give (-1, -1); any other point is recovered from the zero-based (row, col) it yields, with the column in -1..19 |
| Coords.PointFrom2d | python/go_board.py:141-142 | for row and column in 0..18, `point_to_2d` inverts it, and the point lies strictly inside the guard frame |
| Coords.PointFrom2dOfPointTo2d | python/go_board.py:132-142 | the other round trip: every slot except PASS is rebuilt from its (row, col) |
| Coords.InBoardAreaBounds | python/go_board.py:225-228 | an in-board point lies inside the frame, and its row and column indices are in 1..size |
| Coords.BoardPoints | python/go_board.py:111-114 | `board_points(size)` lists size² points, each in the board area, every in-board point, none twice |
| Coords.RowMajorInjective | python/go_board.py:111-114 | distinct row-major positions give distinct points |
| Coords.NeighboursAdjacent | python/go_board.py:153-157 | each of the four neighbours of an in-board point is one step up, left, right or down on the grid |
| Coords.NeighboursSymmetric | python/go_board.py:153-157 | q is a neighbour of p exactly when p is a neighbour of q |
| Coords.NeighboursInGrid | python/go_board.py:153-157 | the neighbours of an in-board point are slots of the virtual grid and never PASS |
| Coords.ColsLetter | python/go_board.py:145 | `_COLS` has 19 letters: column i is 'A' + i, skipping 'I' |
| Coords.Lower | python/go_board.py:119 | lower-casing keeps the length and maps each character on its own |
| Coords.IntRoundTrip | python/go_board.py:128 | `int(str(n)) == n` for every integer n |
| Coords.ParsePoint | python/go_board.py:117-129 | "pass" in any letter case parses to PASS; a string whose length is not 2 or 3 parses to INVALID_POINT |
| Coords.FormatPoint | python/go_board.py:148-150 | every in-board point of a 19×19 board formats to 2 or 3 characters |
| Coords.FormatSentinels | python/go_board.py:132-150 | through negative indexing of `_COLS`, both INVALID_POINT and PASS format as "T0" |
| Coords.FormatPointFrom2d | python/go_board.py:141-150 | the point of (row, col) formats as the column letter followed by the one-based row number |
| Coords.FormatParseRoundTrip | python/go_board.py:117-150 | `parse_point(format_point(p)) == p` for every in-board point of a 19×19 board |
| Chains.Chain.Reset | python/go_board.py:83-87 | `reset` is the record of no stones and no liberty instances, and it reads as "in atari" |
| Chains.Chain.AddStone | python/go_board.py:364 | one more stone; the liberty fields are unchanged |
| Chains.Chain.RemoveLiberty | python/go_board.py:100-103 | `add_liberty(p)` undoes `remove_liberty(p)` |
| Chains.Chain.SingleLiberty | python/go_board.py:105-108 | succeeds exactly when in atari with a non-zero count that divides the sum; the result times the count is the sum |
| Chains.MergeTally | python/go_board.py:89-93 | merging the records of two lists of liberty instances gives the record of their concatenation, with the stone counts added |
| Chains.MergeAssoc | python/go_board.py:89-93 | merging is associative |
| Chains.AddLibertyTally | python/go_board.py:95-103 | `add_liberty(p)` appends p to the counted instances, and `remove_liberty(p)` then restores all three liberty fields |
| Chains.AddLibertyMerge | python/go_board.py:89-103 | `add_liberty(p)` is a merge with the one-instance record of p, and `remove_liberty(p)` is its inverse |
| Chains.DefectZeroIffAllEqual | python/go_board.py:78-81 | n·Σx² − (Σx)² is never negative, and it is zero exactly when all instances are equal |
| Chains.AtariIffOnePoint | python/go_board.py:78-81 | over one or more counted instances, `in_atari` holds iff every instance is the same point; the empty record is in atari too |
| Chains.SingleLibertyOfTally | python/go_board.py:105-108 | when every counted instance is the same point, `single_liberty` returns that point |
| Chains.RemoveAllTally | python/go_board.py:100-103 | removing a list of instances subtracts their count, sum and sum of squares |
| Chains.BorderNeverInAtari | python/go_board.py:70-76 | the border default (4, 32768, 2147483648) is not in atari, and no four debits of slot numbers put it in atari or below zero |
| Xors.XorAssoc | python/go_board.py:317-323 | xor is associative, so hash updates can be regrouped |
| Xors.XorComm | python/go_board.py:317-323 | xor is commutative |
| Xors.XorCancel | python/go_board.py:317-323 | xor-ing a key in twice leaves the hash unchanged |
| Xors.XorBound | python/go_board.py:161-163 | xor of two values below 2^k stays below 2^k |
| Zobrist.HashBound | python/go_board.py:161-163 | with every table value at most 2^64, the xor over the stones stays below 2^65 |
| Zobrist.StoneKey | python/go_board.py:317-323 | a non-stone colour contributes no key |
| Zobrist.HashUpdate | python/go_board.py:317-323 | recolouring one point changes the hash of the layout by xor-ing out the old key and xor-ing in the new one |
| Zobrist.HashOfColors | python/go_board.py:189 | the hash depends only on the colours of the points |
| Zobrist.HashOfNoStones | python/go_board.py:189 | a layout without stones hashes to 0 |
| Updates.SetStone | python/go_board.py:317-323 | only the colour of p changes; chain links and records stay |
| Updates.SetStoneHash | python/go_board.py:317-323 | placing a stone on an empty point, or emptying a stone, keeps the hash equal to the xor over the stones |
| Updates.NewChainRecord | python/go_board.py:425-431 | the fresh record holds one stone and, as liberty instances, exactly p's empty neighbours |
| Updates.InitNewChain | python/go_board.py:420-431 | p becomes its own head and successor with the fresh record; no other point or record changes |
| Updates.RemoveLibertyAround | python/go_board.py:370-372 | every record, with the instances of p it gave up added back, is the record before; a record gives up one instance per neighbour of p headed there |
| Updates.AddLibertyAround | python/go_board.py:412-414 | every record gains exactly the instances of p owed by the neighbours headed there |
| Engine.FreshValid | python/go_board.py:169-189 | the constructed board satisfies the representation invariant |
| Engine.NewBoard | python/go_board.py:169-189 | IndexError exactly for sizes above 19; otherwise a valid board with hash 0, no ko and padded capture slots, whose points are empty exactly in the board area |
| Engine.Clone | python/go_board.py:191-217 | the copy has every vertex, chain record, capture slot, the ko point and the hash of the original |
| Queries.Slot | python/go_board.py:219-220 | a Python index in -441..440 names the slot congruent to it modulo 441 |
| Queries.PointColor | python/go_board.py:219-220 | IndexError exactly outside -441..440 |
| Queries.IsEmpty | python/go_board.py:222-223 | true exactly when the point's colour is EMPTY; IndexError where reading the colour raises |
| Queries.ColorsOfValid | python/go_board.py:225-228 | on a valid board, a slot is in the board area exactly when it is not GUARD |
| Queries.ChainHead | python/go_board.py:435-436 | IndexError exactly outside -441..440 |
| Queries.HeadsOfValid | python/go_board.py:433-436 | a stone's head is a stone of its colour that heads itself, shared by every same-coloured neighbour; any other point heads itself |
| Queries.ChainSize | python/go_board.py:438-440 | IndexError exactly outside -441..440 |
| Queries.ChainSizeOfStone | python/go_board.py:438-440 | a stone's chain size is the number of stones with its head |
| Queries.ChainSizeOfEmpty | python/go_board.py:438-440 | an empty point reports a chain size of 0 or 1 |
| Queries.PseudoLiberty | python/go_board.py:230-237 | IndexError exactly outside -441..440 |
| Queries.PseudoLibertyMeaning | python/go_board.py:230-237 | 0 iff the chain has no liberty, 1 iff it has exactly one liberty point, and 2 or more iff it has two distinct liberty points |
| Queries.InAtari | python/go_board.py:239-240 | IndexError exactly outside -441..440 |
| Queries.InAtariMeaning | python/go_board.py:239-240 | an in-board point is in atari iff its chain does not have two distinct liberties |
| Queries.SingleLiberty | python/go_board.py:242-256 | a returned point is an empty point of the board area |
| Queries.SingleLibertyMeaning | python/go_board.py:242-256 | returns x iff x is the chain's only liberty; ZeroDivisionError iff there is none; AssertionError iff there are two or more |
| Queries.LibertyBordersChain | python/go_board.py:251-254 | the neighbour scan finds the chain next to a genuine liberty, so the ValueError is never raised |
| Queries.Hash | python/go_board.py:258-259 | `__hash__` is the xor of the table values of the stones, and below 2^65 |
| Queries.EqualLayoutsHashEqually | python/go_board.py:258-259 | two boards with the same colours have the same hash |
| Liberties.ChainRecord | python/go_board.py:269-273 | on a valid board, the liberty fields of a point's chain are the tally of one instance per (member, empty neighbour) pair, and these instances are exactly the chain's liberties |
| Engine.IsLegalMove | python/go_board.py:261-286 | an accepted non-pass move is an empty in-board point other than the ko point |
| Engine.NeighbourChecks | python/go_board.py:277-284 | the two neighbour tests read as "same colour with two liberties" and "opposing colour with at most one" |
| Engine.EmptyPointChecks | python/go_board.py:269-270 | an empty point's own record counts a liberty iff some neighbour is empty |
| Engine.IsLegalMoveMeaning | python/go_board.py:261-286 | legal iff pass, or an empty in-board non-ko point where the new stone would breathe: an empty neighbour, a friendly neighbour chain with two liberties, or an opposing neighbour chain in atari |
| Joins.Relabel | python/go_board.py:348-354 | walking the circular list from n relabels exactly the points on n's walk |
| Joins.MergeChains | python/go_board.py:342-359 | every stone of n's chain takes head g, the two circular lists are spliced, g's record absorbs n's, colours are unchanged, and the board stays valid |
| Joins.MergedValid | python/go_board.py:342-359 | relabelling plus splicing plus merging the records keeps the invariant |
| Joins.LargestNeighbourChainSpec | python/go_board.py:329-336 | the scan picks the largest same-coloured neighbour chain, the first one met on a tie |
| Joins.JoinChainsAround | python/go_board.py:325-368 | every same-coloured neighbour chain is merged into the largest one, colours are unchanged, p is linked in after the head, and the record gains a stone and p's empty neighbours; with no such neighbour, p starts its own chain |
| Joins.LinkStone | python/go_board.py:361-364 | p is linked into the list right after the head and the head's record gains a stone |
| Vertices.Splice | python/go_board.py:356-359 | swapping the successors of two disjoint cycles gives one cycle over both |
| Vertices.InsertAfter | python/go_board.py:361-362 | linking p in after the head grows the closed walk by p |
| Vertices.Rotate | python/go_board.py:349-354 | a walk started at any member of a cycle is a rotation of the head's walk |
| Moves.TakeLiberty | python/go_board.py:370-372 | `_remove_liberty_from_neighbouring_chains` changes only chain records: each gives up the instances of p its neighbours owed |
| Moves.PlacedHash | python/go_board.py:305 | after joining, setting the stone keeps the hash equal to the xor over the stones |
| Moves.PlaceStone | python/go_board.py:304-306 | the board stays valid and hashed; p has colour c and joins exactly the same-coloured neighbour chains; no other colour or chain membership changes |
| Placing.PlacedValid | python/go_board.py:304-306 | the board after placing and debiting satisfies the invariant |
| Removal.ClearStone | python/go_board.py:407-414 | one step of the loop: the point becomes an empty one-point chain |
| Removal.RemovedValid | python/go_board.py:402-418 | once every member is cleared, the board satisfies the invariant again |
| Removal.RemoveChain | python/go_board.py:402-418 | the chain's stones become empty one-point chains, the rest of the layout is unchanged, and neighbours only gain liberties; the board stays valid and hashed |
| Captures.Padding | python/go_board.py:178 | n copies of INVALID_POINT |
| Captures.PadCaptures | python/go_board.py:397-398 | the capture slots from `capture_index` on are set to INVALID_POINT |
| Captures.SweepNeighbour | python/go_board.py:389-395 | one neighbour: either nothing is recorded or the head of that neighbour's chain is, and the sweep invariant (valid board, hash, recorded heads dead and removed) is kept |
| Captures.Sweep | python/go_board.py:387-396 | the loop over the four neighbours keeps the sweep invariant |
| Captures.CaptureDeadChains | python/go_board.py:385-400 | records the distinct heads of the dead opposing neighbour chains, at most 4, then pads; empties exactly their stones; returns the number of stones taken; afterwards no opposing neighbour chain is without liberties |
| Rules.LibertyCount | python/go_board.py:269 | a chain's pseudo-liberty count is never negative, and it is positive iff the chain has a liberty |
| Rules.PlacedLiberties | python/go_board.py:370-372 | after placing, an opposing chain's liberties are its old ones without p |
| Rules.DeadIffCaptured | python/go_board.py:389-395 | the stones removed are exactly the opposing stones whose chain's only liberty was p |
| Rules.CapturesRecorded | python/go_board.py:392 | every recorded head is captured, and every captured stone's head is recorded |
| Rules.CaptureListOf | python/go_board.py:385-400 | the four capture slots hold distinct captured heads followed by INVALID_POINT padding |
| Rules.ColoursAfterMove | python/go_board.py:304-307 | after the move, p has colour c, captured stones are empty, and every other point keeps its colour |
| Rules.SurvivalMeaning | python/go_board.py:314-315 | the played chain has a pseudo-liberty iff the stone breathes by the rules |
| Rules.KoMeaning | python/go_board.py:309-312 | exactly one stone is captured iff a single opposing stone was captured, and that stone is the one recorded head, next to p |
| Engine.MoveOutcome | python/go_board.py:307-312 | the ko point is set iff the move was played into an enemy eye and captured a single stone; it is then that stone, next to p |
| Engine.PlayStone | python/go_board.py:294-315 | on an empty in-board point: success iff the stone breathes, otherwise AssertionError; on success the board is valid and hashed, with the colours, chain, captures and ko the rules give |
| Engine.Play | python/go_board.py:288-315 | pass only clears ko; a slot past the grid raises IndexError; an occupied point raises AssertionError; for any non-pass p, `is_legal_move` holds iff the move succeeds and p is not the ko point |

## Left out

- Play: a negative point is not accepted. Python's negative list indexing would make `play(-1, c)` raise AssertionError and `play(-419, c)` play at A1 with head -419, leaving the board outside the invariant. No caller of the engine passes a negative point, since `is_legal_move` rejects it.
- Play: when the suicide assertion fails, the source has already changed the board in place: the stone is placed, chains are joined and captures are removed. The model returns `Err(AssertionError)` and drops that state, because a board that fails the invariant is of no further use.
- Play: the board is a value rather than a mutable object, so in-place update and aliasing between references are not modelled. `clone` therefore returns an equal value.
- Play: a stone colour is required. The source does not check the colour; EMPTY or GUARD would corrupt the board.
- Coords.Lower, Coords.ParseInt and Coords.ParsePoint: only ASCII is modelled. Python's `str.lower` and `int` are Unicode-aware:
  - `"İ1".lower()` has three characters, so the source raises ValueError where the model reads column 'i';
  - `int` accepts non-ASCII digits such as "١" and underscores between digits, which the model rejects with ValueError.
- Coords.StripLeft and Coords.StripRight: the contracts promise only that the result is no longer than the input and that no white space is left at the stripped end. They do not promise that the result is a contiguous part of the input.
- Coords.Neighbours: the function's own contract gives only the count of four. The order and the adjacency are stated by `NeighboursAdjacent`, `NeighboursSymmetric` and `NeighboursInGrid`.
- Rules.DeadIffCaptured, Rules.SurvivalMeaning and Rules.KoMeaning: a chain is the set of stones that share a `chain_head`. `Valid` makes same-coloured neighbours share a head, but it does not require a chain to be connected, so these lemmas speak of head-labelled groups rather than of connected groups of stones. Connectivity does not hold between the merge step of `_join_chains_around` and the linking of the new stone, so stating it would need a second invariant for that step.
- The Zobrist values come from `random.randint`. The table is a parameter of every operation that touches the hash.
- `Color.char`, `__str__`, `Points.__getattr__` and `create_board` are left out: they are display code, attribute sugar and a test helper.
- The C++ header, the benchmark harness, the GTP command loop and the SGF tool are not part of this model.

=== FILE: boards.dfy ===
/**
 * The board: the 441-slot vertex and chain arrays, the ko point, the last
 * captured chain heads and the hash. `Valid` is the representation
 * invariant the engine maintains; it is ghost and stated one point at a
 * time.
 */
module Boards {
  import opened Colors
  import opened Coords
  import opened Chains
  import opened Vertices
  import opened Sums
  import opened Zobrist

  /** `GoBoard`: the state of a game in progress. */
  datatype Board = Board(
    size: int,
    lastKoPoint: int,
    vertices: seq<Vertex>,
    chains: seq<Chain>,
    lastCaptures: seq<int>,
    zobristHash: nat)

  /** The arrays have their fixed lengths and the size is one the constructor accepts. */
  predicate Shaped(b: Board) {
    |b.vertices| == VirtualBoardPoints && |b.chains| == VirtualBoardPoints &&
    |b.lastCaptures| == 4 && b.size <= MaxBoardSize
  }

  // ---------------------------------------------------------------------
  // Views of the vertex array
  // ---------------------------------------------------------------------

  /** The vertex at `q`, reading points outside the array as border points. */
  function At(vs: seq<Vertex>, q: int): Vertex {
    if 0 <= q < |vs| then vs[q] else Vertex(q, q, Guard)
  }

  /** `x` is a stone of the chain whose head is `h`. */
  ghost predicate Member(vs: seq<Vertex>, h: int, x: int) {
    0 <= x < |vs| && IsStone(vs[x].color) && vs[x].chainHead == h
  }

  /** What `n` contributes to the liberties of a point next to it: itself if it is empty. */
  function NbrTerm(vs: seq<Vertex>, n: int): Chain {
    if At(vs, n).color == Empty then Unit(n) else Zero
  }

  /** The liberty record of the empty neighbours of `q`, taken in `neighbours` order. */
  function EmptyTally(vs: seq<Vertex>, q: int): Chain {
    NbrTally(vs, Neighbours(q))
  }

  /** The liberty record of the empty points among `ns`, taken in order. */
  function NbrTally(vs: seq<Vertex>, ns: seq<int>): Chain {
    if |ns| == 0 then Zero else NbrTally(vs, ns[..|ns| - 1]).Merge(NbrTerm(vs, ns[|ns| - 1]))
  }

  /** Appending a point to `ns` merges in its contribution. */
  lemma NbrTallySnoc(vs: seq<Vertex>, ns: seq<int>, n: int)
    ensures NbrTally(vs, ns + [n]) == NbrTally(vs, ns).Merge(NbrTerm(vs, n))
  {
    assert (ns + [n])[..|ns|] == ns;
  }

  /** `EmptyTally` spelled out over the four neighbours. */
  lemma EmptyTallyUnfold(vs: seq<Vertex>, q: int)
    ensures var ns := Neighbours(q);
            EmptyTally(vs, q) == NbrTerm(vs, ns[0]).Merge(NbrTerm(vs, ns[1])).Merge(NbrTerm(vs, ns[2])).Merge(NbrTerm(vs, ns[3]))
  {
    var ns := Neighbours(q);
    var s0: seq<int> := [];
    var s1, s2, s3 := s0 + [ns[0]], s0 + [ns[0]] + [ns[1]], s0 + [ns[0]] + [ns[1]] + [ns[2]];
    assert ns == s3 + [ns[3]];
    NbrTallySnoc(vs, s0, ns[0]);
    NbrTallySnoc(vs, s1, ns[1]);
    NbrTallySnoc(vs, s2, ns[2]);
    NbrTallySnoc(vs, s3, ns[3]);
    MergeZero(NbrTerm(vs, ns[0]));
  }

  /** What point `q` contributes to the liberties of the chain headed by `h`. */
  ghost function Term(vs: seq<Vertex>, h: int, q: int): Chain {
    if Member(vs, h, q) then EmptyTally(vs, q) else Zero
  }

  ghost function TermFn(vs: seq<Vertex>, h: int): int -> Chain {
    q => Term(vs, h, q)
  }

  /** The liberty record the chain headed by `h` should carry: every member's empty neighbours, with repetition. */
  ghost function LibTally(vs: seq<Vertex>, h: int): Chain {
    SumOf(TermFn(vs, h), 0, VirtualBoardPoints)
  }

  // ---------------------------------------------------------------------
  // The representation invariant
  // ---------------------------------------------------------------------

  /** Border points are fixed singleton guards; points of the board are never guards. */
  ghost predicate GuardOk(size: int, vs: seq<Vertex>, q: int)
    requires 0 <= q < |vs|
  {
    if InBoardArea(size, q) then vs[q].color != Guard else vs[q] == Vertex(q, q, Guard)
  }

  /**
   * An empty point is its own one-point list; its stone count is 0 (fresh
   * board) or 1 (emptied by a capture).
   */
  ghost predicate EmptyOk(vs: seq<Vertex>, chains: seq<Chain>, q: int)
    requires 0 <= q < |vs| == |chains|
  {
    vs[q].color == Empty ==>
      vs[q].chainHead == q && vs[q].chainNext == q && 0 <= chains[q].numStones <= 1
  }

  /** The record of an empty point counts its empty neighbours. */
  ghost predicate EmptyLibsOk(vs: seq<Vertex>, chains: seq<Chain>, q: int)
    requires 0 <= q < |vs| == |chains|
  {
    vs[q].color == Empty ==> chains[q].Liberties() == EmptyTally(vs, q)
  }

  /** A stone's head is a stone of its colour heading itself, shared by every neighbour of that colour. */
  ghost predicate StoneOk(vs: seq<Vertex>, q: int)
    requires 0 <= q < |vs|
  {
    IsStone(vs[q].color) ==>
      var h := vs[q].chainHead;
      0 <= h < |vs| && vs[h].color == vs[q].color && vs[h].chainHead == h &&
      forall i :: 0 <= i < 4 ==>
        At(vs, Neighbours(q)[i]).color == vs[q].color ==> At(vs, Neighbours(q)[i]).chainHead == h
  }

  /**
   * A head's record: `num_stones` is the length of its circular list, and
   * the list visits exactly the members.
   */
  ghost predicate HeadOk(vs: seq<Vertex>, chains: seq<Chain>, h: int)
    requires 0 <= h < |vs| == |chains|
  {
    IsStone(vs[h].color) && vs[h].chainHead == h ==>
      var k := chains[h].numStones;
      k >= 1 && Cycle(vs, h, k) && (forall x :: Member(vs, h, x) <==> x in Walk(vs, h, k))
  }

  /** A head's liberty fields are the tally of the members' empty neighbours. */
  ghost predicate HeadLibsOk(vs: seq<Vertex>, chains: seq<Chain>, h: int)
    requires 0 <= h < |vs| == |chains|
  {
    IsStone(vs[h].color) && vs[h].chainHead == h ==> chains[h].Liberties() == LibTally(vs, h)
  }

  /** The representation invariant of a board, one kind of fact at a time. */
  ghost predicate Valid(b: Board) {
    Shaped(b) &&
    (forall q :: 0 <= q < VirtualBoardPoints ==> GuardOk(b.size, b.vertices, q)) &&
    (forall q :: 0 <= q < VirtualBoardPoints ==> EmptyOk(b.vertices, b.chains, q)) &&
    (forall q :: 0 <= q < VirtualBoardPoints ==> EmptyLibsOk(b.vertices, b.chains, q)) &&
    (forall q :: 0 <= q < VirtualBoardPoints ==> StoneOk(b.vertices, q)) &&
    (forall q :: 0 <= q < VirtualBoardPoints ==> HeadOk(b.vertices, b.chains, q)) &&
    (forall q :: 0 <= q < VirtualBoardPoints ==> HeadLibsOk(b.vertices, b.chains, q))
  }

  /** On a valid board a stone's head is a stone, and every other point is its own head. */
  lemma HeadKind(b: Board, n: int)
    requires Valid(b) && 0 <= n < VirtualBoardPoints
    ensures 0 <= b.vertices[n].chainHead < VirtualBoardPoints
    ensures IsStone(b.vertices[n].color) ==> IsStone(b.vertices[b.vertices[n].chainHead].color)
    ensures !IsStone(b.vertices[n].color) ==> b.vertices[n].chainHead == n
  {
    assert GuardOk(b.size, b.vertices, n) && EmptyOk(b.vertices, b.chains, n) && StoneOk(b.vertices, n);
  }

  /** The hash is the xor of the table values of the stones on the board. */
  ghost predicate HashOk(z: Table, b: Board) {
    b.zobristHash == HashOf(z, b.vertices, 0)
  }
}

=== FILE: captures.dfy ===
/**
 * `_capture_dead_chains`: after a stone of colour `c` is placed at `p`,
 * every opposing chain next to `p` that has no pseudo-liberty left is
 * removed, its head is recorded in `last_captures`, and the unused capture
 * slots are set to `INVALID_POINT`. The result is the number of stones
 * taken off.
 */
module Captures {
  import opened Colors
  import opened Coords
  import opened Chains
  import opened Vertices
  import opened Zobrist
  import opened Boards
  import opened Joins
  import opened Placing
  import opened Liberties
  import opened Removal
  import opened Tallies

  /** `x` is a stone, on the vertices `vs`, of one of the chains headed by a point of `hs`. */
  ghost predicate InDead(vs: seq<Vertex>, hs: seq<int>, x: int) {
    0 <= x < |vs| && IsStone(vs[x].color) && vs[x].chainHead in hs
  }

  /** The total `num_stones` of the chains headed by `hs`. */
  function StonesOf(cs: seq<Chain>, hs: seq<int>): int
    requires forall j :: 0 <= j < |hs| ==> 0 <= hs[j] < |cs|
  {
    if |hs| == 0 then 0 else StonesOf(cs, hs[..|hs| - 1]) + cs[hs[|hs| - 1]].numStones
  }

  lemma StonesOfSnoc(cs: seq<Chain>, hs: seq<int>, h: int)
    requires forall j :: 0 <= j < |hs| ==> 0 <= hs[j] < |cs|
    requires 0 <= h < |cs|
    ensures StonesOf(cs, hs + [h]) == StonesOf(cs, hs) + cs[h].numStones
  {
    assert (hs + [h])[..|hs|] == hs;
  }

  /** The neighbour `n` is not an opposing stone whose chain has run out of pseudo-liberties. */
  ghost predicate Survives(b: Board, n: int, c: Color)
    requires Shaped(b) && 0 <= n < VirtualBoardPoints
  {
    var h := b.vertices[n].chainHead;
    b.vertices[n].color != Opponent(c) || (0 <= h < VirtualBoardPoints && b.chains[h].numPseudoLiberties > 0)
  }

  /** The padding `_capture_dead_chains` writes into the capture slots it did not use. */
  function Padding(n: nat): (r: seq<int>)
    ensures |r| == n && forall j :: 0 <= j < n ==> r[j] == InvalidPoint
  {
    seq(n, _ => InvalidPoint)
  }

  /**
   * After the first `i` neighbours of `p` have been looked at: the chains
   * headed by `dead` (distinct opposing neighbour chains of `b0` without
   * pseudo-liberties) are off the board and recorded, `captured` counts
   * their stones, the other records have lost no pseudo-liberty, and none
   * of the first `i` neighbours is a dead opposing stone.
   */
  ghost predicate Sweeping(b0: Board, b: Board, p: int, c: Color, dead: seq<int>, captured: int, i: nat) {
    Shaped(b0) && HeadsNonNegative(b0) && Shaped(b) && Interior(p) && IsStone(c) &&
    (forall j :: 0 <= j < 4 ==> 0 <= Neighbours(p)[j] < VirtualBoardPoints) &&
    i <= 4 && |dead| <= i && b.size == b0.size && b.lastKoPoint == b0.lastKoPoint &&
    Recorded(b0, b, p, c, dead, i) && Frame(b0, b, dead) &&
    captured == StonesOf(b0.chains, dead) && Survivors(b, p, c, i)
  }

  /** `dead` lists distinct heads of opposing neighbour chains of `b0` without pseudo-liberties, and opens `last_captures`. */
  ghost predicate Recorded(b0: Board, b: Board, p: int, c: Color, dead: seq<int>, i: nat) {
    |dead| <= |b.lastCaptures| && b.lastCaptures[..|dead|] == dead && Distinct(dead) &&
    forall j :: 0 <= j < |dead| ==>
      dead[j] in NbrHeads(b0.vertices, p, Opponent(c), i) && 0 <= dead[j] < |b0.chains| &&
      b0.chains[dead[j]].numPseudoLiberties == 0
  }

  /** The stones of the chains headed by `dead` are off; every other point and record is as on `b0`, up to regained liberties. */
  ghost predicate Frame(b0: Board, b: Board, dead: seq<int>)
    requires Shaped(b0) && Shaped(b)
  {
    (forall x :: 0 <= x < VirtualBoardPoints ==>
       b.vertices[x] == if InDead(b0.vertices, dead, x) then Vertex(x, x, Empty) else b0.vertices[x]) &&
    (forall x :: 0 <= x < VirtualBoardPoints && !InDead(b0.vertices, dead, x) ==>
       b.chains[x].numStones == b0.chains[x].numStones &&
       b.chains[x].numPseudoLiberties >= b0.chains[x].numPseudoLiberties)
  }

  /** None of the first `i` neighbours of `p` is a dead opposing stone. */
  ghost predicate Survivors(b: Board, p: int, c: Color, i: nat)
    requires Shaped(b) && i <= 4 && forall j :: 0 <= j < 4 ==> 0 <= Neighbours(p)[j] < VirtualBoardPoints
  {
    forall m :: 0 <= m < i ==> Survives(b, Neighbours(p)[m], c)
  }

  lemma SweepStart(z: Table, b: Board, p: int)
    requires Valid(b) && HashOk(z, b) && InBoardArea(b.size, p)
    ensures forall c :: IsStone(c) ==> Sweeping(b, b, p, c, [], 0, 0)
  {
    PlacedInterior(b, p);
    forall x | 0 <= x < VirtualBoardPoints && IsStone(b.vertices[x].color) && b.vertices[x].chainHead == x
      ensures b.chains[x].numPseudoLiberties >= 0
    {
      PseudoLibertiesNonNegative(b, x);
    }
  }

  /** The part of `Valid` that capturing relies on: every stone's head is a stone heading itself. */
  ghost predicate StonesOk(b: Board) {
    Shaped(b) && forall q :: 0 <= q < VirtualBoardPoints ==> StoneOk(b.vertices, q)
  }

  /** Every chain head's pseudo-liberty count is at least 0. */
  ghost predicate HeadsNonNegative(b: Board)
    requires Shaped(b)
  {
    forall x :: 0 <= x < VirtualBoardPoints && IsStone(b.vertices[x].color) && b.vertices[x].chainHead == x ==>
      b.chains[x].numPseudoLiberties >= 0
  }

  /** On a valid board the pseudo-liberty count of a stone's chain is never negative. */
  lemma PseudoLibertiesNonNegative(b: Board, x: int)
    requires Valid(b) && 0 <= x < VirtualBoardPoints && IsStone(b.vertices[x].color)
    ensures 0 <= b.vertices[x].chainHead < VirtualBoardPoints
    ensures b.chains[b.vertices[x].chainHead].numPseudoLiberties >= 0
  {
    assert GuardOk(b.size, b.vertices, x);
    ChainRecord(b, x);
  }

  /** A neighbour that is not a dead opposing stone keeps the invariant without any change. */
  lemma SweepSkip(b0: Board, b: Board, p: int, c: Color, dead: seq<int>, captured: int, i: nat)
    requires StonesOk(b) && Sweeping(b0, b, p, c, dead, captured, i) && i < 4
    requires Survives(b, Neighbours(p)[i], c)
    ensures Sweeping(b0, b, p, c, dead, captured, i + 1)
  {
  }

  /** The neighbour `n` found dead is a stone of `b0` whose head is new to `dead`. */
  lemma DeadNeighbour(b0: Board, b: Board, p: int, c: Color, dead: seq<int>, captured: int, i: nat)
    requires StonesOk(b) && Sweeping(b0, b, p, c, dead, captured, i) && i < 4
    requires var n := Neighbours(p)[i]; !Survives(b, n, c)
    ensures var n := Neighbours(p)[i]; var h := b.vertices[n].chainHead;
            b.vertices[n] == b0.vertices[n] && b.vertices[n].color == Opponent(c) && IsStone(Opponent(c)) &&
            0 <= h < VirtualBoardPoints && h !in dead && Member(b0.vertices, h, h) && Member(b0.vertices, h, n) &&
            h in NbrHeads(b0.vertices, p, Opponent(c), i + 1) &&
            b.chains[h].numStones == b0.chains[h].numStones && b0.chains[h].numPseudoLiberties == 0
  {
    var n := Neighbours(p)[i];
    var h := b.vertices[n].chainHead;
    assert !InDead(b0.vertices, dead, n);
    assert StoneOk(b.vertices, n);
    assert !InDead(b0.vertices, dead, h);
  }

  /** Who is a member of the chain headed by `h` does not change while other chains are removed. */
  lemma SameMembership(b0: Board, b: Board, dead: seq<int>, h: int)
    requires Shaped(b0) && Shaped(b) && h !in dead
    requires forall x :: 0 <= x < VirtualBoardPoints ==>
               b.vertices[x] == if InDead(b0.vertices, dead, x) then Vertex(x, x, Empty) else b0.vertices[x]
    ensures forall x :: Member(b.vertices, h, x) <==> Member(b0.vertices, h, x)
  {
    forall x ensures Member(b.vertices, h, x) <==> Member(b0.vertices, h, x) {
      if 0 <= x < VirtualBoardPoints {
        assert b.vertices[x] == if InDead(b0.vertices, dead, x) then Vertex(x, x, Empty) else b0.vertices[x];
      }
    }
  }

  /** Removing the dead chain headed by `h` keeps the invariant, with `h` recorded. */
  lemma SweepCapture(b0: Board, b: Board, b': Board, p: int, c: Color, dead: seq<int>, captured: int, i: nat, h: int)
    requires StonesOk(b) && Sweeping(b0, b, p, c, dead, captured, i) && i < 4
    requires var n := Neighbours(p)[i]; !Survives(b, n, c) && h == b.vertices[n].chainHead
    requires 0 <= h < VirtualBoardPoints && Shaped(b')
    requires b'.size == b.size && b'.lastKoPoint == b.lastKoPoint && b'.lastCaptures == b.lastCaptures[|dead| := h]
    requires forall x :: 0 <= x < VirtualBoardPoints ==>
               b'.vertices[x] == if Member(b.vertices, h, x) then Vertex(x, x, Empty) else b.vertices[x]
    requires forall x :: 0 <= x < VirtualBoardPoints && !Member(b.vertices, h, x) ==>
               b'.chains[x].numStones == b.chains[x].numStones &&
               b'.chains[x].numPseudoLiberties >= b.chains[x].numPseudoLiberties
    ensures Sweeping(b0, b', p, c, dead + [h], captured + b.chains[h].numStones, i + 1)
  {
    var n := Neighbours(p)[i];
    DeadNeighbour(b0, b, p, c, dead, captured, i);
    SameMembership(b0, b, dead, h);
    RecordedStep(b0, b, b', p, c, dead, i, h);
    DeadFrame(b0, b, b', dead, h);
    StonesOfSnoc(b0.chains, dead, h);
    SurvivorsStep(b, b', p, c, i, h);
  }

  lemma RecordedStep(b0: Board, b: Board, b': Board, p: int, c: Color, dead: seq<int>, i: nat, h: int)
    requires Recorded(b0, b, p, c, dead, i) && |dead| < |b.lastCaptures| && b'.lastCaptures == b.lastCaptures[|dead| := h]
    requires h !in dead && h in NbrHeads(b0.vertices, p, Opponent(c), i + 1) && 0 <= h < |b0.chains|
    requires b0.chains[h].numPseudoLiberties == 0
    ensures Recorded(b0, b', p, c, dead + [h], i + 1)
  {
    assert b'.lastCaptures[..|dead| + 1] == dead + [h];
    forall j | 0 <= j < |dead| ensures dead[j] in NbrHeads(b0.vertices, p, Opponent(c), i + 1) {
      assert dead[j] in NbrHeads(b0.vertices, p, Opponent(c), i);
    }
  }

  /** Taking the chain headed by `h` off `b`, found at neighbour `i`, keeps all the first `i + 1` neighbours surviving. */
  lemma SurvivorsStep(b: Board, b': Board, p: int, c: Color, i: nat, h: int)
    requires StonesOk(b) && Shaped(b') && i < 4 && IsStone(c) && 0 <= h < VirtualBoardPoints
    requires forall j :: 0 <= j < 4 ==> 0 <= Neighbours(p)[j] < VirtualBoardPoints
    requires Survivors(b, p, c, i) && b.chains[h].numPseudoLiberties == 0 && Member(b.vertices, h, Neighbours(p)[i])
    requires forall x :: 0 <= x < VirtualBoardPoints ==>
               b'.vertices[x] == if Member(b.vertices, h, x) then Vertex(x, x, Empty) else b.vertices[x]
    requires forall x :: 0 <= x < VirtualBoardPoints && !Member(b.vertices, h, x) ==>
               b'.chains[x].numPseudoLiberties >= b.chains[x].numPseudoLiberties
    ensures Survivors(b', p, c, i + 1)
  {
    forall m | 0 <= m < i + 1 ensures Survives(b', Neighbours(p)[m], c) {
      if m < i {
        SurvivorStays(b, b', c, h, Neighbours(p)[m]);
      } else {
        assert b'.vertices[Neighbours(p)[i]].color == Empty;
      }
    }
  }

  /** Taking the chain headed by `h` off extends the frame of the chains already taken off. */
  lemma DeadFrame(b0: Board, b: Board, b': Board, dead: seq<int>, h: int)
    requires Shaped(b0) && Shaped(b) && Shaped(b') && h !in dead
    requires forall x :: Member(b.vertices, h, x) <==> Member(b0.vertices, h, x)
    requires Frame(b0, b, dead)
    requires forall x :: 0 <= x < VirtualBoardPoints ==>
               b'.vertices[x] == if Member(b.vertices, h, x) then Vertex(x, x, Empty) else b.vertices[x]
    requires forall x :: 0 <= x < VirtualBoardPoints && !Member(b.vertices, h, x) ==>
               b'.chains[x].numStones == b.chains[x].numStones &&
               b'.chains[x].numPseudoLiberties >= b.chains[x].numPseudoLiberties
    ensures Frame(b0, b', dead + [h])
  {
    forall x | 0 <= x < VirtualBoardPoints
      ensures b'.vertices[x] == if InDead(b0.vertices, dead + [h], x) then Vertex(x, x, Empty) else b0.vertices[x]
      ensures !InDead(b0.vertices, dead + [h], x) ==>
                b'.chains[x].numStones == b0.chains[x].numStones &&
                b'.chains[x].numPseudoLiberties >= b0.chains[x].numPseudoLiberties
    {
      assert InDead(b0.vertices, dead + [h], x) <==> InDead(b0.vertices, dead, x) || Member(b0.vertices, h, x);
    }
  }

  /** A survivor stays one when the chain headed by `h`, which has no pseudo-liberty, is removed. */
  lemma SurvivorStays(b: Board, b': Board, c: Color, h: int, n: int)
    requires StonesOk(b) && Shaped(b') && 0 <= n < VirtualBoardPoints && 0 <= h < VirtualBoardPoints
    requires b.chains[h].numPseudoLiberties == 0 && Survives(b, n, c) && IsStone(c)
    requires forall x :: 0 <= x < VirtualBoardPoints ==>
               b'.vertices[x] == if Member(b.vertices, h, x) then Vertex(x, x, Empty) else b.vertices[x]
    requires forall x :: 0 <= x < VirtualBoardPoints && !Member(b.vertices, h, x) ==>
               b'.chains[x].numPseudoLiberties >= b.chains[x].numPseudoLiberties
    ensures Survives(b', n, c)
  {
    if !Member(b.vertices, h, n) && b.vertices[n].color == Opponent(c) {
      var g := b.vertices[n].chainHead;
      assert StoneOk(b.vertices, n);
      assert !Member(b.vertices, h, g);
    }
  }

  /** `Valid` and the hash do not look at the capture slots beyond their number. */
  lemma RecordedValid(z: Table, b: Board, caps: seq<int>)
    requires Valid(b) && HashOk(z, b) && |caps| == 4
    ensures Valid(b.(lastCaptures := caps)) && HashOk(z, b.(lastCaptures := caps))
  {
  }

  lemma ValidStones(b: Board)
    requires Valid(b)
    ensures StonesOk(b)
  {
  }

  /** One pass of the loop over the neighbours of `p`: neighbour `i` is checked and, if dead, its chain is taken off and recorded. */
  method SweepNeighbour(z: Table, b0: Board, b: Board, p: int, c: Color, ghost dead: seq<int>, index: nat, captured: int, i: nat)
    returns (r: Board, index': nat, captured': int, ghost dead': seq<int>)
    requires Valid(b) && HashOk(z, b) && Sweeping(b0, b, p, c, dead, captured, i) && i < 4 && index == |dead|
    ensures Valid(r) && HashOk(z, r) && Sweeping(b0, r, p, c, dead', captured', i + 1) && index' == |dead'|
    ensures dead' == dead || dead' == dead + [b.vertices[Neighbours(p)[i]].chainHead]
  {
    var n := Neighbours(p)[i];
    ValidStones(b);
    HeadKind(b, n);
    var h := b.vertices[n].chainHead;
    if b.vertices[n].color == Opponent(c) && b.chains[h].numPseudoLiberties == 0 {
      var recorded := b.(lastCaptures := b.lastCaptures[index := h]);
      RecordedValid(z, b, recorded.lastCaptures);
      r := RemoveChain(z, recorded, n);
      captured' := captured + b.chains[h].numStones;
      SweepCapture(b0, b, r, p, c, dead, captured, i, h);
      dead' := dead + [h];
      index' := index + 1;
    } else {
      if b.vertices[n].color == Opponent(c) {
        PseudoLibertiesNonNegative(b, n);
      }
      SweepSkip(b0, b, p, c, dead, captured, i);
      r, index', captured', dead' := b, index, captured, dead;
    }
  }

  /** The capture slots from `from` on set to `INVALID_POINT`, one at a time. */
  method PadCaptures(b: Board, from: nat) returns (r: Board)
    requires from <= |b.lastCaptures|
    ensures r == b.(lastCaptures := b.lastCaptures[..from] + Padding(|b.lastCaptures| - from))
  {
    r := b;
    var j := from;
    while j < |b.lastCaptures|
      invariant from <= j <= |b.lastCaptures| == |r.lastCaptures|
      invariant r == b.(lastCaptures := r.lastCaptures)
      invariant r.lastCaptures[..from] == b.lastCaptures[..from]
      invariant forall t :: from <= t < j ==> r.lastCaptures[t] == InvalidPoint
    {
      r := r.(lastCaptures := r.lastCaptures[j := InvalidPoint]);
      j := j + 1;
    }
    assert r.lastCaptures == b.lastCaptures[..from] + Padding(|b.lastCaptures| - from);
  }

  /**
   * `_capture_dead_chains(p, c)` on the valid board `b`: the opposing
   * neighbour chains without pseudo-liberties, headed by `dead` in the order
   * they were found, are taken off and recorded in `last_captures`, whose
   * other slots become `INVALID_POINT`; `captured` is their total stone
   * count. Every other point and stone count is as before, and afterwards
   * no neighbour of `p` is an opposing stone whose chain lacks
   * pseudo-liberties.
   */
  method CaptureDeadChains(z: Table, b: Board, p: int, c: Color) returns (r: Board, captured: int, ghost dead: seq<int>)
    requires Valid(b) && HashOk(z, b) && InBoardArea(b.size, p) && IsStone(c)
    ensures Valid(r) && HashOk(z, r) && r.size == b.size && r.lastKoPoint == b.lastKoPoint
    ensures |dead| <= 4 && r.lastCaptures == dead + Padding(4 - |dead|) && Distinct(dead)
    ensures forall j :: 0 <= j < |dead| ==>
              dead[j] in NbrHeads(b.vertices, p, Opponent(c), 4) && 0 <= dead[j] < VirtualBoardPoints &&
              b.chains[dead[j]].numPseudoLiberties == 0
    ensures forall x :: 0 <= x < VirtualBoardPoints ==>
              r.vertices[x] == if InDead(b.vertices, dead, x) then Vertex(x, x, Empty) else b.vertices[x]
    ensures forall x :: 0 <= x < VirtualBoardPoints && !InDead(b.vertices, dead, x) ==>
              r.chains[x].numStones == b.chains[x].numStones
    ensures captured == StonesOf(b.chains, dead)
    ensures 0 <= p < VirtualBoardPoints && forall m :: 0 <= m < 4 ==> 0 <= Neighbours(p)[m] < VirtualBoardPoints && Survives(r, Neighbours(p)[m], c)
  {
    var swept, index;
    swept, index, captured, dead := Sweep(z, b, p, c);
    r := PadCaptures(swept, index);
    SweepDone(z, b, swept, r, p, c, dead, captured);
  }

  /** The loop over the four neighbours of `p`. */
  method Sweep(z: Table, b: Board, p: int, c: Color) returns (r: Board, index: nat, captured: int, ghost dead: seq<int>)
    requires Valid(b) && HashOk(z, b) && InBoardArea(b.size, p) && IsStone(c)
    ensures Valid(r) && HashOk(z, r) && Sweeping(b, r, p, c, dead, captured, 4) && index == |dead|
  {
    SweepStart(z, b, p);
    r := b;
    captured := 0;
    dead := [];
    index := 0;
    var i := 0;
    while i < 4
      invariant 0 <= i <= 4 && index == |dead|
      invariant Valid(r) && HashOk(z, r) && Sweeping(b, r, p, c, dead, captured, i)
    {
      r, index, captured, dead := SweepNeighbour(z, b, r, p, c, dead, index, captured, i);
      i := i + 1;
    }
  }

  /** What the finished sweep, with its slots padded, says about the board. */
  lemma SweepDone(z: Table, b: Board, swept: Board, r: Board, p: int, c: Color, dead: seq<int>, captured: int)
    requires Valid(swept) && HashOk(z, swept) && Sweeping(b, swept, p, c, dead, captured, 4)
    requires r == swept.(lastCaptures := swept.lastCaptures[..|dead|] + Padding(4 - |dead|))
    ensures Valid(r) && HashOk(z, r) && r.size == b.size && r.lastKoPoint == b.lastKoPoint
    ensures |dead| <= 4 && r.lastCaptures == dead + Padding(4 - |dead|) && Distinct(dead)
    ensures forall j :: 0 <= j < |dead| ==>
              dead[j] in NbrHeads(b.vertices, p, Opponent(c), 4) && 0 <= dead[j] < VirtualBoardPoints &&
              b.chains[dead[j]].numPseudoLiberties == 0
    ensures forall x :: 0 <= x < VirtualBoardPoints ==>
              r.vertices[x] == if InDead(b.vertices, dead, x) then Vertex(x, x, Empty) else b.vertices[x]
    ensures forall x :: 0 <= x < VirtualBoardPoints && !InDead(b.vertices, dead, x) ==>
              r.chains[x].numStones == b.chains[x].numStones
    ensures captured == StonesOf(b.chains, dead)
    ensures 0 <= p < VirtualBoardPoints && forall m :: 0 <= m < 4 ==> 0 <= Neighbours(p)[m] < VirtualBoardPoints && Survives(r, Neighbours(p)[m], c)
  {
    RecordedValid(z, swept, r.lastCaptures);
    SweptFacts(b, swept, r, p, c, dead, captured);
  }

  lemma SweptFacts(b: Board, swept: Board, r: Board, p: int, c: Color, dead: seq<int>, captured: int)
    requires Sweeping(b, swept, p, c, dead, captured, 4)
    requires r == swept.(lastCaptures := swept.lastCaptures[..|dead|] + Padding(4 - |dead|))
    ensures |dead| <= 4 && r.lastCaptures == dead + Padding(4 - |dead|) && Distinct(dead)
    ensures forall j :: 0 <= j < |dead| ==>
              dead[j] in NbrHeads(b.vertices, p, Opponent(c), 4) && 0 <= dead[j] < VirtualBoardPoints &&
              b.chains[dead[j]].numPseudoLiberties == 0
    ensures forall x :: 0 <= x < VirtualBoardPoints ==>
              r.vertices[x] == if InDead(b.vertices, dead, x) then Vertex(x, x, Empty) else b.vertices[x]
    ensures forall x :: 0 <= x < VirtualBoardPoints && !InDead(b.vertices, dead, x) ==>
              r.chains[x].numStones == b.chains[x].numStones
    ensures captured == StonesOf(b.chains, dead) && Shaped(r)
    ensures 0 <= p < VirtualBoardPoints && forall m :: 0 <= m < 4 ==> 0 <= Neighbours(p)[m] < VirtualBoardPoints && Survives(r, Neighbours(p)[m], c)
  {
    assert Recorded(b, swept, p, c, dead, 4) && Frame(b, swept, dead) && Survivors(swept, p, c, 4);
  }
}

=== FILE: chains.dfy ===
/**
 * Per-chain liberty accounting. A chain does not store its liberties; it
 * keeps how many liberty instances it counts (a "pseudo-liberty" count: an
 * empty point next to two stones of the chain is counted twice), their sum
 * and the sum of their squares. Because all three are additive, the record
 * of a union of chains is the fieldwise sum, and the Cauchy-Schwarz equality
 * case tells whether every counted instance is the same point (atari).
 */
module Chains {
  import opened Errors

  /** `Chain`: the aggregate record kept at a chain's head point. */
  datatype Chain = Chain(numStones: int, numPseudoLiberties: int, libertyVertexSum: int, libertyVertexSumSquared: int)
  {
    /** `in_atari`: the Cauchy-Schwarz equality n * sum(p^2) == (sum p)^2. */
    predicate InAtari() {
      numPseudoLiberties * libertyVertexSumSquared == libertyVertexSum * libertyVertexSum
    }

    /** `reset`: a record counting no stones and no liberties (which reads as "in atari"). */
    function Reset(): (r: Chain)
      ensures r == Tally(0, [])
      ensures r.InAtari()
    {
      Chain(0, 0, 0, 0)
    }

    /** `merge`: the record of the union of two chains. */
    function Merge(other: Chain): Chain {
      Chain(numStones + other.numStones,
            numPseudoLiberties + other.numPseudoLiberties,
            libertyVertexSum + other.libertyVertexSum,
            libertyVertexSumSquared + other.libertyVertexSumSquared)
    }

    /** The liberty part of the record: everything but the stone count. */
    function Liberties(): (r: Chain)
      ensures r.numStones == 0
      ensures r.numPseudoLiberties == numPseudoLiberties
    {
      this.(numStones := 0)
    }

    /** `num_stones += 1`: one more stone in the chain. */
    function AddStone(): (r: Chain)
      ensures r.numStones == numStones + 1 && r.Liberties() == Liberties()
    {
      Chain(numStones + 1, numPseudoLiberties, libertyVertexSum, libertyVertexSumSquared)
    }

    /** `add_liberty`: count one more liberty instance at `p`. */
    function AddLiberty(p: int): Chain {
      Chain(numStones, numPseudoLiberties + 1, libertyVertexSum + p, libertyVertexSumSquared + p * p)
    }

    /** `remove_liberty`: forget one liberty instance at `p`; it undoes `AddLiberty(p)`. */
    function RemoveLiberty(p: int): (r: Chain)
      ensures r.AddLiberty(p) == this
    {
      Chain(numStones, numPseudoLiberties - 1, libertyVertexSum - p, libertyVertexSumSquared - p * p)
    }

    /**
     * `single_liberty`: the one liberty of a chain in atari, `sum / n`.
     * The source asserts atari and exact divisibility (AssertionError) and
     * divides by the count (ZeroDivisionError when it is 0). Python's `%`
     * and `//` agree with Dafny's on an exact division.
     */
    function SingleLiberty(): (r: Result<int>)
      ensures r.Ok? <==> InAtari() && numPseudoLiberties != 0 &&
                         libertyVertexSum % numPseudoLiberties == 0
      ensures r.Ok? ==> r.value * numPseudoLiberties == libertyVertexSum
    {
      if !InAtari() then Err(AssertionError)
      else if numPseudoLiberties == 0 then Err(ZeroDivisionError)
      else if libertyVertexSum % numPseudoLiberties != 0 then Err(AssertionError)
      else Ok(libertyVertexSum / numPseudoLiberties)
    }
  }

  /** The default record, used for the border ring: four liberty instances far away. */
  const Border: Chain := Chain(0, 4, 32768, 2147483648)

  /** The record of nothing: the unit of `Merge`. */
  const Zero: Chain := Chain(0, 0, 0, 0)

  /** `Zero` is the unit of `Merge` on both sides. */
  lemma MergeZero(c: Chain)
    ensures c.Merge(Zero) == c && Zero.Merge(c) == c
  {
  }

  /** `Merge` is associative. */
  lemma MergeAssoc(a: Chain, b: Chain, c: Chain)
    ensures a.Merge(b).Merge(c) == a.Merge(b.Merge(c))
  {
  }

  /** `Merge` cancels: records that agree after merging the same record agreed before. */
  lemma MergeCancel(a: Chain, b: Chain, u: Chain)
    requires a.Merge(u) == b.Merge(u)
    ensures a == b
  {
  }

  /** Whether a chain is in atari depends only on its liberty part. */
  lemma LibertiesAtari(c: Chain)
    ensures c.Liberties().InAtari() == c.InAtari()
  {
  }

  /** The liberty part of a merge is the merge of the liberty parts. */
  lemma LibertiesMerge(a: Chain, b: Chain)
    ensures a.Merge(b).Liberties() == a.Liberties().Merge(b.Liberties())
  {
  }

  /** The change one liberty instance at `p` makes. */
  function Unit(p: int): Chain {
    Chain(0, 1, p, p * p)
  }

  /** `add_liberty(p)` merges in one instance of `p`; `remove_liberty(p)` takes it out again. */
  lemma AddLibertyMerge(c: Chain, p: int)
    ensures c.AddLiberty(p) == c.Merge(Unit(p))
    ensures c.RemoveLiberty(p).Merge(Unit(p)) == c
    ensures Unit(p).Liberties() == Unit(p)
  {
  }

  /** One liberty instance is the tally of a one-element list. */
  lemma UnitTally(p: int)
    ensures Unit(p) == Tally(0, [p])
  {
    assert [p][1..] == [];
    assert Sum([p]) == p + Sum([]);
    assert SumSq([p]) == p * p + SumSq([]);
  }

  function Sum(xs: seq<int>): int {
    if |xs| == 0 then 0 else xs[0] + Sum(xs[1..])
  }

  function SumSq(xs: seq<int>): int {
    if |xs| == 0 then 0 else xs[0] * xs[0] + SumSq(xs[1..])
  }

  /** The record of `stones` stones whose counted liberty instances are `libs`. */
  function Tally(stones: int, libs: seq<int>): Chain {
    Chain(stones, |libs|, Sum(libs), SumSq(libs))
  }

  lemma {:induction false} SumConcat(a: seq<int>, b: seq<int>)
    ensures Sum(a + b) == Sum(a) + Sum(b)
    ensures SumSq(a + b) == SumSq(a) + SumSq(b)
  {
    if |a| > 0 {
      assert (a + b)[1..] == a[1..] + b;
      SumConcat(a[1..], b);
    } else {
      assert a + b == b;
    }
  }

  /** Merging two tallies tallies the union of their stones and liberty instances. */
  lemma MergeTally(m: int, a: seq<int>, n: int, b: seq<int>)
    ensures Tally(m, a).Merge(Tally(n, b)) == Tally(m + n, a + b)
  {
    SumConcat(a, b);
  }

  /** Adding a liberty appends it to the counted instances; removing it takes it off again. */
  lemma AddLibertyTally(n: int, libs: seq<int>, p: int)
    ensures Tally(n, libs).AddLiberty(p) == Tally(n, libs + [p])
    ensures Tally(n, libs + [p]).RemoveLiberty(p) == Tally(n, libs)
  {
    SumConcat(libs, [p]);
  }

  // ---------------------------------------------------------------------
  // Atari: the Cauchy-Schwarz equality case
  // ---------------------------------------------------------------------

  /** Every element of `xs` is `y`. */
  predicate AllEqual(xs: seq<int>, y: int) {
    forall i :: 0 <= i < |xs| ==> xs[i] == y
  }

  /** The sum of squared distances from `y`. */
  function SqDev(xs: seq<int>, y: int): int {
    if |xs| == 0 then 0 else (xs[0] - y) * (xs[0] - y) + SqDev(xs[1..], y)
  }

  /** The Cauchy-Schwarz defect n * sum(x^2) - (sum x)^2. */
  function Defect(xs: seq<int>): int {
    |xs| * SumSq(xs) - Sum(xs) * Sum(xs)
  }

  lemma SquareSign(d: int)
    ensures d * d >= 0
    ensures d != 0 ==> d * d > 0
  {
    if d > 0 {
      MulMono(d, d, 1);
    } else if d < 0 {
      MulMono(-d, -d, 1);
    }
  }

  /** Multiplication by a positive number is monotonic. */
  lemma MulMono(k: int, a: int, b: int)
    requires k > 0 && a >= b
    ensures a * k >= b * k
  {
  }

  lemma SquareOfDifference(a: int, y: int)
    ensures (a - y) * (a - y) == a * a - 2 * y * a + y * y
  {
  }

  lemma MulSucc(n: int, k: int)
    ensures (n + 1) * k == n * k + k
  {
  }

  lemma {:induction false} SqDevExpand(xs: seq<int>, y: int)
    ensures SqDev(xs, y) == SumSq(xs) - 2 * y * Sum(xs) + |xs| * (y * y)
  {
    if |xs| > 0 {
      var t := xs[1..];
      SqDevExpand(t, y);
      SqDevAlgebra(xs[0], y, SumSq(t), Sum(t), |t|);
    }
  }

  /** The arithmetic of one step of `SqDevExpand`. */
  lemma SqDevAlgebra(a: int, y: int, q: int, s: int, m: int)
    ensures (a - y) * (a - y) + (q - 2 * y * s + m * (y * y)) == (a * a + q) - 2 * y * (a + s) + (m + 1) * (y * y)
  {
    SquareOfDifference(a, y);
    MulSucc(m, y * y);
    assert 2 * y * (a + s) == 2 * y * a + 2 * y * s;
  }

  lemma {:induction false} SqDevZero(xs: seq<int>, y: int)
    ensures SqDev(xs, y) >= 0
    ensures SqDev(xs, y) == 0 <==> AllEqual(xs, y)
  {
    if |xs| > 0 {
      SqDevZero(xs[1..], y);
      SquareSign(xs[0] - y);
      assert AllEqual(xs, y) <==> xs[0] == y && AllEqual(xs[1..], y) by {
        if xs[0] == y && AllEqual(xs[1..], y) {
          forall i | 0 <= i < |xs| ensures xs[i] == y {
            if i > 0 { assert xs[i] == xs[1..][i - 1]; }
          }
        }
      }
    }
  }

  /** Prepending `y` raises the defect by the squared deviations from `y`. */
  lemma DefectStep(y: int, t: seq<int>)
    ensures Defect([y] + t) == Defect(t) + SqDev(t, y)
  {
    var xs := [y] + t;
    assert xs[1..] == t;
    SqDevExpand(t, y);
    assert Sum(xs) == y + Sum(t) && SumSq(xs) == y * y + SumSq(t);
    DefectAlgebra(|t|, y, Sum(t), SumSq(t));
  }

  /** The arithmetic of `DefectStep`. */
  lemma DefectAlgebra(n: int, y: int, s: int, q: int)
    ensures (n + 1) * (y * y + q) - (y + s) * (y + s) == (n * q - s * s) + (q - 2 * y * s + n * (y * y))
  {
    MulSucc(n, y * y + q);
    assert n * (y * y + q) == n * (y * y) + n * q;
    assert (y + s) * (y + s) == y * y + 2 * y * s + s * s;
  }

  /** The defect is never negative and vanishes exactly when all points agree. */
  lemma {:induction false} DefectZeroIffAllEqual(xs: seq<int>)
    ensures Defect(xs) >= 0
    ensures |xs| > 0 ==> (Defect(xs) == 0 <==> AllEqual(xs, xs[0]))
  {
    if |xs| > 0 {
      var t := xs[1..];
      assert xs == [xs[0]] + t;
      DefectStep(xs[0], t);
      DefectZeroIffAllEqual(t);
      SqDevZero(t, xs[0]);
      assert AllEqual(xs, xs[0]) <==> AllEqual(t, xs[0]) by {
        if AllEqual(t, xs[0]) {
          forall i | 0 <= i < |xs| ensures xs[i] == xs[0] {
            if i > 0 { assert xs[i] == t[i - 1]; }
          }
        }
      }
      if |t| > 0 && AllEqual(t, xs[0]) {
        assert t[0] == xs[0];
      }
    } else {
      assert Defect(xs) == 0;
    }
  }

  /**
   * Atari characterised: a tally is in atari exactly when every counted
   * liberty instance is the same point (vacuously so for no instances).
   */
  lemma AtariIffOnePoint(n: int, libs: seq<int>)
    ensures |libs| > 0 ==> (Tally(n, libs).InAtari() <==> AllEqual(libs, libs[0]))
    ensures |libs| == 0 ==> Tally(n, libs).InAtari()
  {
    DefectZeroIffAllEqual(libs);
  }

  /** In atari with at least one instance, `single_liberty` divides evenly and yields that point. */
  lemma {:induction false} SingleLibertyOfTally(n: int, libs: seq<int>)
    requires |libs| > 0 && AllEqual(libs, libs[0])
    ensures Tally(n, libs).SingleLiberty() == Ok(libs[0])
  {
    AtariIffOnePoint(n, libs);
    SumOfAllEqual(libs, libs[0]);
    var c := Tally(n, libs);
    assert c.libertyVertexSum == |libs| * libs[0];
    DivExact(libs[0], |libs|);
  }

  lemma {:induction false} SumOfAllEqual(xs: seq<int>, y: int)
    requires AllEqual(xs, y)
    ensures Sum(xs) == |xs| * y
  {
    if |xs| > 0 {
      assert AllEqual(xs[1..], y);
      SumOfAllEqual(xs[1..], y);
    }
  }

  lemma DivExact(y: int, n: int)
    requires n > 0
    ensures (n * y) % n == 0 && (n * y) / n == y
  {
    var i := n * y;
    var q := i / n;
    var r := i % n;
    assert i == q * n + r;
    assert (y - q) * n == r;
    if y - q >= 1 {
      MulMono(n, y - q, 1);
    } else if y - q <= -1 {
      MulMono(n, -1, y - q);
    }
  }

  // ---------------------------------------------------------------------
  // The border default
  // ---------------------------------------------------------------------

  /** Removing each listed liberty instance in turn. */
  function RemoveAll(c: Chain, ps: seq<int>): Chain
    decreases |ps|
  {
    if |ps| == 0 then c else RemoveAll(c.RemoveLiberty(ps[0]), ps[1..])
  }

  lemma {:induction false} RemoveAllTally(c: Chain, ps: seq<int>)
    ensures RemoveAll(c, ps) == Chain(c.numStones, c.numPseudoLiberties - |ps|,
                                      c.libertyVertexSum - Sum(ps), c.libertyVertexSumSquared - SumSq(ps))
    decreases |ps|
  {
    if |ps| > 0 {
      RemoveAllTally(c.RemoveLiberty(ps[0]), ps[1..]);
    }
  }

  lemma MulLe(a: int, b: int, c: int, d: int)
    requires 0 <= a <= c && 0 <= b <= d
    ensures 0 <= a * b <= c * d
  {
    assert a * b <= c * b by {
      if b > 0 { MulMono(b, c, a); }
    }
    assert c * b <= c * d by {
      if c > 0 { MulMono(c, d, b); }
    }
  }

  lemma {:induction false} SumBounds(ps: seq<int>, hi: int)
    requires hi >= 0 && forall i :: 0 <= i < |ps| ==> 0 <= ps[i] <= hi
    ensures 0 <= Sum(ps) <= |ps| * hi
    ensures 0 <= SumSq(ps) <= |ps| * (hi * hi)
  {
    if |ps| > 0 {
      SumBounds(ps[1..], hi);
      MulLe(ps[0], ps[0], hi, hi);
      MulSucc(|ps| - 1, hi);
      MulSucc(|ps| - 1, hi * hi);
    }
  }

  /**
   * The border default is never in atari, and it stays out of atari with
   * non-negative fields however many of its (at most four) liberty instances
   * at real points are removed.
   */
  lemma BorderNeverInAtari(ps: seq<int>)
    requires |ps| <= 4 && forall i :: 0 <= i < |ps| ==> 0 <= ps[i] < 441
    ensures !Border.InAtari()
    ensures var c := RemoveAll(Border, ps);
            !c.InAtari() && c.numPseudoLiberties >= 0 && c.libertyVertexSum > 0 && c.libertyVertexSumSquared > 0
  {
    RemoveAllTally(Border, ps);
    SumBounds(ps, 440);
    var c := RemoveAll(Border, ps);
    var n := c.numPseudoLiberties;
    var s := c.libertyVertexSum;
    var q := c.libertyVertexSumSquared;
    assert 31008 <= s <= 32768;
    assert q >= 2146709248;
    MulLe(s, s, 32768, 32768);
    SquareSign(s);
    if n > 0 {
      MulMono(q, n, 1);
    }
  }
}

=== FILE: colors.dfy ===
/** The colour of a point: a stone, an empty point, or a guard cell of the border ring. */
module Colors {

  datatype Color = Black | White | Empty | Guard

  /** Black and white are the two colours that stones can have. */
  predicate IsStone(c: Color) {
    c == Black || c == White
  }

  /** `Color.opponent`: the other stone colour; empty and guard are their own opponent. */
  function Opponent(c: Color): (r: Color)
    ensures IsStone(r) <==> IsStone(c)
    ensures IsStone(c) ==> r != c
    ensures !IsStone(c) ==> r == c
  {
    match c
    case Black => White
    case White => Black
    case _ => c
  }

  /** Taking the opponent twice gives back the colour. */
  lemma OpponentInvolution(c: Color)
    ensures Opponent(Opponent(c)) == c
  {
  }
}

=== FILE: coords.dfy ===
/**
 * Points of the padded 21 x 21 "virtual" grid, their 2-D coordinates, the
 * four orthogonal neighbours, and the textual coordinates "D4" / "Q16".
 */
module Coords {
  import opened Errors

  /** Side of the virtual grid: a 19 x 19 board plus a one-cell border ring. */
  const VirtualBoardSize: int := 21
  const VirtualBoardPoints: int := VirtualBoardSize * VirtualBoardSize
  /** Result of a parse that has no meaning as a point. */
  const InvalidPoint: int := -1
  /** The pass move: a corner of the border ring, never a playable point. */
  const Pass: int := 20 * VirtualBoardSize
  /** The largest board whose border ring fits the virtual grid. */
  const MaxBoardSize: int := 19

  /**
   * `point_to_2d`: row and column, zero based, of a point; both sentinels
   * map to (-1, -1). Dafny's `/` and `%` agree with Python's floor division
   * here because the divisor is positive.
   */
  function PointTo2d(p: int): (rc: (int, int))
    ensures p == InvalidPoint || p == Pass ==> rc == (-1, -1)
    ensures p != InvalidPoint && p != Pass ==>
              -1 <= rc.1 < VirtualBoardSize - 1 && (rc.0 + 1) * VirtualBoardSize + rc.1 + 1 == p
  {
    if p == InvalidPoint || p == Pass then (-1, -1)
    else (p / VirtualBoardSize - 1, p % VirtualBoardSize - 1)
  }

  /** `point_from_2d`: the virtual point of a zero-based row and column. */
  function PointFrom2d(row: int, col: int): (p: int)
    ensures 0 <= row < MaxBoardSize && 0 <= col < MaxBoardSize ==> PointTo2d(p) == (row, col)
    ensures 0 <= row < MaxBoardSize && 0 <= col < MaxBoardSize ==>
              VirtualBoardSize < p < VirtualBoardPoints - VirtualBoardSize - 1
  {
    (row + 1) * VirtualBoardSize + col + 1
  }

  /** Every virtual point other than the pass corner comes from its own 2-D coordinates. */
  lemma PointFrom2dOfPointTo2d(p: int)
    requires 0 <= p < VirtualBoardPoints && p != Pass
    ensures PointFrom2d(PointTo2d(p).0, PointTo2d(p).1) == p
  {
  }

  /** `GoBoard.in_board_area`: the point lies on the playable `size` x `size` square. */
  predicate InBoardArea(size: int, p: int) {
    var rc := PointTo2d(p);
    0 <= rc.0 < size && 0 <= rc.1 < size
  }

  /** An in-board point of a legal board size lies strictly inside the virtual grid. */
  lemma InBoardAreaBounds(size: int, p: int)
    requires size <= MaxBoardSize && InBoardArea(size, p)
    ensures VirtualBoardSize < p < VirtualBoardPoints - VirtualBoardSize - 1
    ensures 1 <= p % VirtualBoardSize <= size
    ensures 1 <= p / VirtualBoardSize <= size
  {
  }

  /** `board_points`: the points of a `size` x `size` board, row by row. */
  function BoardPoints(size: int): (ps: seq<int>)
    requires size <= MaxBoardSize
    ensures size >= 0 ==> |ps| == size * size
    ensures forall i :: 0 <= i < |ps| ==> InBoardArea(size, ps[i])
    ensures forall p :: InBoardArea(size, p) ==> p in ps
    ensures forall i, j :: 0 <= i < j < |ps| ==> ps[i] != ps[j]
  {
    if size <= 0 then []
    else
      var ps := seq(size * size, i requires 0 <= i < size * size => PointFrom2d(i / size, i % size));
      assert forall i :: 0 <= i < |ps| ==> 0 <= i / size < size by {
        forall i | 0 <= i < |ps| ensures 0 <= i / size < size {
          DivBelow(i, size);
        }
      }
      forall p | InBoardArea(size, p) ensures p in ps {
        var rc := PointTo2d(p);
        var i := rc.0 * size + rc.1;
        RowMajorIndex(rc.0, rc.1, size);
        assert ps[i] == p;
      }
      forall i, j | 0 <= i < j < |ps| ensures ps[i] != ps[j] {
        DivBelow(i, size);
        DivBelow(j, size);
        RowMajorInjective(i, j, size);
      }
      ps
  }

  lemma DivBelow(i: int, size: int)
    requires 0 < size && 0 <= i < size * size
    ensures 0 <= i / size < size
  {
    var q := i / size;
    assert i == q * size + i % size;
    if q >= size {
      MulMono(size, q, size);
    } else if q < 0 {
      MulMono(size, q, -1);
    }
  }

  /** Multiplication by a positive number is monotonic. */
  lemma MulMono(k: int, a: int, b: int)
    requires k > 0 && a >= b
    ensures a * k >= b * k
  {
  }

  /** Euclidean division is determined by quotient and remainder. */
  lemma DivModUnique(i: int, size: int, row: int, col: int)
    requires size > 0 && 0 <= col < size && i == row * size + col
    ensures i / size == row && i % size == col
  {
    var q := i / size;
    var r := i % size;
    assert (row - q) * size == r - col;
    if row - q >= 1 {
      MulMono(size, row - q, 1);
    } else if row - q <= -1 {
      MulMono(size, -1, row - q);
    }
  }

  lemma RowMajorIndex(row: int, col: int, size: int)
    requires 0 <= row < size && 0 <= col < size
    ensures 0 <= row * size + col < size * size
    ensures (row * size + col) / size == row && (row * size + col) % size == col
  {
    MulMono(size, size - 1, row);
    DivModUnique(row * size + col, size, row, col);
  }

  lemma RowMajorInjective(i: int, j: int, size: int)
    requires 0 < size <= MaxBoardSize && 0 <= i < j && 0 <= i / size < size && 0 <= j / size < size
    ensures PointFrom2d(i / size, i % size) != PointFrom2d(j / size, j % size)
  {
    var p := PointFrom2d(i / size, i % size);
    var q := PointFrom2d(j / size, j % size);
    DivModUnique(p, VirtualBoardSize, i / size + 1, i % size + 1);
    DivModUnique(q, VirtualBoardSize, j / size + 1, j % size + 1);
  }

  /**
   * `neighbours`: the four orthogonally adjacent points, in the order the
   * source visits them (next row, previous column, next column, previous row).
   */
  function Neighbours(p: int): (ns: seq<int>)
    ensures |ns| == 4
  {
    [p + VirtualBoardSize, p - 1, p + 1, p - VirtualBoardSize]
  }

  /** On a 19 x 19 board the neighbours are exactly one orthogonal step away in 2-D. */
  lemma NeighboursAdjacent(p: int)
    requires InBoardArea(MaxBoardSize, p)
    ensures forall i :: 0 <= i < 4 ==> Adjacent2d(PointTo2d(p), PointTo2d(Neighbours(p)[i]))
  {
    var ns := Neighbours(p);
    var rc := PointTo2d(p);
    DivModUnique(ns[0], VirtualBoardSize, rc.0 + 2, rc.1 + 1);
    DivModUnique(ns[1], VirtualBoardSize, rc.0 + 1, rc.1);
    DivModUnique(ns[2], VirtualBoardSize, rc.0 + 1, rc.1 + 2);
    DivModUnique(ns[3], VirtualBoardSize, rc.0, rc.1 + 1);
  }

  /** Two 2-D coordinates one orthogonal step apart. */
  predicate Adjacent2d(a: (int, int), b: (int, int)) {
    (a.0 == b.0 && (a.1 - b.1 == 1 || b.1 - a.1 == 1)) ||
    (a.1 == b.1 && (a.0 - b.0 == 1 || b.0 - a.0 == 1))
  }

  /** Adjacency is symmetric. */
  lemma NeighboursSymmetric(p: int, q: int)
    ensures q in Neighbours(p) <==> p in Neighbours(q)
  {
  }

  /** Membership in the neighbour list is being one of its four entries. */
  lemma NeighbourIndex(p: int, q: int)
    ensures q in Neighbours(p) <==>
            q == Neighbours(p)[0] || q == Neighbours(p)[1] || q == Neighbours(p)[2] || q == Neighbours(p)[3]
  {
  }

  /** The neighbours of an in-board point are real points of the virtual grid. */
  lemma NeighboursInGrid(size: int, p: int)
    requires size <= MaxBoardSize && InBoardArea(size, p)
    ensures forall i :: 0 <= i < 4 ==> 0 <= Neighbours(p)[i] < VirtualBoardPoints && Neighbours(p)[i] != Pass
  {
  }

  // ---------------------------------------------------------------------
  // Text coordinates
  // ---------------------------------------------------------------------

  /** `_COLS`: the column letters; 'I' is skipped by Go convention. */
  const Cols: string := "ABCDEFGHJKLMNOPQRST"

  /** The letter of a column index 0..18. */
  lemma ColsLetter(i: int)
    requires 0 <= i < MaxBoardSize
    ensures |Cols| == MaxBoardSize
    ensures Cols[i] as int == 'A' as int + i + (if i >= 8 then 1 else 0)
  {
    if i < 8 {
      assert Cols[i] == "ABCDEFGH"[i];
    } else {
      assert Cols[i] == "JKLMNOPQRST"[i - 8];
    }
  }

  /** ASCII lower-casing of one character (the part of `str.lower` this model keeps). */
  function LowerChar(ch: char): char {
    if 'A' <= ch <= 'Z' then (ch as int + 32) as char else ch
  }

  function Lower(s: string): (t: string)
    ensures |t| == |s| && forall i :: 0 <= i < |s| ==> t[i] == LowerChar(s[i])
  {
    seq(|s|, i requires 0 <= i < |s| => LowerChar(s[i]))
  }

  /** ASCII characters that Python's `int` strips around a number. */
  predicate IsSpace(ch: char) {
    ch == ' ' || ('\t' <= ch <= '\r') || (28 <= ch as int <= 31)
  }

  predicate IsDigit(ch: char) {
    '0' <= ch <= '9'
  }

  function StripLeft(s: string): (t: string)
    ensures |t| <= |s|
    ensures |t| > 0 ==> !IsSpace(t[0])
  {
    if |s| > 0 && IsSpace(s[0]) then StripLeft(s[1..]) else s
  }

  function StripRight(s: string): (t: string)
    ensures |t| <= |s|
    ensures |t| > 0 ==> !IsSpace(t[|t| - 1])
  {
    if |s| > 0 && IsSpace(s[|s| - 1]) then StripRight(s[..|s| - 1]) else s
  }

  /** The value of a string of decimal digits. */
  function DigitsValue(s: string): (v: nat)
    requires forall i :: 0 <= i < |s| ==> IsDigit(s[i])
  {
    if |s| == 0 then 0
    else
      assert IsDigit(s[|s| - 1]);
      var d: nat := s[|s| - 1] as int - '0' as int;
      DigitsValue(s[..|s| - 1]) * 10 + d
  }

  /**
   * Python's `int(t)` for base 10: surrounding white space, an optional sign
   * and a non-empty run of ASCII digits; anything else raises ValueError.
   */
  function ParseInt(t: string): Result<int> {
    ParseSigned(StripRight(StripLeft(t)))
  }

  /** `int` of a string without surrounding white space: an optional sign, then digits. */
  function ParseSigned(u: string): Result<int> {
    if |u| > 0 && u[0] == '-' then
      match ParseDigits(u[1..])
      case Ok(v) => Ok(-v)
      case Err(e) => Err(e)
    else if |u| > 0 && u[0] == '+' then ParseDigits(u[1..])
    else ParseDigits(u)
  }

  /** A non-empty run of ASCII digits, read as a number. */
  function ParseDigits(digits: string): Result<int> {
    if |digits| == 0 || exists i :: 0 <= i < |digits| && !IsDigit(digits[i]) then Err(ValueError)
    else Ok(DigitsValue(digits))
  }

  /** The decimal digits of a natural number, as Python's `str` writes them. */
  function NatToString(n: nat): (s: string)
    ensures |s| >= 1 && forall i :: 0 <= i < |s| ==> IsDigit(s[i])
    ensures n < 10 ==> |s| == 1
    ensures 10 <= n < 100 ==> |s| == 2
  {
    if n < 10 then [('0' as int + n) as char]
    else NatToString(n / 10) + [('0' as int + n % 10) as char]
  }

  /** Python's `str` of an integer. */
  function IntToString(n: int): string {
    if n < 0 then "-" + NatToString(-n) else NatToString(n)
  }

  /** Reading back the digits written by `NatToString` gives the number. */
  lemma {:induction false} DigitsValueOfNatToString(n: nat)
    ensures DigitsValue(NatToString(n)) == n
  {
    if n >= 10 {
      var s := NatToString(n);
      assert s[..|s| - 1] == NatToString(n / 10);
      DigitsValueOfNatToString(n / 10);
    }
  }

  lemma DigitNotSpace(ch: char)
    requires IsDigit(ch)
    ensures !IsSpace(ch) && ch != '-' && ch != '+'
  {
  }

  /** Stripping a string that neither starts nor ends with white space leaves it as it is. */
  lemma StripNothing(s: string)
    requires |s| > 0 && !IsSpace(s[0]) && !IsSpace(s[|s| - 1])
    ensures StripRight(StripLeft(s)) == s
  {
  }

  /** `int` reads a run of digits. */
  lemma ParseRun(digits: string)
    requires |digits| > 0 && forall i :: 0 <= i < |digits| ==> IsDigit(digits[i])
    ensures ParseDigits(digits) == Ok(DigitsValue(digits) as int) && !IsSpace(digits[|digits| - 1])
    ensures ParseInt(digits) == Ok(DigitsValue(digits) as int)
  {
    DigitNotSpace(digits[0]);
    DigitNotSpace(digits[|digits| - 1]);
    StripNothing(digits);
  }

  /** `int` reads a minus sign followed by a number as its negation. */
  lemma ParseMinus(digits: string, v: int)
    requires |digits| > 0 && !IsSpace(digits[|digits| - 1]) && ParseDigits(digits) == Ok(v)
    ensures ParseInt("-" + digits) == Ok(-v)
  {
    var t := "-" + digits;
    assert t[0] == '-' && t[|t| - 1] == digits[|digits| - 1];
    StripNothing(t);
    assert t[1..] == digits;
  }

  /** `int(str(n)) == n` for every integer. */
  lemma IntRoundTrip(n: int)
    ensures ParseInt(IntToString(n)) == Ok(n)
  {
    var m: nat := if n < 0 then -n else n;
    DigitsValueOfNatToString(m);
    ParseRun(NatToString(m));
    if n < 0 {
      ParseMinus(NatToString(m), m);
    }
  }

  /**
   * `parse_point`: case-insensitive "pass"; strings of other lengths than 2
   * or 3 give InvalidPoint; otherwise a column letter (with 'i' and 'j' both
   * reading as column 9, one-based) followed by a one-based row number. The
   * row is not range-checked; a suffix that `int` rejects raises ValueError.
   */
  function ParsePoint(s: string): (r: Result<int>)
    ensures Lower(s) == "pass" ==> r == Ok(Pass)
    ensures Lower(s) != "pass" && (|s| < 2 || |s| > 3) ==> r == Ok(InvalidPoint)
  {
    var t := Lower(s);
    if t == "pass" then Ok(Pass)
    else if |t| < 2 || |t| > 3 then Ok(InvalidPoint)
    else
      var col := t[0] as int - 'a' as int + (if t[0] <= 'i' then 1 else 0);
      match ParseInt(t[1..])
      case Err(e) => Err(e)
      case Ok(row) => Ok(row * VirtualBoardSize + col)
  }

  /**
   * `format_point`: column letter and one-based row. Python's negative list
   * indexing makes both sentinels print as "T0"; a column outside -19..18
   * raises IndexError.
   */
  function FormatPoint(p: int): (r: Result<string>)
    ensures InBoardArea(MaxBoardSize, p) ==> r.Ok? && 2 <= |r.value| <= 3
  {
    var rc := PointTo2d(p);
    if -MaxBoardSize <= rc.1 < MaxBoardSize then
      Ok([Cols[if rc.1 < 0 then rc.1 + MaxBoardSize else rc.1]] + IntToString(rc.0 + 1))
    else Err(IndexError)
  }

  /** Both sentinels print as "T0". */
  lemma FormatSentinels()
    ensures FormatPoint(InvalidPoint) == Ok("T0") && FormatPoint(Pass) == Ok("T0")
  {
    assert Cols[MaxBoardSize - 1] == 'T';
    assert IntToString(0) == "0";
    assert [Cols[MaxBoardSize - 1]] + IntToString(0) == "T0";
  }

  /** `parse_point(format_point(p)) == p` for every point of a 19 x 19 board. */
  lemma FormatParseRoundTrip(p: int)
    requires InBoardArea(MaxBoardSize, p)
    ensures FormatPoint(p).Ok? && ParsePoint(FormatPoint(p).value) == Ok(p)
  {
    var rc := PointTo2d(p);
    var s := FormatPoint(p).value;
    ColsLetter(rc.1);
    assert s[0] == Cols[rc.1];
    assert s[1..] == NatToString(rc.0 + 1);
    var t := Lower(s);
    assert t[1..] == s[1..];
    IntRoundTrip(rc.0 + 1);
    assert t != "pass";
  }

  /** `format_point(point_from_2d(r, c))` names the column letter and the one-based row. */
  lemma FormatPointFrom2d(row: int, col: int)
    requires 0 <= row < MaxBoardSize && 0 <= col < MaxBoardSize
    ensures FormatPoint(PointFrom2d(row, col)) == Ok([Cols[col]] + IntToString(row + 1))
  {
  }
}

=== FILE: engine.dfy ===
/**
 * The public face of `GoBoard`: construction, `clone`, `is_legal_move`
 * and `play`.
 */
module Engine {
  import opened Errors
  import opened Colors
  import opened Coords
  import opened Chains
  import opened Vertices
  import opened Zobrist
  import opened Boards
  import opened Tallies
  import opened Updates
  import opened Placing
  import opened Joins
  import opened Liberties
  import opened Queries
  import opened Moves
  import opened Captures
  import opened Rules

  // ---------------------------------------------------------------------
  // Construction and copying
  // ---------------------------------------------------------------------

  /** A fresh board's vertices: each point its own list, empty on the board and a border point elsewhere. */
  function FreshVertices(size: int): seq<Vertex> {
    seq(VirtualBoardPoints, q => Vertex(q, q, if InBoardArea(size, q) then Empty else Guard))
  }

  /**
   * A fresh board's records: border defaults off the board; on the board a
   * reset record to which every empty neighbour is added as a liberty.
   */
  function FreshChains(size: int): seq<Chain> {
    var vs := FreshVertices(size);
    seq(VirtualBoardPoints, q => if InBoardArea(size, q) then AddEmptyNeighbours(vs, Border.Reset(), q) else Border)
  }

  lemma FreshValid(size: int)
    requires size <= MaxBoardSize
    ensures Valid(Board(size, InvalidPoint, FreshVertices(size), FreshChains(size), Padding(4), 0))
  {
    var vs := FreshVertices(size);
    var cs := FreshChains(size);
    forall q | 0 <= q < VirtualBoardPoints && InBoardArea(size, q)
      ensures cs[q].numStones == 0 && cs[q].Liberties() == EmptyTally(vs, q)
    {
      AddEmptyNeighboursTally(vs, Border.Reset(), q);
      MergeZero(EmptyTally(vs, q));
      EmptyTallyNoStones(vs, q);
    }
  }

  /**
   * `GoBoard(board_size)`. Every point of the board is empty, so every
   * record on the board counts exactly the empty neighbours of its point;
   * nothing is captured, there is no ko point and the hash is 0, which is
   * the hash of an empty board whatever the table. A size above 19 makes
   * the constructor index past the 441 slots.
   */
  function NewBoard(size: int): (r: Result<Board>)
    ensures r.Err? <==> size > MaxBoardSize
    ensures r.Err? ==> r.error == IndexError
    ensures r.Ok? ==>
              var b := r.value;
              Valid(b) && (forall z :: HashOk(z, b)) && b.size == size &&
              b.lastKoPoint == InvalidPoint && b.lastCaptures == Padding(4) && b.zobristHash == 0 &&
              forall q :: 0 <= q < VirtualBoardPoints ==>
                (b.vertices[q].color == Empty <==> InBoardArea(size, q)) && !IsStone(b.vertices[q].color)
  {
    if size > MaxBoardSize then Err(IndexError)
    else
      FreshValid(size);
      var b := Board(size, InvalidPoint, FreshVertices(size), FreshChains(size), Padding(4), 0);
      assert forall z :: HashOk(z, b) by {
        forall z ensures HashOk(z, b) {
          HashOfNoStones(z, b.vertices, 0);
        }
      }
      Ok(b)
  }

  /** `clone`: a new board of the same size whose fields are then copied one slot at a time. */
  method Clone(b: Board) returns (r: Board)
    requires Shaped(b)
    ensures r == b
  {
    var blank := NewBoard(b.size);
    r := blank.value.(lastKoPoint := b.lastKoPoint);
    var i := 0;
    while i < VirtualBoardPoints
      invariant 0 <= i <= VirtualBoardPoints == |r.vertices| == |r.chains|
      invariant r.vertices[..i] == b.vertices[..i] && r.chains[..i] == b.chains[..i]
      invariant r.size == b.size && r.lastKoPoint == b.lastKoPoint && |r.lastCaptures| == 4
    {
      var v, k := b.vertices[i], b.chains[i];
      r := r.(vertices := r.vertices[i := Vertex(v.chainHead, v.chainNext, v.color)],
              chains := r.chains[i := Chain(k.numStones, k.numPseudoLiberties, k.libertyVertexSum, k.libertyVertexSumSquared)]);
      i := i + 1;
    }
    var j := 0;
    while j < |b.lastCaptures|
      invariant 0 <= j <= 4 && |r.lastCaptures| == 4
      invariant r.lastCaptures[..j] == b.lastCaptures[..j]
      invariant r.vertices == b.vertices && r.chains == b.chains && r.size == b.size && r.lastKoPoint == b.lastKoPoint
    {
      r := r.(lastCaptures := r.lastCaptures[j := b.lastCaptures[j]]);
      j := j + 1;
    }
    r := r.(zobristHash := b.zobristHash);
    assert r.vertices[..VirtualBoardPoints] == r.vertices && r.lastCaptures[..4] == r.lastCaptures;
  }

  // ---------------------------------------------------------------------
  // Legality
  // ---------------------------------------------------------------------

  /** The neighbour `n` is a stone of colour `c` whose chain is not in atari. */
  predicate Connects(b: Board, n: int, c: Color)
    requires Valid(b)
  {
    PointColor(b, n) == Ok(c) && !ChainOf(b, n).value.InAtari()
  }

  /** The neighbour `n` is an opposing stone whose chain is in atari. */
  predicate Kills(b: Board, n: int, c: Color)
    requires Valid(b)
  {
    PointColor(b, n) == Ok(Opponent(c)) && ChainOf(b, n).value.InAtari()
  }

  /**
   * `is_legal_move`: a pass is always legal; otherwise `p` must be an empty
   * point of the board other than the ko point, and then the move is legal
   * when `p`'s record still has a pseudo-liberty, when it joins a chain of
   * its colour that is not in atari, or when it takes an opposing chain
   * that is in atari.
   */
  function IsLegalMove(b: Board, p: int, c: Color): (r: bool)
    requires Valid(b)
    ensures r && p != Pass ==> InBoard(b, p) && IsEmpty(b, p) == Ok(true) && p != b.lastKoPoint
  {
    if p == Pass then true
    else if !InBoard(b, p) then false
    else if IsEmpty(b, p) != Ok(true) || p == b.lastKoPoint then false
    else if ChainOf(b, p).value.numPseudoLiberties > 0 then true
    else
      (exists j :: 0 <= j < 4 && Connects(b, Neighbours(p)[j], c)) ||
      (exists j :: 0 <= j < 4 && Kills(b, Neighbours(p)[j], c))
  }

  /** What the checks `is_legal_move` makes on one neighbour mean for the stones. */
  lemma NeighbourChecks(b: Board, p: int, c: Color, j: int)
    requires Valid(b) && InBoard(b, p) && IsStone(c) && 0 <= j < 4
    ensures var n := Neighbours(p)[j];
            0 <= n < VirtualBoardPoints &&
            (Connects(b, n, c) <==> b.vertices[n].color == c && TwoLiberties(b.vertices, n)) &&
            (Kills(b, n, c) <==> b.vertices[n].color == Opponent(c) && !TwoLiberties(b.vertices, n))
  {
    PlacedInterior(b, p);
    var n := Neighbours(p)[j];
    if IsStone(b.vertices[n].color) {
      StoneOnBoard(b, n);
      InAtariMeaning(b, n);
    }
  }

  /** The record of an empty point has a pseudo-liberty exactly when the point has an empty neighbour. */
  lemma EmptyPointChecks(b: Board, p: int)
    requires Valid(b) && InBoard(b, p) && b.vertices[p].color == Empty
    ensures ChainOf(b, p).value.numPseudoLiberties > 0 <==>
            exists j :: 0 <= j < 4 && b.vertices[Neighbours(p)[j]].color == Empty
  {
    PlacedInterior(b, p);
    LibertyCount(b, p);
    assert b.vertices[p].chainHead == p by {
      assert EmptyOk(b.vertices, b.chains, p);
    }
    forall y ensures IsLiberty(b.vertices, p, y) <==> At(b.vertices, y).color == Empty && y in Neighbours(p) {
      EmptyPointLiberties(b.vertices, p, y);
    }
    if exists j :: 0 <= j < 4 && b.vertices[Neighbours(p)[j]].color == Empty {
      var j :| 0 <= j < 4 && b.vertices[Neighbours(p)[j]].color == Empty;
      assert IsLiberty(b.vertices, p, Neighbours(p)[j]);
    }
    if !NoLiberty(b.vertices, p) {
      var y :| IsLiberty(b.vertices, p, y);
      NeighbourIndex(p, y);
    }
  }

  /**
   * A move of a stone is legal exactly when it is a pass, or `p` is an
   * empty point of the board, not the ko point, where the stone breathes
   * once the captures are made.
   */
  lemma IsLegalMoveMeaning(b: Board, p: int, c: Color)
    requires Valid(b) && IsStone(c)
    ensures IsLegalMove(b, p, c) <==>
            p == Pass ||
            (InBoard(b, p) && At(b.vertices, p).color == Empty && p != b.lastKoPoint && Breathes(b.vertices, p, c))
  {
    if p != Pass && InBoard(b, p) && At(b.vertices, p).color == Empty && p != b.lastKoPoint {
      PlacedInterior(b, p);
      EmptyPointChecks(b, p);
      forall j | 0 <= j < 4
        ensures var n := Neighbours(p)[j];
                (Connects(b, n, c) <==> b.vertices[n].color == c && TwoLiberties(b.vertices, n)) &&
                (Kills(b, n, c) <==> b.vertices[n].color == Opponent(c) && !TwoLiberties(b.vertices, n))
      {
        NeighbourChecks(b, p, c, j);
      }
    }
  }

  // ---------------------------------------------------------------------
  // Playing a move
  // ---------------------------------------------------------------------

  /** `played_in_enemy_eye`: no neighbour of `p` is empty or of colour `c`. */
  predicate EnemyEye(b: Board, p: int, c: Color) {
    forall j :: 0 <= j < 4 ==> At(b.vertices, Neighbours(p)[j]).color != c && At(b.vertices, Neighbours(p)[j]).color != Empty
  }

  /** The results of placing and capturing, restated as the two steps of a move. */
  lemma MoveSteps(b: Board, placed: Board, g: int, swept: Board, dead: seq<int>, p: int, c: Color)
    requires Valid(b) && InBoardArea(b.size, p) && b.vertices[p].color == Empty && IsStone(c)
    requires Valid(placed) && placed.size == b.size && 0 <= p < VirtualBoardPoints && 0 <= g < VirtualBoardPoints
    requires placed.vertices[p].color == c && placed.vertices[p].chainHead == g
    requires forall x :: 0 <= x < VirtualBoardPoints && x != p ==> placed.vertices[x].color == b.vertices[x].color
    requires forall x :: Member(placed.vertices, g, x) <==> x == p || InChains(b.vertices, NbrHeads(b.vertices, p, c, 4), x)
    requires forall h, x :: h != g ==> (Member(placed.vertices, h, x) <==> Member(b.vertices, h, x) && h !in NbrHeads(b.vertices, p, c, 4))
    requires Valid(swept) && swept.size == placed.size
    requires |dead| <= 4 && Distinct(dead)
    requires forall j :: 0 <= j < |dead| ==>
               dead[j] in NbrHeads(placed.vertices, p, Opponent(c), 4) && 0 <= dead[j] < VirtualBoardPoints &&
               placed.chains[dead[j]].numPseudoLiberties == 0
    requires forall x :: 0 <= x < VirtualBoardPoints ==>
               swept.vertices[x] == if InDead(placed.vertices, dead, x) then Vertex(x, x, Empty) else placed.vertices[x]
    requires forall m :: 0 <= m < 4 ==> 0 <= Neighbours(p)[m] < VirtualBoardPoints && Survives(swept, Neighbours(p)[m], c)
    ensures AfterPlacing(b, placed, p, c, g) && AfterCapture(placed, swept, p, c, dead)
  {
  }

  /** What the move makes of the board, in terms of the stones of `b`. */
  lemma MoveOutcome(b: Board, placed: Board, swept: Board, moved: Board, p: int, c: Color, g: int, dead: seq<int>,
                    eye: bool, captured: int)
    requires AfterPlacing(b, placed, p, c, g) && AfterCapture(placed, swept, p, c, dead)
    requires swept.lastCaptures == dead + Padding(4 - |dead|) && captured == StonesOf(placed.chains, dead)
    requires eye == EnemyEye(b, p, c)
    requires moved == swept.(lastKoPoint := if eye && captured == 1 then swept.lastCaptures[0] else InvalidPoint)
    ensures 0 <= moved.vertices[p].chainHead < VirtualBoardPoints
    ensures moved.chains[moved.vertices[p].chainHead].numPseudoLiberties > 0 <==> Breathes(b.vertices, p, c)
    ensures forall x :: 0 <= x < VirtualBoardPoints ==>
              moved.vertices[x].color ==
                if x == p then c else if Captured(b.vertices, p, c, x) then Empty else b.vertices[x].color
    ensures forall m :: InChain(moved.vertices, p, m) <==> m == p || InChains(b.vertices, NbrHeads(b.vertices, p, c, 4), m)
    ensures CaptureList(b.vertices, p, c, moved.lastCaptures)
    ensures moved.lastKoPoint != InvalidPoint <==> eye && exists k :: SoleCapture(b.vertices, p, c, k)
    ensures moved.lastKoPoint != InvalidPoint ==> SoleCapture(b.vertices, p, c, moved.lastKoPoint) && moved.lastKoPoint in Neighbours(p)
  {
    SurvivalMeaning(b, placed, swept, p, c, g, dead);
    KoMeaning(b, placed, swept, p, c, g, dead);
    CaptureListOf(b, placed, swept, p, c, g, dead);
    ColoursAfterMove(b, placed, swept, p, c, g, dead);
    SweptChainOfP(b, placed, swept, p, c, g, dead);
  }

  /**
   * What a successful move of a stone of colour `c` at `p` makes of the
   * board `b`: `p` has colour `c`, the captured stones are gone and nothing
   * else changes colour; `p`'s chain is `p` and the chains of colour `c`
   * it touched; `last_captures` lists the captured chains; and the ko
   * point is set, to the captured stone, exactly when a move into an eye of
   * the opponent captured exactly one stone.
   */
  ghost predicate Outcome(b: Board, a: Board, p: int, c: Color)
    requires Shaped(b) && Shaped(a) && 0 <= p < VirtualBoardPoints
  {
    (forall x :: 0 <= x < VirtualBoardPoints ==>
       a.vertices[x].color ==
         if x == p then c else if Captured(b.vertices, p, c, x) then Empty else b.vertices[x].color) &&
    (forall m :: InChain(a.vertices, p, m) <==> m == p || InChains(b.vertices, NbrHeads(b.vertices, p, c, 4), m)) &&
    CaptureList(b.vertices, p, c, a.lastCaptures) &&
    (a.lastKoPoint != InvalidPoint <==> EnemyEye(b, p, c) && exists k :: SoleCapture(b.vertices, p, c, k)) &&
    (a.lastKoPoint != InvalidPoint ==> SoleCapture(b.vertices, p, c, a.lastKoPoint) && a.lastKoPoint in Neighbours(p))
  }

  /** `play` for a stone on an empty point of the board. */
  method PlayStone(z: Table, b: Board, p: int, c: Color) returns (r: Result<Board>)
    requires Valid(b) && HashOk(z, b) && InBoard(b, p) && At(b.vertices, p).color == Empty && IsStone(c)
    ensures 0 <= p < VirtualBoardPoints
    ensures r.Ok? <==> Breathes(b.vertices, p, c)
    ensures r.Err? ==> r.error == AssertionError
    ensures r.Ok? ==> Valid(r.value) && HashOk(z, r.value) && r.value.size == b.size && Outcome(b, r.value, p, c)
  {
    PlacedInterior(b, p);
    var eye := EnemyEye(b, p, c);
    var placed, g := PlaceStone(z, b, p, c);
    var swept, captured, dead := CaptureDeadChains(z, placed, p, c);
    MoveSteps(b, placed, g, swept, dead, p, c);
    var ko := if eye && captured == 1 then swept.lastCaptures[0] else InvalidPoint;
    var moved := swept.(lastKoPoint := ko);
    MoveOutcome(b, placed, swept, moved, p, c, g, dead, eye, captured);
    if moved.chains[moved.vertices[p].chainHead].numPseudoLiberties > 0 {
      r := Ok(moved);
    } else {
      r := Err(AssertionError);
    }
  }

  /**
   * `play`. A pass clears the ko point. Otherwise `p` must be an empty
   * point (the source asserts it); the stone joins its neighbouring chains
   * of colour `c`, the opposing chains it leaves without liberties are
   * captured, and the ko point becomes the captured stone when exactly one
   * stone was captured by a move into an eye of the opponent. A move whose
   * chain is then without liberties fails the suicide assertion. A failed
   * assertion is reported as an error instead of the partly updated board.
   * A move is legal exactly when it does not fail and is not at the ko point.
   */
  method Play(z: Table, b: Board, p: int, c: Color) returns (r: Result<Board>)
    requires Valid(b) && HashOk(z, b) && 0 <= p && IsStone(c)
    ensures p == Pass ==> r == Ok(b.(lastKoPoint := InvalidPoint))
    ensures p != Pass && p >= VirtualBoardPoints ==> r == Err(IndexError)
    ensures p != Pass && p < VirtualBoardPoints && b.vertices[p].color != Empty ==> r == Err(AssertionError)
    ensures p != Pass && p < VirtualBoardPoints && b.vertices[p].color == Empty ==>
              InBoard(b, p) && (r.Ok? <==> Breathes(b.vertices, p, c)) && (r.Err? ==> r.error == AssertionError)
    ensures p != Pass ==> (IsLegalMove(b, p, c) <==> r.Ok? && p != b.lastKoPoint)
    ensures r.Ok? ==> Valid(r.value) && HashOk(z, r.value) && r.value.size == b.size
    ensures r.Ok? && p != Pass ==> 0 <= p < VirtualBoardPoints && Valid(r.value) && Outcome(b, r.value, p, c)
  {
    if p == Pass {
      return Ok(b.(lastKoPoint := InvalidPoint));
    }
    if p >= VirtualBoardPoints {
      return Err(IndexError);
    }
    IsLegalMoveMeaning(b, p, c);
    if b.vertices[p].color != Empty {
      return Err(AssertionError);
    }
    assert GuardOk(b.size, b.vertices, p);
    r := PlayStone(z, b, p, c);
  }
}

=== FILE: errors.dfy ===
/** The Python exceptions the board code can raise, carried as values. */
module Errors {

  /** The exception classes that the modelled code raises or lets escape. */
  datatype PyError = IndexError | ValueError | AssertionError | ZeroDivisionError

  /** A computation that either returns a value or raises one of the errors above. */
  datatype Result<+T> = Ok(value: T) | Err(error: PyError)
}

=== FILE: joins.dfy ===
/**
 * `_join_chains_around`: before a stone of colour `c` goes on `p`, every
 * chain of colour `c` next to `p` is merged into the largest of them (the
 * first one met among the largest). Merging two chains adds the smaller
 * record into the larger, relabels the smaller chain's stones and splices
 * the two circular lists by swapping two successors.
 */
module Joins {
  import opened Colors
  import opened Coords
  import opened Chains
  import opened Vertices
  import opened Sums
  import opened Boards
  import opened Tallies
  import opened Updates
  import opened Placing

  // ---------------------------------------------------------------------
  // Relabelling a circular list
  // ---------------------------------------------------------------------

  /** `v` with its chain head replaced by `g`. */
  function Relabelled(v: Vertex, g: int): Vertex {
    Vertex(g, v.chainNext, v.color)
  }

  /**
   * The `while True` loop of `_join_chains_around`: starting at `n`, give
   * every point of `n`'s circular list the head `g`, stopping on the way
   * back to `n`.
   */
  method Relabel(vs: seq<Vertex>, n: int, g: int, ghost k: nat) returns (vs': seq<Vertex>)
    requires Cycle(vs, n, k) && k >= 1 && 0 <= n < |vs|
    ensures |vs'| == |vs|
    ensures forall x :: 0 <= x < |vs| ==> vs'[x] == if x in Walk(vs, n, k) then Relabelled(vs[x], g) else vs[x]
  {
    ghost var w := Walk(vs, n, k);
    WalkInRange(vs, n, k);
    assert forall j :: 0 < j < k ==> w[j] != w[0];
    vs' := vs;
    var cur := n;
    ghost var i := 0;
    while true
      invariant 0 <= i < k && cur == w[i]
      invariant |vs'| == |vs|
      invariant forall x :: 0 <= x < |vs| ==> vs'[x] == if x in w[..i] then Relabelled(vs[x], g) else vs[x]
      decreases k - i
    {
      vs' := vs'[cur := Relabelled(vs'[cur], g)];
      assert w[..i + 1] == w[..i] + [cur];
      if i + 1 < k {
        WalkSucc(vs, n, k, i);
      } else {
        CycleLast(vs, n, k);
      }
      cur := vs'[cur].chainNext;
      i := i + 1;
      if cur == n {
        assert i == k;
        break;
      }
    }
    assert w[..i] == w;
  }

  // ---------------------------------------------------------------------
  // Merging two chains of the same colour
  // ---------------------------------------------------------------------

  /**
   * `b'` is the valid board `b` after the chain of stone `n` (head `h`) was
   * merged into the different chain headed by `g` of the same colour:
   * colours stay, the stones of `h` take head `g`, the successors of `g` and
   * `n` are swapped, and `g`'s record absorbed `h`'s.
   */
  ghost predicate Merged(b: Board, b': Board, g: int, n: int) {
    var vs, vs' := b.vertices, b'.vertices;
    Valid(b) && 0 <= g < VirtualBoardPoints && 0 <= n < VirtualBoardPoints &&
    IsStone(vs[g].color) && vs[g].chainHead == g && vs[n].color == vs[g].color && vs[n].chainHead != g &&
    0 <= vs[n].chainHead < VirtualBoardPoints && Shaped(b') && b'.size == b.size &&
    (forall x :: 0 <= x < VirtualBoardPoints ==>
       vs'[x].color == vs[x].color &&
       vs'[x].chainHead == (if Member(vs, vs[n].chainHead, x) then g else vs[x].chainHead)) &&
    SameNextExcept(vs, vs', {g, n}) && vs'[g].chainNext == vs[n].chainNext && vs'[n].chainNext == vs[g].chainNext &&
    b'.chains == b.chains[g := b.chains[g].Merge(b.chains[vs[n].chainHead])]
  }

  /** The stones of `h` now belong to `g`; every other stone keeps its chain. */
  lemma MergedMember(b: Board, b': Board, g: int, n: int, h': int, x: int)
    requires Merged(b, b', g, n)
    ensures Member(b'.vertices, h', x) <==> if Member(b.vertices, b.vertices[n].chainHead, x) then h' == g else Member(b.vertices, h', x)
  {
  }

  lemma MergedMembers(b: Board, b': Board, g: int, n: int, h': int)
    requires Merged(b, b', g, n)
    ensures forall x :: Member(b'.vertices, h', x) <==> if Member(b.vertices, b.vertices[n].chainHead, x) then h' == g else Member(b.vertices, h', x)
  {
    forall x ensures Member(b'.vertices, h', x) <==> if Member(b.vertices, b.vertices[n].chainHead, x) then h' == g else Member(b.vertices, h', x) {
      MergedMember(b, b', g, n, h', x);
    }
  }

  /** The facts about `g`, `n` and `h` a valid board gives. */
  lemma MergedHeads(b: Board, b': Board, g: int, n: int)
    requires Merged(b, b', g, n)
    ensures var h := b.vertices[n].chainHead;
            0 <= h < VirtualBoardPoints && b.vertices[h].color == b.vertices[g].color && b.vertices[h].chainHead == h &&
            Member(b.vertices, h, n) && !Member(b.vertices, h, g) && h != g
  {
    assert StoneOk(b.vertices, n);
  }

  lemma MergedGuard(b: Board, b': Board, g: int, n: int, q: int)
    requires Merged(b, b', g, n) && 0 <= q < VirtualBoardPoints
    ensures GuardOk(b'.size, b'.vertices, q)
  {
    assert GuardOk(b.size, b.vertices, q);
    if !IsStone(b.vertices[q].color) {
      assert q != g && q != n;
    }
  }

  /** Arrays with the same colours everywhere count the same empty neighbours everywhere. */
  lemma ColorsTally(vs: seq<Vertex>, vs': seq<Vertex>, q: int)
    requires |vs| == |vs'| && forall x :: 0 <= x < |vs| ==> vs'[x].color == vs[x].color
    ensures EmptyTally(vs', q) == EmptyTally(vs, q)
  {
    EmptyTallyFrame(vs, vs', q);
  }

  lemma MergedEmpty(b: Board, b': Board, g: int, n: int, q: int)
    requires Merged(b, b', g, n) && 0 <= q < VirtualBoardPoints
    ensures EmptyOk(b'.vertices, b'.chains, q)
  {
    if b'.vertices[q].color == Empty {
      assert q != g && q != n;
      assert EmptyOk(b.vertices, b.chains, q);
    }
  }

  lemma MergedEmptyLibs(b: Board, b': Board, g: int, n: int, q: int)
    requires Merged(b, b', g, n) && 0 <= q < VirtualBoardPoints
    ensures EmptyLibsOk(b'.vertices, b'.chains, q)
  {
    if b'.vertices[q].color == Empty {
      assert q != g;
      assert EmptyLibsOk(b.vertices, b.chains, q);
      ColorsTally(b.vertices, b'.vertices, q);
    }
  }

  lemma MergedStone(b: Board, b': Board, g: int, n: int, q: int)
    requires Merged(b, b', g, n) && 0 <= q < VirtualBoardPoints
    ensures StoneOk(b'.vertices, q)
  {
    var vs, vs' := b.vertices, b'.vertices;
    var h := vs[n].chainHead;
    MergedHeads(b, b', g, n);
    if IsStone(vs'[q].color) {
      assert StoneOk(vs, q);
      var h0 := vs[q].chainHead;
      var ns := Neighbours(q);
      if Member(vs, h, q) {
        forall i | 0 <= i < 4 && At(vs', ns[i]).color == vs'[q].color ensures At(vs', ns[i]).chainHead == g {
          assert At(vs, ns[i]).chainHead == h;
        }
      } else {
        assert !Member(vs, h, h0);
        forall i | 0 <= i < 4 && At(vs', ns[i]).color == vs'[q].color ensures At(vs', ns[i]).chainHead == h0 {
          assert At(vs, ns[i]).chainHead == h0;
        }
      }
    }
  }

  /** The merged chain: its closed walk is the splice of the two old ones. */
  lemma MergedHeadOfG(b: Board, b': Board, g: int, n: int)
    requires Merged(b, b', g, n)
    ensures HeadOk(b'.vertices, b'.chains, g)
  {
    var vs, vs' := b.vertices, b'.vertices;
    var h := vs[n].chainHead;
    MergedHeads(b, b', g, n);
    assert HeadOk(vs, b.chains, g) && HeadOk(vs, b.chains, h);
    var kg, kh := b.chains[g].numStones, b.chains[h].numStones;
    WalkFromStone(b, n);
    Splice(vs, vs', g, n, kg, kh);
    MergedMembers(b, b', g, n, g);
    assert b'.chains[g].numStones == kg + kh;
  }

  /** Any other chain keeps its walk, its members and its record. */
  lemma MergedHeadOther(b: Board, b': Board, g: int, n: int, q: int)
    requires Merged(b, b', g, n) && 0 <= q < VirtualBoardPoints && q != g
    requires IsStone(b'.vertices[q].color) && b'.vertices[q].chainHead == q
    ensures HeadOk(b'.vertices, b'.chains, q)
    ensures HeadLibsOk(b'.vertices, b'.chains, q)
  {
    var vs, vs' := b.vertices, b'.vertices;
    var h := vs[n].chainHead;
    MergedHeads(b, b', g, n);
    assert !Member(vs, h, q) && vs[q].chainHead == q && q != h;
    assert HeadOk(vs, b.chains, q) && HeadLibsOk(vs, b.chains, q);
    var k := b.chains[q].numStones;
    var w := Walk(vs, q, k);
    forall i | 0 <= i < |w| ensures w[i] !in {g, n} {
      assert w[i] in w;
    }
    WalkFrame(vs, vs', q, k, {g, n});
    MergedMembers(b, b', g, n, q);
    LibTallyFrame(vs, vs', q);
  }

  lemma MergedHead(b: Board, b': Board, g: int, n: int, q: int)
    requires Merged(b, b', g, n) && 0 <= q < VirtualBoardPoints
    ensures HeadOk(b'.vertices, b'.chains, q)
  {
    if q == g {
      MergedHeadOfG(b, b', g, n);
    } else if IsStone(b'.vertices[q].color) && b'.vertices[q].chainHead == q {
      MergedHeadOther(b, b', g, n, q);
    }
  }

  /** Point by point, the merged chain's contribution is the sum of the two old chains' contributions. */
  lemma MergedTerm(vs: seq<Vertex>, vs': seq<Vertex>, g: int, h: int, x: int, e: Chain)
    requires e == EmptyTally(vs, x) && e == EmptyTally(vs', x)
    requires Member(vs', g, x) <==> Member(vs, g, x) || Member(vs, h, x)
    requires !(Member(vs, g, x) && Member(vs, h, x))
    ensures Term(vs', g, x) == Term(vs, g, x).Merge(Term(vs, h, x))
  {
    TermSplit(Member(vs', g, x), Member(vs, g, x), Member(vs, h, x), e);
  }

  lemma TermSplit(m: bool, m1: bool, m2: bool, e: Chain)
    requires m == (m1 || m2) && !(m1 && m2)
    ensures (if m then e else Zero) == (if m1 then e else Zero).Merge(if m2 then e else Zero)
  {
    MergeZero(e);
  }

  /** The merged chain's liberty tally is the merge of the two old tallies. */
  lemma MergedTally(vs: seq<Vertex>, vs': seq<Vertex>, g: int, h: int)
    requires |vs| == |vs'| == VirtualBoardPoints && forall y :: 0 <= y < |vs| ==> vs'[y].color == vs[y].color
    requires forall x :: Member(vs', g, x) <==> Member(vs, g, x) || Member(vs, h, x)
    requires forall x :: !(Member(vs, g, x) && Member(vs, h, x))
    ensures LibTally(vs', g) == LibTally(vs, g).Merge(LibTally(vs, h))
  {
    forall x | 0 <= x < VirtualBoardPoints ensures TermFn(vs', g)(x) == TermFn(vs, g)(x).Merge(TermFn(vs, h)(x)) {
      ColorsTally(vs, vs', x);
      MergedTerm(vs, vs', g, h, x, EmptyTally(vs, x));
    }
    SumOfMerge(TermFn(vs, g), TermFn(vs, h), TermFn(vs', g), 0, VirtualBoardPoints);
  }

  lemma MergedHeadLibs(b: Board, b': Board, g: int, n: int, q: int)
    requires Merged(b, b', g, n) && 0 <= q < VirtualBoardPoints
    ensures HeadLibsOk(b'.vertices, b'.chains, q)
  {
    var vs, vs' := b.vertices, b'.vertices;
    var h := vs[n].chainHead;
    if q == g {
      MergedHeads(b, b', g, n);
      assert HeadLibsOk(vs, b.chains, g) && HeadLibsOk(vs, b.chains, h);
      MergedMembers(b, b', g, n, g);
      MergedTally(vs, vs', g, h);
      LibertiesMerge(b.chains[g], b.chains[h]);
    } else if IsStone(vs'[q].color) && vs'[q].chainHead == q {
      MergedHeadOther(b, b', g, n, q);
    }
  }

  /** Merging two chains of the same colour leaves a valid board. */
  lemma MergedValid(b: Board, b': Board, g: int, n: int)
    requires Merged(b, b', g, n)
    ensures Valid(b')
  {
    forall q | 0 <= q < VirtualBoardPoints ensures GuardOk(b'.size, b'.vertices, q) {
      MergedGuard(b, b', g, n, q);
    }
    forall q | 0 <= q < VirtualBoardPoints ensures EmptyOk(b'.vertices, b'.chains, q) {
      MergedEmpty(b, b', g, n, q);
    }
    forall q | 0 <= q < VirtualBoardPoints ensures EmptyLibsOk(b'.vertices, b'.chains, q) {
      MergedEmptyLibs(b, b', g, n, q);
    }
    forall q | 0 <= q < VirtualBoardPoints ensures StoneOk(b'.vertices, q) {
      MergedStone(b, b', g, n, q);
    }
    forall q | 0 <= q < VirtualBoardPoints ensures HeadOk(b'.vertices, b'.chains, q) {
      MergedHead(b, b', g, n, q);
    }
    forall q | 0 <= q < VirtualBoardPoints ensures HeadLibsOk(b'.vertices, b'.chains, q) {
      MergedHeadLibs(b, b', g, n, q);
    }
  }

  /** The circular list through any stone, followed from that stone, visits exactly the stones of its chain. */
  lemma WalkFromStone(b: Board, n: int)
    requires Valid(b) && 0 <= n < VirtualBoardPoints && IsStone(b.vertices[n].color)
    ensures var h := b.vertices[n].chainHead;
            0 <= h < VirtualBoardPoints && b.chains[h].numStones >= 1 &&
            Cycle(b.vertices, n, b.chains[h].numStones) &&
            forall x :: x in Walk(b.vertices, n, b.chains[h].numStones) <==> Member(b.vertices, h, x)
  {
    var vs := b.vertices;
    var h := vs[n].chainHead;
    assert StoneOk(vs, n);
    assert HeadOk(vs, b.chains, h);
    var kh := b.chains[h].numStones;
    var wh := Walk(vs, h, kh);
    assert Member(vs, h, n);
    var j :| 0 <= j < |wh| && wh[j] == n;
    Rotate(vs, h, kh, j);
    var wn := Walk(vs, n, kh);
    assert forall x :: x in wn <==> x in wh by {
      assert wn == wh[j..] + wh[..j];
      assert wh == wh[..j] + wh[j..];
    }
  }

  /**
   * Merging the chain of stone `n` into the chain headed by `g`, as one
   * pass of the second loop of `_join_chains_around` does: `g`'s record
   * absorbs the other record, the other chain's stones are relabelled, and
   * the two circular lists are spliced. The result is again a valid board.
   */
  method MergeChains(b: Board, g: int, n: int) returns (r: Board)
    requires Valid(b) && 0 <= g < VirtualBoardPoints && 0 <= n < VirtualBoardPoints
    requires IsStone(b.vertices[g].color) && b.vertices[g].chainHead == g
    requires b.vertices[n].color == b.vertices[g].color && b.vertices[n].chainHead != g
    ensures Merged(b, r, g, n) && Valid(r)
    ensures r.lastKoPoint == b.lastKoPoint && r.lastCaptures == b.lastCaptures && r.zobristHash == b.zobristHash
  {
    var vs := b.vertices;
    var h := vs[n].chainHead;
    WalkFromStone(b, n);
    var chains := b.chains[g := b.chains[g].Merge(b.chains[h])];
    var vs1 := Relabel(vs, n, g, b.chains[h].numStones);
    var gNext, nNext := vs1[g].chainNext, vs1[n].chainNext;
    var vs2 := vs1[g := Vertex(vs1[g].chainHead, nNext, vs1[g].color)][n := Vertex(vs1[n].chainHead, gNext, vs1[n].color)];
    r := b.(vertices := vs2, chains := chains);
    assert g != n;
    MergedValid(b, r, g, n);
  }

  // ---------------------------------------------------------------------
  // The largest neighbouring chain of the colour played
  // ---------------------------------------------------------------------

  /** The stone count of the chain of stone `n`. */
  function SizeAt(b: Board, n: int): int
    requires Valid(b) && 0 <= n < VirtualBoardPoints && IsStone(b.vertices[n].color)
  {
    HeadKind(b, n);
    b.chains[b.vertices[n].chainHead].numStones
  }

  /** One pass of the first loop of `_join_chains_around`: a strictly larger chain of colour `c` replaces the best so far. */
  function LargestStep(b: Board, c: Color, n: int, best: (int, int)): (int, int)
    requires Valid(b) && IsStone(c) && 0 <= n < VirtualBoardPoints
  {
    if b.vertices[n].color == c && SizeAt(b, n) > best.1 then (b.vertices[n].chainHead, SizeAt(b, n)) else best
  }

  /** The head and size of the largest chain of colour `c` next to `p`, the first met on a tie; `(InvalidPoint, 0)` if there is none. */
  function LargestNeighbourChain(b: Board, p: int, c: Color): (int, int)
    requires Valid(b) && InBoardArea(b.size, p) && IsStone(c)
  {
    var ns := Neighbours(p);
    NeighboursInGrid(b.size, p);
    LargestStep(b, c, ns[3], LargestStep(b, c, ns[2], LargestStep(b, c, ns[1], LargestStep(b, c, ns[0], (InvalidPoint, 0)))))
  }

  /** What the first `k` passes of the loop know about `best`. */
  ghost predicate LargestSoFar(b: Board, p: int, c: Color, k: int, best: (int, int))
    requires Valid(b) && InBoardArea(b.size, p) && IsStone(c) && 0 <= k <= 4
  {
    var vs, ns := b.vertices, Neighbours(p);
    NeighboursInGrid(b.size, p);
    (best.1 == 0 <==> forall i :: 0 <= i < k ==> vs[ns[i]].color != c) &&
    (best.1 == 0 ==> best.0 == InvalidPoint) &&
    (best.1 != 0 ==> exists i :: 0 <= i < k && vs[ns[i]].color == c && vs[ns[i]].chainHead == best.0 &&
                                SizeAt(b, ns[i]) == best.1 &&
                                forall j :: 0 <= j < i && vs[ns[j]].color == c ==> SizeAt(b, ns[j]) < best.1) &&
    (forall j :: 0 <= j < k && vs[ns[j]].color == c ==> SizeAt(b, ns[j]) <= best.1)
  }

  lemma LargestStepSpec(b: Board, p: int, c: Color, k: int, best: (int, int))
    requires Valid(b) && InBoardArea(b.size, p) && IsStone(c) && 0 <= k < 4
    requires LargestSoFar(b, p, c, k, best)
    ensures LargestSoFar(b, p, c, k + 1, LargestStep(b, c, Neighbours(p)[k], best))
  {
    var vs, ns := b.vertices, Neighbours(p);
    NeighboursInGrid(b.size, p);
    var n := ns[k];
    var best' := LargestStep(b, c, n, best);
    if vs[n].color == c {
      assert StoneOk(vs, n);
      assert HeadOk(vs, b.chains, vs[n].chainHead);
    }
    if best' != best {
      assert 0 <= k < k + 1 && vs[ns[k]].color == c && vs[ns[k]].chainHead == best'.0 && SizeAt(b, ns[k]) == best'.1;
    } else if best.1 != 0 {
      var i :| 0 <= i < k && vs[ns[i]].color == c && vs[ns[i]].chainHead == best.0 && SizeAt(b, ns[i]) == best.1 &&
               forall j :: 0 <= j < i && vs[ns[j]].color == c ==> SizeAt(b, ns[j]) < best.1;
      assert 0 <= i < k + 1;
      assert forall j :: 0 <= j < i && vs[ns[j]].color == c ==> SizeAt(b, ns[j]) < best'.1;
    }
  }

  /**
   * The loop's result: size 0 exactly when no neighbour has colour `c`;
   * otherwise the head of a neighbour's chain of colour `c` that no other
   * such chain outgrows, and that no earlier neighbour's chain equals.
   */
  lemma LargestNeighbourChainSpec(b: Board, p: int, c: Color)
    requires Valid(b) && InBoardArea(b.size, p) && IsStone(c)
    ensures LargestSoFar(b, p, c, 4, LargestNeighbourChain(b, p, c))
  {
    var ns := Neighbours(p);
    NeighboursInGrid(b.size, p);
    var b0 := (InvalidPoint, 0);
    var b1 := LargestStep(b, c, ns[0], b0);
    var b2 := LargestStep(b, c, ns[1], b1);
    var b3 := LargestStep(b, c, ns[2], b2);
    LargestStepSpec(b, p, c, 0, b0);
    LargestStepSpec(b, p, c, 1, b1);
    LargestStepSpec(b, p, c, 2, b2);
    LargestStepSpec(b, p, c, 3, b3);
  }

  // ---------------------------------------------------------------------
  // The merging loop
  // ---------------------------------------------------------------------

  /** The heads, on the board `vs`, of the chains of colour `c` among the first `i` neighbours of `p`. */
  ghost function NbrHeads(vs: seq<Vertex>, p: int, c: Color, i: nat): set<int>
    decreases i
  {
    if i == 0 then {}
    else NbrHeads(vs, p, c, i - 1) +
         (if i - 1 < 4 && At(vs, Neighbours(p)[i - 1]).color == c then {At(vs, Neighbours(p)[i - 1]).chainHead} else {})
  }

  /** `x` is a stone of `vs` whose chain has its head in `hs`. */
  ghost predicate InChains(vs: seq<Vertex>, hs: set<int>, x: int) {
    0 <= x < |vs| && IsStone(vs[x].color) && vs[x].chainHead in hs
  }

  /**
   * After `i` passes of the merging loop started on `b0`: `b` is valid with
   * the same colours, every neighbour of colour `c` seen so far is in `g`'s
   * chain, `g`'s chain holds its old stones and those of the chains seen,
   * and every other chain is as before or gone.
   */
  ghost predicate JoinInv(b0: Board, b: Board, p: int, c: Color, g: int, i: nat) {
    var vs0, vs, ns := b0.vertices, b.vertices, Neighbours(p);
    Valid(b) && Shaped(b0) && b.size == b0.size && IsStone(c) &&
    (forall j :: 0 <= j < 4 ==> 0 <= ns[j] < VirtualBoardPoints) &&
    b.lastKoPoint == b0.lastKoPoint && b.lastCaptures == b0.lastCaptures && b.zobristHash == b0.zobristHash &&
    (forall x :: 0 <= x < VirtualBoardPoints ==> vs[x].color == vs0[x].color) &&
    0 <= g < VirtualBoardPoints && vs[g].color == c && vs[g].chainHead == g &&
    (forall j :: 0 <= j < i && j < 4 && At(vs, ns[j]).color == c ==> At(vs, ns[j]).chainHead == g) &&
    (forall x :: Member(vs, g, x) <==> Member(vs0, g, x) || InChains(vs0, NbrHeads(vs0, p, c, i), x)) &&
    (forall h, x :: h != g ==> (Member(vs, h, x) <==> Member(vs0, h, x) && h !in NbrHeads(vs0, p, c, i)))
  }

  /** A pass that finds nothing to merge keeps the invariant. */
  lemma JoinSkip(b0: Board, b: Board, p: int, c: Color, g: int, i: nat)
    requires JoinInv(b0, b, p, c, g, i) && i < 4
    requires !(At(b.vertices, Neighbours(p)[i]).color == c && At(b.vertices, Neighbours(p)[i]).chainHead != g)
    ensures JoinInv(b0, b, p, c, g, i + 1)
  {
    var vs0, vs, ns := b0.vertices, b.vertices, Neighbours(p);
    var n := ns[i];
    var H, H' := NbrHeads(vs0, p, c, i), NbrHeads(vs0, p, c, i + 1);
    if At(vs, n).color == c {
      assert Member(vs, g, n);
      var h0 := vs0[n].chainHead;
      assert H' == H + {h0};
      assert h0 == g || h0 in H;
      forall x ensures Member(vs, g, x) <==> Member(vs0, g, x) || InChains(vs0, H', x) {
      }
      forall h, x | h != g ensures Member(vs, h, x) <==> Member(vs0, h, x) && h !in H' {
      }
    } else {
      assert At(vs0, n).color != c;
      assert H' == H;
    }
  }

  /** A pass that merges the chain of neighbour `i` into `g` keeps the invariant. */
  lemma JoinMerge(b0: Board, b: Board, b': Board, p: int, c: Color, g: int, i: nat)
    requires JoinInv(b0, b, p, c, g, i) && i < 4
    requires 0 <= Neighbours(p)[i] < VirtualBoardPoints
    requires Merged(b, b', g, Neighbours(p)[i])
    requires b'.lastKoPoint == b.lastKoPoint && b'.lastCaptures == b.lastCaptures && b'.zobristHash == b.zobristHash
    requires b.vertices[Neighbours(p)[i]].color == c
    ensures JoinInv(b0, b', p, c, g, i + 1)
  {
    var vs0, vs, vs', ns := b0.vertices, b.vertices, b'.vertices, Neighbours(p);
    var n := ns[i];
    var h0 := vs0[n].chainHead;
    var H, H' := NbrHeads(vs0, p, c, i), NbrHeads(vs0, p, c, i + 1);
    MergedHeads(b, b', g, n);
    MergedValid(b, b', g, n);
    assert Member(vs, vs[n].chainHead, n);
    assert vs[n].chainHead == h0 && h0 !in H && h0 != g;
    assert H' == H + {h0};
    forall x ensures Member(vs, h0, x) <==> Member(vs0, h0, x) {
    }
    forall x ensures Member(vs', g, x) <==> Member(vs0, g, x) || InChains(vs0, H', x) {
      MergedMember(b, b', g, n, g, x);
    }
    forall h, x | h != g ensures Member(vs', h, x) <==> Member(vs0, h, x) && h !in H' {
      MergedMember(b, b', g, n, h, x);
    }
    forall j | 0 <= j < i + 1 && j < 4 && At(vs', ns[j]).color == c ensures At(vs', ns[j]).chainHead == g {
      if j < i {
        assert At(vs, ns[j]).chainHead == g;
      }
    }
  }

  /** The head of every neighbour of colour `c` among the first `i` is in `NbrHeads`, and only those are. */
  lemma {:induction false} NbrHeadsMembers(vs: seq<Vertex>, p: int, c: Color, i: nat, h: int)
    requires i <= 4
    ensures h in NbrHeads(vs, p, c, i) <==>
            exists j :: 0 <= j < i && At(vs, Neighbours(p)[j]).color == c && At(vs, Neighbours(p)[j]).chainHead == h
    decreases i
  {
    if i > 0 {
      NbrHeadsMembers(vs, p, c, i - 1, h);
      var ns := Neighbours(p);
      if At(vs, ns[i - 1]).color == c && At(vs, ns[i - 1]).chainHead == h {
        assert h in NbrHeads(vs, p, c, i);
      }
    }
  }

  /**
   * `_join_chains_around(p, c)`, with `p` still empty. When no neighbour
   * has colour `c`, `p` starts a chain of its own (`g == p`). Otherwise
   * every neighbouring chain of colour `c` is merged into the largest one,
   * headed by `g`, giving the valid board `merged`; then `p` is linked in
   * right after `g` and `g`'s record counts one more stone and the empty
   * neighbours of `p`.
   */
  method JoinChainsAround(b: Board, p: int, c: Color) returns (r: Board, merged: Board, g: int)
    requires Valid(b) && InBoardArea(b.size, p) && b.vertices[p].color == Empty && IsStone(c)
    ensures Valid(merged) && merged.size == b.size && 0 <= p < VirtualBoardPoints && 0 <= g < VirtualBoardPoints
    ensures JoinTarget(merged, p, c, g)
    ensures g == p <==> forall i :: 0 <= i < 4 ==> At(b.vertices, Neighbours(p)[i]).color != c
    ensures g != p ==> g == LargestNeighbourChain(b, p, c).0
    ensures forall x :: 0 <= x < VirtualBoardPoints ==> merged.vertices[x].color == b.vertices[x].color
    ensures forall x :: Member(merged.vertices, g, x) <==> InChains(b.vertices, NbrHeads(b.vertices, p, c, 4), x)
    ensures forall h, x :: h != g ==> (Member(merged.vertices, h, x) <==> Member(b.vertices, h, x) && h !in NbrHeads(b.vertices, p, c, 4))
    ensures r.vertices == PlacedVertices(merged.vertices, p, Empty, g)
    ensures r.chains == merged.chains[g := PlacedRecord(merged, p, g, g)]
    ensures r.size == b.size && r.lastKoPoint == b.lastKoPoint && r.lastCaptures == b.lastCaptures && r.zobristHash == b.zobristHash
  {
    var ns := Neighbours(p);
    NeighboursInGrid(b.size, p);
    InBoardAreaBounds(b.size, p);
    LargestNeighbourChainSpec(b, p, c);
    var best := LargestNeighbourChain(b, p, c);
    if best.1 == 0 {
      r := InitNewChain(b, p);
      merged, g := b, p;
      FreshJoin(b, p, c);
      NewChainRecordIsPlaced(b, p);
      return;
    }
    g := best.0;
    ghost var i0 :| 0 <= i0 < 4 && b.vertices[ns[i0]].color == c && b.vertices[ns[i0]].chainHead == g;
    assert StoneOk(b.vertices, ns[i0]);
    merged := MergeAround(b, p, c, g);
    JoinDone(b, merged, p, c, g, i0);
    r := LinkStone(merged, p, g);
  }

  /** The merging loop of `_join_chains_around`: every neighbouring chain of colour `c` goes into `g`'s. */
  method MergeAround(b: Board, p: int, c: Color, g: int) returns (r: Board)
    requires JoinInv(b, b, p, c, g, 0)
    ensures JoinInv(b, r, p, c, g, 4)
  {
    var ns := Neighbours(p);
    r := b;
    for i := 0 to 4
      invariant JoinInv(b, r, p, c, g, i)
    {
      var n := ns[i];
      if r.vertices[n].color == c && r.vertices[n].chainHead != g {
        var next := MergeChains(r, g, n);
        JoinMerge(b, r, next, p, c, g, i);
        r := next;
      } else {
        JoinSkip(b, r, p, c, g, i);
      }
    }
  }

  /**
   * The tail of `_join_chains_around`: `p` is linked into `g`'s cycle
   * right after `g`, and `g`'s record counts one more stone and the
   * empty neighbours of `p`.
   */
  method LinkStone(b: Board, p: int, g: int) returns (r: Board)
    requires Shaped(b) && 0 <= p < VirtualBoardPoints && 0 <= g < VirtualBoardPoints && g != p
    requires b.vertices[p].color == Empty
    ensures r.vertices == PlacedVertices(b.vertices, p, Empty, g)
    ensures r.chains == b.chains[g := PlacedRecord(b, p, g, g)]
    ensures r.size == b.size && r.lastKoPoint == b.lastKoPoint && r.lastCaptures == b.lastCaptures && r.zobristHash == b.zobristHash
  {
    var vs := b.vertices;
    var vs1 := vs[p := Vertex(vs[p].chainHead, vs[g].chainNext, vs[p].color)];
    vs1 := vs1[g := Vertex(vs1[g].chainHead, p, vs1[g].color)];
    vs1 := vs1[p := Vertex(g, vs1[p].chainNext, vs1[p].color)];
    var record := AddEmptyNeighbours(vs1, b.chains[g].AddStone(), p);
    r := b.(vertices := vs1, chains := b.chains[g := record]);
    assert vs1 == PlacedVertices(vs, p, Empty, g);
    JoinedRecordIsPlaced(b, vs1, p, g);
  }

  /** With no neighbour of colour `c`, there is nothing to merge and `p`, being empty, heads no stones. */
  lemma FreshJoin(b: Board, p: int, c: Color)
    requires Valid(b) && 0 <= p < VirtualBoardPoints && b.vertices[p].color == Empty
    requires forall i :: 0 <= i < 4 ==> 0 <= Neighbours(p)[i] < VirtualBoardPoints
    requires forall i :: 0 <= i < 4 ==> b.vertices[Neighbours(p)[i]].color != c
    ensures forall i :: 0 <= i < 4 ==> At(b.vertices, Neighbours(p)[i]).color != c
    ensures forall x :: !Member(b.vertices, p, x)
    ensures NbrHeads(b.vertices, p, c, 4) == {}
  {
    forall x ensures !Member(b.vertices, p, x) {
      if Member(b.vertices, p, x) {
        HeadKind(b, x);
      }
    }
    forall h ensures h !in NbrHeads(b.vertices, p, c, 4) {
      NbrHeadsMembers(b.vertices, p, c, 4, h);
    }
  }

  /** After the loop, `g`'s chain holds exactly the stones of the chains merged, `g`'s own among them. */
  lemma JoinDone(b: Board, cur: Board, p: int, c: Color, g: int, i0: int)
    requires JoinInv(b, cur, p, c, g, 4) && 0 <= i0 < 4
    requires At(b.vertices, Neighbours(p)[i0]).color == c && At(b.vertices, Neighbours(p)[i0]).chainHead == g
    ensures forall x :: Member(cur.vertices, g, x) <==> InChains(b.vertices, NbrHeads(b.vertices, p, c, 4), x)
  {
    NbrHeadsMembers(b.vertices, p, c, 4, g);
  }

  /** The record `_init_new_chain` gives `p` is the one placing a lone stone expects. */
  lemma NewChainRecordIsPlaced(b: Board, p: int)
    requires Shaped(b) && 0 <= p < VirtualBoardPoints
    ensures NewChainRecord(b.vertices, p) == PlacedRecord(b, p, p, p)
  {
    AddEmptyNeighboursTally(b.vertices, Chain(1, 0, 0, 0), p);
  }

  /** The record of `g` after `p` joined it is the one placing `p` expects. */
  lemma JoinedRecordIsPlaced(b: Board, vs1: seq<Vertex>, p: int, g: int)
    requires Shaped(b) && 0 <= g < VirtualBoardPoints && g != p
    requires |vs1| == VirtualBoardPoints && forall x :: 0 <= x < VirtualBoardPoints ==> vs1[x].color == b.vertices[x].color
    ensures AddEmptyNeighbours(vs1, b.chains[g].AddStone(), p) == PlacedRecord(b, p, g, g)
  {
    AddEmptyNeighboursTally(vs1, b.chains[g].AddStone(), p);
    ColorsTally(b.vertices, vs1, p);
  }
}

=== FILE: liberties.dfy ===
/**
 * What the liberty records mean. Under the representation invariant the
 * record of a point's chain is the tally of an explicit list of liberty
 * instances (each empty point next to a member, once per such member), so
 * the atari test and the single-liberty division speak about the actual
 * empty points around the chain.
 */
module Liberties {
  import opened Colors
  import opened Coords
  import opened Chains
  import opened Vertices
  import opened Sums
  import opened Boards

  /** `[n]` if `n` is empty, `[]` otherwise. */
  function IfEmpty(vs: seq<Vertex>, n: int): seq<int> {
    if At(vs, n).color == Empty then [n] else []
  }

  /** The empty neighbours of `q`, in `neighbours` order. */
  function EmptyNbrs(vs: seq<Vertex>, q: int): seq<int> {
    var ns := Neighbours(q);
    IfEmpty(vs, ns[0]) + IfEmpty(vs, ns[1]) + IfEmpty(vs, ns[2]) + IfEmpty(vs, ns[3])
  }

  lemma EmptyNbrsMembers(vs: seq<Vertex>, q: int, x: int)
    ensures x in EmptyNbrs(vs, q) <==> x in Neighbours(q) && At(vs, x).color == Empty
  {
  }

  /** The record an empty point keeps is the tally of its empty neighbours. */
  lemma EmptyTallyList(vs: seq<Vertex>, q: int)
    ensures EmptyTally(vs, q) == Tally(0, EmptyNbrs(vs, q))
  {
    var ns := Neighbours(q);
    var e0, e1, e2, e3 := IfEmpty(vs, ns[0]), IfEmpty(vs, ns[1]), IfEmpty(vs, ns[2]), IfEmpty(vs, ns[3]);
    assert Tally(0, []) == Zero;
    UnitTally(ns[0]);
    UnitTally(ns[1]);
    UnitTally(ns[2]);
    UnitTally(ns[3]);
    assert Tally(0, e0) == NbrTerm(vs, ns[0]);
    assert Tally(0, e1) == NbrTerm(vs, ns[1]);
    assert Tally(0, e2) == NbrTerm(vs, ns[2]);
    assert Tally(0, e3) == NbrTerm(vs, ns[3]);
    MergeTally(0, e0, 0, e1);
    MergeTally(0, e0 + e1, 0, e2);
    MergeTally(0, e0 + e1 + e2, 0, e3);
    EmptyTallyUnfold(vs, q);
  }

  /** The liberty instances counted for the chain headed by `h`, member by member over points `lo..hi`. */
  ghost function LibList(vs: seq<Vertex>, h: int, lo: int, hi: int): seq<int>
    decreases hi - lo
  {
    if lo >= hi then []
    else (if Member(vs, h, lo) then EmptyNbrs(vs, lo) else []) + LibList(vs, h, lo + 1, hi)
  }

  lemma {:induction false} LibListTally(vs: seq<Vertex>, h: int, lo: int, hi: int)
    ensures Tally(0, LibList(vs, h, lo, hi)) == SumOf(TermFn(vs, h), lo, hi)
    decreases hi - lo
  {
    if lo < hi {
      LibListTally(vs, h, lo + 1, hi);
      var mine := if Member(vs, h, lo) then EmptyNbrs(vs, lo) else [];
      var rest := LibList(vs, h, lo + 1, hi);
      assert LibList(vs, h, lo, hi) == mine + rest;
      EmptyTallyList(vs, lo);
      assert Tally(0, mine) == Term(vs, h, lo);
      MergeTally(0, mine, 0, rest);
      assert SumOf(TermFn(vs, h), lo, hi) == TermFn(vs, h)(lo).Merge(SumOf(TermFn(vs, h), lo + 1, hi));
    }
  }

  /** `x` is an empty neighbour of a member of `h` among the points `lo..hi`. */
  ghost predicate NearMember(vs: seq<Vertex>, h: int, lo: int, hi: int, x: int) {
    exists m :: lo <= m < hi && Member(vs, h, m) && x in EmptyNbrs(vs, m)
  }

  lemma {:induction false} LibListMembers(vs: seq<Vertex>, h: int, lo: int, hi: int, x: int)
    ensures x in LibList(vs, h, lo, hi) <==> NearMember(vs, h, lo, hi, x)
    decreases hi - lo
  {
    if lo < hi {
      LibListMembers(vs, h, lo + 1, hi, x);
      var mine := if Member(vs, h, lo) then EmptyNbrs(vs, lo) else [];
      var rest := LibList(vs, h, lo + 1, hi);
      assert LibList(vs, h, lo, hi) == mine + rest;
      if x in mine {
        assert Member(vs, h, lo) && x in EmptyNbrs(vs, lo);
      } else if x in rest {
        var m :| lo + 1 <= m < hi && Member(vs, h, m) && x in EmptyNbrs(vs, m);
        assert lo <= m < hi;
      }
      if NearMember(vs, h, lo, hi, x) {
        var m :| lo <= m < hi && Member(vs, h, m) && x in EmptyNbrs(vs, m);
        if m == lo {
          assert x in mine;
        } else {
          assert NearMember(vs, h, lo + 1, hi, x);
        }
      }
    } else {
      assert LibList(vs, h, lo, hi) == [];
    }
  }

  /** `m` belongs to the chain of point `p`: a fellow member if `p` is a stone, `p` itself otherwise. */
  ghost predicate InChain(vs: seq<Vertex>, p: int, m: int)
    requires 0 <= p < |vs|
  {
    if IsStone(vs[p].color) then Member(vs, vs[p].chainHead, m) else m == p
  }

  /** `x` is a liberty of the chain of `p`: an empty point next to some point of that chain. */
  ghost predicate IsLiberty(vs: seq<Vertex>, p: int, x: int)
    requires 0 <= p < |vs|
  {
    At(vs, x).color == Empty && exists m :: InChain(vs, p, m) && x in Neighbours(m)
  }

  /** The liberty instances the record of `p`'s chain counts. */
  ghost function ChainLibList(vs: seq<Vertex>, p: int): seq<int>
    requires 0 <= p < |vs|
  {
    if IsStone(vs[p].color) then LibList(vs, vs[p].chainHead, 0, VirtualBoardPoints) else EmptyNbrs(vs, p)
  }

  /**
   * For every point of the board, the liberty fields of its chain record
   * tally the list `ChainLibList`, and that list holds exactly the liberties
   * of the chain.
   */
  lemma ChainRecord(b: Board, p: int)
    requires Valid(b) && InBoardArea(b.size, p)
    ensures 0 <= p < VirtualBoardPoints && 0 <= b.vertices[p].chainHead < VirtualBoardPoints
    ensures b.chains[b.vertices[p].chainHead].Liberties() == Tally(0, ChainLibList(b.vertices, p))
    ensures forall x :: x in ChainLibList(b.vertices, p) <==> IsLiberty(b.vertices, p, x)
  {
    InBoardAreaBounds(b.size, p);
    var vs := b.vertices;
    assert GuardOk(b.size, vs, p) && EmptyOk(vs, b.chains, p) && EmptyLibsOk(vs, b.chains, p) && StoneOk(vs, p);
    if IsStone(vs[p].color) {
      var h := vs[p].chainHead;
      assert HeadLibsOk(vs, b.chains, h);
      StoneRecord(vs, b.chains[h], p);
    } else {
      assert vs[p].color == Empty;
      EmptyRecord(vs, p);
    }
  }

  lemma StoneRecord(vs: seq<Vertex>, c: Chain, p: int)
    requires |vs| == VirtualBoardPoints && 0 <= p < |vs| && IsStone(vs[p].color)
    requires c.Liberties() == LibTally(vs, vs[p].chainHead)
    ensures c.Liberties() == Tally(0, ChainLibList(vs, p))
    ensures forall x :: x in ChainLibList(vs, p) <==> IsLiberty(vs, p, x)
  {
    var h := vs[p].chainHead;
    LibListTally(vs, h, 0, VirtualBoardPoints);
    forall x ensures x in ChainLibList(vs, p) <==> IsLiberty(vs, p, x) {
      LibListMembers(vs, h, 0, VirtualBoardPoints, x);
      if x in ChainLibList(vs, p) {
        var m :| 0 <= m < VirtualBoardPoints && Member(vs, h, m) && x in EmptyNbrs(vs, m);
        EmptyNbrsMembers(vs, m, x);
        assert InChain(vs, p, m);
      }
      if IsLiberty(vs, p, x) {
        var m :| InChain(vs, p, m) && x in Neighbours(m);
        EmptyNbrsMembers(vs, m, x);
        assert x in EmptyNbrs(vs, m);
      }
    }
  }

  lemma EmptyRecord(vs: seq<Vertex>, p: int)
    requires 0 <= p < |vs| && !IsStone(vs[p].color)
    ensures EmptyTally(vs, p) == Tally(0, ChainLibList(vs, p))
    ensures forall x :: x in ChainLibList(vs, p) <==> IsLiberty(vs, p, x)
  {
    EmptyTallyList(vs, p);
    forall x ensures x in ChainLibList(vs, p) <==> IsLiberty(vs, p, x) {
      EmptyNbrsMembers(vs, p, x);
      if x in ChainLibList(vs, p) {
        assert InChain(vs, p, p);
      }
    }
  }
}

=== FILE: moves.dfy ===
/**
 * The first half of `play` for a stone: `_join_chains_around`, then
 * `_set_stone`, then `_remove_liberty_from_neighbouring_chains`. The result
 * is a valid board whose hash still matches its stones, in which `p` has
 * colour `c` and has joined every neighbouring chain of that colour.
 */
module Moves {
  import opened Colors
  import opened Coords
  import opened Chains
  import opened Vertices
  import opened Zobrist
  import opened Boards
  import opened Tallies
  import opened Updates
  import opened Placing
  import opened Joins

  /** Recolouring `p` in the joined vertices gives the placed vertices. */
  lemma RecolouredIsPlaced(vs: seq<Vertex>, p: int, c: Color, g: int)
    requires 0 <= p < |vs| && 0 <= g < |vs|
    ensures var ws := PlacedVertices(vs, p, Empty, g);
            ws[p := ws[p].(color := c)] == PlacedVertices(vs, p, c, g)
  {
  }

  /** After joining, the heads of `p`'s neighbours still index the chain array. */
  lemma JoinedHeadsIndexable(merged: Board, vs: seq<Vertex>, cs: seq<Chain>, p: int, c: Color, g: int)
    requires Valid(merged) && InBoardArea(merged.size, p) && 0 <= g < VirtualBoardPoints
    requires vs == PlacedVertices(merged.vertices, p, c, g) && |cs| == VirtualBoardPoints
    ensures HeadsIndexable(vs, cs, p)
  {
    PlacedInterior(merged, p);
    forall i | 0 <= i < 4 ensures 0 <= At(vs, Neighbours(p)[i]).chainHead < |cs| {
      var n := Neighbours(p)[i];
      assert n != p;
      HeadKind(merged, n);
    }
  }

  /** `_remove_liberty_from_neighbouring_chains(p)` applied to a board. */
  function TakeLiberty(b: Board, p: int): (r: Board)
    requires HeadsIndexable(b.vertices, b.chains, p)
    ensures r.vertices == b.vertices && r.size == b.size && r.lastKoPoint == b.lastKoPoint
    ensures r.lastCaptures == b.lastCaptures && r.zobristHash == b.zobristHash
    ensures |r.chains| == |b.chains|
    ensures forall g :: 0 <= g < |b.chains| ==> r.chains[g].Merge(Owned(b.vertices, g, p)) == b.chains[g]
  {
    b.(chains := RemoveLibertyAround(b.vertices, b.chains, p))
  }

  /** Joining, recolouring and debiting the neighbours is the placement `Placed` describes. */
  lemma JoinedIsPlaced(merged: Board, r: Board, p: int, c: Color, g: int, cs: seq<Chain>)
    requires Shaped(merged) && 0 <= p < VirtualBoardPoints && 0 <= g < VirtualBoardPoints
    requires cs == merged.chains[g := PlacedRecord(merged, p, g, g)]
    requires r.vertices == PlacedVertices(merged.vertices, p, c, g) && |r.chains| == |cs|
    requires |r.lastCaptures| == 4 && r.size == merged.size
    requires forall q :: 0 <= q < |cs| ==> r.chains[q].Merge(Owned(r.vertices, q, p)) == cs[q]
    ensures PlacedAs(merged, r, p, c, g)
  {
    assert |r.vertices| == VirtualBoardPoints;
    DebitedRecords(merged, r, p, g, cs);
  }

  /** Debiting the joined records leaves, before the debit, the placed records. */
  lemma DebitedRecords(merged: Board, r: Board, p: int, g: int, cs: seq<Chain>)
    requires Shaped(merged) && |r.chains| == VirtualBoardPoints && 0 <= g < VirtualBoardPoints
    requires cs == merged.chains[g := PlacedRecord(merged, p, g, g)]
    requires forall q :: 0 <= q < VirtualBoardPoints ==> r.chains[q].Merge(Owned(r.vertices, q, p)) == cs[q]
    ensures PlacedChains(merged, r, p, g)
  {
    forall q | 0 <= q < VirtualBoardPoints ensures r.chains[q].Merge(Owned(r.vertices, q, p)) == PlacedRecord(merged, p, g, q) {
      assert cs[q] == PlacedRecord(merged, p, g, q);
    }
  }

  /** Joining and placing keep the hash in step with the stones. */
  lemma PlacedHash(z: Table, b: Board, merged: Board, joined: Board, p: int, c: Color, g: int)
    requires HashOk(z, b) && 0 <= p < |b.vertices| == |merged.vertices| && 0 <= g < |b.vertices|
    requires forall x :: 0 <= x < |b.vertices| ==> merged.vertices[x].color == b.vertices[x].color
    requires joined.vertices == PlacedVertices(merged.vertices, p, Empty, g) && joined.zobristHash == b.zobristHash
    requires b.vertices[p].color == Empty && IsStone(c)
    ensures HashOk(z, SetStone(z, joined, p, c))
  {
    assert forall x :: 0 <= x < |b.vertices| ==> joined.vertices[x].color == b.vertices[x].color;
    HashOfColors(z, b.vertices, joined.vertices, 0);
    SetStoneHash(z, joined, p, c);
  }

  /** Only `p` changes colour. */
  lemma PlacedColors(b: Board, merged: Board, r: Board, p: int, c: Color, g: int)
    requires |b.vertices| == |merged.vertices| == VirtualBoardPoints && 0 <= p < VirtualBoardPoints && 0 <= g < VirtualBoardPoints
    requires forall x :: 0 <= x < VirtualBoardPoints ==> merged.vertices[x].color == b.vertices[x].color
    requires r.vertices == PlacedVertices(merged.vertices, p, c, g)
    ensures forall x :: 0 <= x < VirtualBoardPoints && x != p ==> r.vertices[x].color == b.vertices[x].color
  {
  }

  /** Who belongs to which chain once `p` has joined the merged chains. */
  lemma PlacedMembership(b: Board, merged: Board, r: Board, p: int, c: Color, g: int, hs: set<int>)
    requires Placed(merged, r, p, c, g) && |b.vertices| == VirtualBoardPoints && b.vertices[p].color == Empty
    requires forall x :: Member(merged.vertices, g, x) <==> InChains(b.vertices, hs, x)
    requires forall h, x :: h != g ==> (Member(merged.vertices, h, x) <==> Member(b.vertices, h, x) && h !in hs)
    ensures forall x :: Member(r.vertices, g, x) <==> x == p || InChains(b.vertices, hs, x)
    ensures forall h, x :: h != g ==> (Member(r.vertices, h, x) <==> Member(b.vertices, h, x) && h !in hs)
  {
    forall h, x ensures Member(r.vertices, h, x) <==> (x == p && h == g) || (x != p && Member(merged.vertices, h, x)) {
      PlacedMember(merged, r, p, c, g, h, x);
    }
  }

  /**
   * The stone `p` of colour `c` put on the empty point `p` of the valid
   * board `b`: it joins the chain headed by `g` (its own when `g == p`)
   * that holds every neighbouring stone of colour `c`.
   */
  method PlaceStone(z: Table, b: Board, p: int, c: Color) returns (r: Board, g: int)
    requires Valid(b) && HashOk(z, b) && InBoardArea(b.size, p) && b.vertices[p].color == Empty && IsStone(c)
    ensures Valid(r) && HashOk(z, r)
    ensures r.size == b.size && r.lastKoPoint == b.lastKoPoint && r.lastCaptures == b.lastCaptures
    ensures 0 <= p < VirtualBoardPoints && 0 <= g < VirtualBoardPoints
    ensures r.vertices[p].color == c && r.vertices[p].chainHead == g
    ensures forall x :: 0 <= x < VirtualBoardPoints && x != p ==> r.vertices[x].color == b.vertices[x].color
    ensures g == p <==> forall i :: 0 <= i < 4 ==> At(b.vertices, Neighbours(p)[i]).color != c
    ensures forall x :: Member(r.vertices, g, x) <==> x == p || InChains(b.vertices, NbrHeads(b.vertices, p, c, 4), x)
    ensures forall h, x :: h != g ==> (Member(r.vertices, h, x) <==> Member(b.vertices, h, x) && h !in NbrHeads(b.vertices, p, c, 4))
  {
    var joined, merged;
    joined, merged, g := JoinChainsAround(b, p, c);
    var placed := SetStone(z, joined, p, c);
    RecolouredIsPlaced(merged.vertices, p, c, g);
    JoinedHeadsIndexable(merged, placed.vertices, placed.chains, p, c, g);
    r := TakeLiberty(placed, p);
    JoinedIsPlaced(merged, r, p, c, g, joined.chains);
    PlacedInterior(merged, p);
    PlacedValid(merged, r, p, c, g);
    PlacedHash(z, b, merged, joined, p, c, g);
    PlacedMembership(b, merged, r, p, c, g, NbrHeads(b.vertices, p, c, 4));
    PlacedFrame(merged, r, p, c, g, p);
    PlacedColors(b, merged, r, p, c, g);
  }
}

=== FILE: place.dfy ===
/**
 * Putting a stone down. After `_join_chains_around` has merged the
 * neighbouring chains of the new stone's colour into one chain headed by
 * `g` (or, when there are none, `p` starts a chain of its own), the stone is
 * linked into that chain, coloured, and taken out of the liberty records of
 * its neighbours. The lemmas here show that this leaves a valid board.
 */
module Placing {
  import opened Colors
  import opened Coords
  import opened Chains
  import opened Vertices
  import opened Boards
  import opened Tallies
  import opened Updates

  /** The vertices once `p` is linked in after `g` (or made its own list when `g == p`) and coloured `c`. */
  function PlacedVertices(vs: seq<Vertex>, p: int, c: Color, g: int): seq<Vertex>
    requires 0 <= p < |vs| && 0 <= g < |vs|
  {
    if g == p then vs[p := Vertex(p, p, c)]
    else vs[p := Vertex(g, vs[g].chainNext, c)][g := vs[g].(chainNext := p)]
  }

  /** The record at `q` before the liberty instances of `p` are taken out of the neighbours' records. */
  function PlacedRecord(b: Board, p: int, g: int, q: int): Chain
    requires Shaped(b) && 0 <= q < VirtualBoardPoints
  {
    if q != g then b.chains[q]
    else if g == p then Chain(1, 0, 0, 0).Merge(EmptyTally(b.vertices, p))
    else b.chains[g].AddStone().Merge(EmptyTally(b.vertices, p))
  }

  /** `g` is a chain `p` may join as colour `c`: every neighbour of colour `c` is in it; with `g == p`, there is none. */
  ghost predicate JoinTarget(b: Board, p: int, c: Color, g: int)
    requires Shaped(b) && 0 <= g < VirtualBoardPoints
  {
    var vs := b.vertices;
    (g == p ==> forall i :: 0 <= i < 4 ==> At(vs, Neighbours(p)[i]).color != c) &&
    (g != p ==> vs[g].color == c && vs[g].chainHead == g &&
                forall i :: 0 <= i < 4 ==> At(vs, Neighbours(p)[i]).color == c ==> At(vs, Neighbours(p)[i]).chainHead == g)
  }

  /**
   * `b'` is the board `b` (valid, `p` an empty point of the board) after
   * the stone `p` of colour `c` joined the chain headed by `g` and every
   * neighbour's chain gave up its liberty instances of `p`.
   */
  ghost predicate Placed(b: Board, b': Board, p: int, c: Color, g: int) {
    Valid(b) && InBoardArea(b.size, p) && 0 <= p < VirtualBoardPoints && b.vertices[p].color == Empty &&
    IsStone(c) && 0 <= g < VirtualBoardPoints && JoinTarget(b, p, c, g) &&
    PlacedAs(b, b', p, c, g)
  }

  /** The part of `Placed` that describes `b'`. */
  ghost predicate PlacedAs(b: Board, b': Board, p: int, c: Color, g: int)
    requires Shaped(b) && 0 <= p < VirtualBoardPoints && 0 <= g < VirtualBoardPoints
  {
    Shaped(b') && b'.size == b.size &&
    b'.vertices == PlacedVertices(b.vertices, p, c, g) &&
    PlacedChains(b, b', p, g)
  }

  /** Each record of `b'`, with the instances of `p` its chain gave up put back, is the placed record. */
  ghost predicate PlacedChains(b: Board, b': Board, p: int, g: int)
    requires Shaped(b) && |b'.chains| == VirtualBoardPoints
  {
    forall q :: 0 <= q < VirtualBoardPoints ==> b'.chains[q].Merge(Owned(b'.vertices, q, p)) == PlacedRecord(b, p, g, q)
  }

  // ---------------------------------------------------------------------
  // Facts about valid boards
  // ---------------------------------------------------------------------

  /** Points the placement leaves alone. */
  lemma PlacedFrame(b: Board, b': Board, p: int, c: Color, g: int, q: int)
    requires Placed(b, b', p, c, g) && 0 <= q < VirtualBoardPoints
    ensures q != p ==> b'.vertices[q].color == b.vertices[q].color && b'.vertices[q].chainHead == b.vertices[q].chainHead
    ensures q != p && q != g ==> b'.vertices[q] == b.vertices[q]
    ensures b'.vertices[p] == Vertex(g, if g == p then p else b.vertices[g].chainNext, c)
    ensures g != p ==> b'.vertices[g] == b.vertices[g].(chainNext := p)
  {
  }

  lemma PlacedInterior(b: Board, p: int)
    requires Valid(b) && InBoardArea(b.size, p)
    ensures Interior(p) && 0 <= p < VirtualBoardPoints
    ensures forall i :: 0 <= i < 4 ==> 0 <= Neighbours(p)[i] < VirtualBoardPoints
  {
    InteriorOfBoard(b.size, p);
    NeighboursInGrid(b.size, p);
  }

  /** Records of empty points and heads only change by the instances of `p` taken out. */
  lemma OwnedNoStones(vs: seq<Vertex>, g: int, p: int)
    ensures Owned(vs, g, p).numStones == 0
    ensures Owned(vs, g, p).Liberties() == Owned(vs, g, p)
  {
    var ns := Neighbours(p);
    OwnTermNoStones(At(vs, ns[0]).chainHead, g, p);
    OwnTermNoStones(At(vs, ns[1]).chainHead, g, p);
    OwnTermNoStones(At(vs, ns[2]).chainHead, g, p);
    OwnTermNoStones(At(vs, ns[3]).chainHead, g, p);
    NoStonesMerge4(OwnTerm(At(vs, ns[0]).chainHead, g, p), OwnTerm(At(vs, ns[1]).chainHead, g, p),
                   OwnTerm(At(vs, ns[2]).chainHead, g, p), OwnTerm(At(vs, ns[3]).chainHead, g, p));
  }

  lemma OwnTermNoStones(h: int, g: int, p: int)
    ensures OwnTerm(h, g, p).numStones == 0
  {
  }

  lemma NoStonesMerge4(t0: Chain, t1: Chain, t2: Chain, t3: Chain)
    requires t0.numStones == 0 && t1.numStones == 0 && t2.numStones == 0 && t3.numStones == 0
    ensures var m := t0.Merge(t1).Merge(t2).Merge(t3); m.numStones == 0 && m.Liberties() == m
  {
  }

  // ---------------------------------------------------------------------
  // What the neighbours give up
  // ---------------------------------------------------------------------

  /** Four terms of which at most the `i`-th is `u` (none when `i` is out of range) merge to that one. */
  lemma Select4(t0: Chain, t1: Chain, t2: Chain, t3: Chain, u: Chain, i: int)
    requires t0 == (if i == 0 then u else Zero) && t1 == (if i == 1 then u else Zero)
    requires t2 == (if i == 2 then u else Zero) && t3 == (if i == 3 then u else Zero)
    ensures t0.Merge(t1).Merge(t2).Merge(t3) == if 0 <= i < 4 then u else Zero
  {
    if i == 0 {
      OnlyOne(t0, t1, t2, t3, u);
    } else if i == 1 {
      OnlyOne(t1, t0, t2, t3, u);
    } else if i == 2 {
      OnlyOne(t2, t0, t1, t3, u);
    } else if i == 3 {
      OnlyOne(t3, t0, t1, t2, u);
    } else {
      OnlyOne(t0, t1, t2, t3, Zero);
    }
  }

  /** `u` merged with three `Zero`s, in any position, is `u`. */
  lemma OnlyOne(a: Chain, b: Chain, c: Chain, d: Chain, u: Chain)
    requires a == u && b == Zero && c == Zero && d == Zero
    ensures a.Merge(b).Merge(c).Merge(d) == u && b.Merge(a).Merge(c).Merge(d) == u
    ensures b.Merge(c).Merge(a).Merge(d) == u && b.Merge(c).Merge(d).Merge(a) == u
  {
  }

  /** An empty point `q` gives up one instance of `p` if it is a neighbour of `p`, none otherwise. */
  lemma OwnedEmpty(vs: seq<Vertex>, q: int, p: int)
    requires forall i :: 0 <= i < 4 ==> (At(vs, Neighbours(p)[i]).chainHead == q <==> Neighbours(p)[i] == q)
    ensures Owned(vs, q, p) == if q in Neighbours(p) then Unit(p) else Zero
  {
    var ns := Neighbours(p);
    NeighbourIndex(p, q);
    var i := if q == ns[0] then 0 else if q == ns[1] then 1 else if q == ns[2] then 2 else if q == ns[3] then 3 else 4;
    assert forall j :: 0 <= j < 4 ==> (ns[j] == q <==> j == i);
    Select4(OwnTerm(At(vs, ns[0]).chainHead, q, p), OwnTerm(At(vs, ns[1]).chainHead, q, p),
            OwnTerm(At(vs, ns[2]).chainHead, q, p), OwnTerm(At(vs, ns[3]).chainHead, q, p), Unit(p), i);
  }

  /** A chain gives up one instance of `p` per member next to `p`. */
  lemma OwnedStone(vs: seq<Vertex>, g: int, p: int)
    requires forall i :: 0 <= i < 4 ==> (At(vs, Neighbours(p)[i]).chainHead == g <==> Member(vs, g, Neighbours(p)[i]))
    ensures Owned(vs, g, p) == MemberAdj(vs, g, p)
  {
    var ns := Neighbours(p);
    assert OwnTerm(At(vs, ns[0]).chainHead, g, p) == AdjTerm(vs, g, ns[0], p);
    assert OwnTerm(At(vs, ns[1]).chainHead, g, p) == AdjTerm(vs, g, ns[1], p);
    assert OwnTerm(At(vs, ns[2]).chainHead, g, p) == AdjTerm(vs, g, ns[2], p);
    assert OwnTerm(At(vs, ns[3]).chainHead, g, p) == AdjTerm(vs, g, ns[3], p);
  }

  /** Membership after placing: `p` joins `g`, nothing else moves. */
  lemma PlacedMember(b: Board, b': Board, p: int, c: Color, g: int, h: int, x: int)
    requires Placed(b, b', p, c, g)
    ensures Member(b'.vertices, h, x) <==> (x == p && h == g) || (x != p && Member(b.vertices, h, x))
  {
    if 0 <= x < VirtualBoardPoints {
      PlacedFrame(b, b', p, c, g, x);
    }
  }

  /** The heads of the neighbours of `p` in the placed board. */
  lemma PlacedNeighbourHeads(b: Board, b': Board, p: int, c: Color, g: int, q: int)
    requires Placed(b, b', p, c, g) && 0 <= q < VirtualBoardPoints
    ensures IsStone(b'.vertices[q].color) && b'.vertices[q].chainHead == q ==>
              forall i :: 0 <= i < 4 ==> (At(b'.vertices, Neighbours(p)[i]).chainHead == q <==> Member(b'.vertices, q, Neighbours(p)[i]))
    ensures b'.vertices[q].color == Empty ==>
              forall i :: 0 <= i < 4 ==> (At(b'.vertices, Neighbours(p)[i]).chainHead == q <==> Neighbours(p)[i] == q)
  {
    PlacedInterior(b, p);
    var ns := Neighbours(p);
    forall i | 0 <= i < 4
      ensures IsStone(b'.vertices[q].color) && b'.vertices[q].chainHead == q ==>
                (At(b'.vertices, ns[i]).chainHead == q <==> Member(b'.vertices, q, ns[i]))
      ensures b'.vertices[q].color == Empty ==> (At(b'.vertices, ns[i]).chainHead == q <==> ns[i] == q)
    {
      var n := ns[i];
      assert n != p;
      PlacedFrame(b, b', p, c, g, n);
      PlacedFrame(b, b', p, c, g, q);
      HeadKind(b, n);
      if q != p {
        HeadKind(b, q);
      }
    }
  }

  // ---------------------------------------------------------------------
  // The invariant, one kind of fact at a time
  // ---------------------------------------------------------------------

  lemma PlacedGuard(b: Board, b': Board, p: int, c: Color, g: int, q: int)
    requires Placed(b, b', p, c, g) && 0 <= q < VirtualBoardPoints
    ensures GuardOk(b'.size, b'.vertices, q)
  {
    PlacedFrame(b, b', p, c, g, q);
    assert GuardOk(b.size, b.vertices, q);
    if g != p {
      assert GuardOk(b.size, b.vertices, g);
    }
  }

  lemma PlacedEmpty(b: Board, b': Board, p: int, c: Color, g: int, q: int)
    requires Placed(b, b', p, c, g) && 0 <= q < VirtualBoardPoints
    ensures EmptyOk(b'.vertices, b'.chains, q)
  {
    PlacedFrame(b, b', p, c, g, q);
    if b'.vertices[q].color == Empty {
      assert q != p && q != g;
      assert EmptyOk(b.vertices, b.chains, q);
      OwnedNoStones(b'.vertices, q, p);
    }
  }

  lemma PlacedEmptyLibs(b: Board, b': Board, p: int, c: Color, g: int, q: int)
    requires Placed(b, b', p, c, g) && 0 <= q < VirtualBoardPoints
    ensures EmptyLibsOk(b'.vertices, b'.chains, q)
  {
    var vs, vs' := b.vertices, b'.vertices;
    PlacedFrame(b, b', p, c, g, q);
    if vs'[q].color == Empty {
      assert q != p && q != g;
      assert EmptyLibsOk(vs, b.chains, q);
      PlacedNeighbourHeads(b, b', p, c, g, q);
      OwnedEmpty(vs', q, p);
      OwnedNoStones(vs', q, p);
      assert SameColorsExcept(vs, vs', p) by {
        forall x | 0 <= x < |vs| && x != p ensures vs'[x].color == vs[x].color {
          PlacedFrame(b, b', p, c, g, x);
        }
      }
      EmptyTallyFill(vs, vs', p, q);
      NeighboursSymmetric(p, q);
      var u := Owned(vs', q, p);
      LibertiesMerge(b'.chains[q], u);
      MergeCancel(b'.chains[q].Liberties(), EmptyTally(vs', q), u);
    }
  }

  lemma PlacedStone(b: Board, b': Board, p: int, c: Color, g: int, q: int)
    requires Placed(b, b', p, c, g) && 0 <= q < VirtualBoardPoints
    ensures StoneOk(b'.vertices, q)
  {
    var vs, vs' := b.vertices, b'.vertices;
    PlacedInterior(b, p);
    PlacedFrame(b, b', p, c, g, q);
    PlacedFrame(b, b', p, c, g, g);
    if IsStone(vs'[q].color) {
      var h := vs'[q].chainHead;
      var ns := Neighbours(q);
      if q == p {
        forall i | 0 <= i < 4 && At(vs', ns[i]).color == c ensures At(vs', ns[i]).chainHead == g {
          PlacedFrame(b, b', p, c, g, ns[i]);
        }
      } else {
        assert StoneOk(vs, q);
        PlacedFrame(b, b', p, c, g, h);
        HeadKind(b, q);
        forall i | 0 <= i < 4 && At(vs', ns[i]).color == vs'[q].color ensures At(vs', ns[i]).chainHead == h {
          if ns[i] == p {
            NeighboursSymmetric(q, p);
            var j :| 0 <= j < 4 && Neighbours(p)[j] == q;
            assert At(vs, Neighbours(p)[j]).color == c;
          } else if 0 <= ns[i] < VirtualBoardPoints {
            PlacedFrame(b, b', p, c, g, ns[i]);
          }
        }
      }
    }
  }

  /** Only the links at `g` and `p` change. */
  lemma PlacedNext(b: Board, b': Board, p: int, c: Color, g: int)
    requires Placed(b, b', p, c, g)
    ensures SameNextExcept(b.vertices, b'.vertices, {g, p})
  {
    forall x | 0 <= x < VirtualBoardPoints && x !in {g, p} ensures b'.vertices[x].chainNext == b.vertices[x].chainNext {
      PlacedFrame(b, b', p, c, g, x);
    }
  }

  /** The members of every chain after placing. */
  lemma PlacedMembers(b: Board, b': Board, p: int, c: Color, g: int, h: int)
    requires Placed(b, b', p, c, g)
    ensures forall x :: Member(b'.vertices, h, x) <==> (x == p && h == g) || (x != p && Member(b.vertices, h, x))
    ensures !Member(b.vertices, h, p)
    ensures g == p ==> forall x :: !Member(b.vertices, p, x)
  {
    forall x ensures Member(b'.vertices, h, x) <==> (x == p && h == g) || (x != p && Member(b.vertices, h, x)) {
      PlacedMember(b, b', p, c, g, h, x);
    }
    if g == p {
      forall x | Member(b.vertices, p, x) ensures false {
        HeadKind(b, x);
      }
    }
  }

  /** The stone count at `q` is the one before, plus one for the chain `p` joined. */
  lemma PlacedStones(b: Board, b': Board, p: int, g: int, q: int)
    requires Shaped(b) && Shaped(b') && 0 <= q < VirtualBoardPoints
    requires b'.chains[q].Merge(Owned(b'.vertices, q, p)) == PlacedRecord(b, p, g, q)
    ensures b'.chains[q].numStones == if q != g then b.chains[q].numStones else if g == p then 1 else b.chains[g].numStones + 1
  {
    OwnedNoStones(b'.vertices, q, p);
    PlacedRecordStones(b, p, g, q);
    StonesUnmerged(b'.chains[q], Owned(b'.vertices, q, p), PlacedRecord(b, p, g, q));
  }

  lemma MergeStones(x: Chain, y: Chain)
    ensures x.Merge(y).numStones == x.numStones + y.numStones
  {
  }

  lemma StonesUnmerged(x: Chain, o: Chain, r: Chain)
    requires x.Merge(o) == r && o.numStones == 0
    ensures x.numStones == r.numStones
  {
  }

  lemma PlacedRecordStones(b: Board, p: int, g: int, q: int)
    requires Shaped(b) && 0 <= q < VirtualBoardPoints
    ensures PlacedRecord(b, p, g, q).numStones == if q != g then b.chains[q].numStones else if g == p then 1 else b.chains[g].numStones + 1
  {
    EmptyTallyNoStones(b.vertices, p);
    if q == g && g == p {
      MergeStones(Chain(1, 0, 0, 0), EmptyTally(b.vertices, p));
    } else if q == g {
      MergeStones(b.chains[g].AddStone(), EmptyTally(b.vertices, p));
    }
  }

  lemma EmptyTallyNoStones(vs: seq<Vertex>, p: int)
    ensures EmptyTally(vs, p).numStones == 0
  {
    var ns := Neighbours(p);
    NbrTermNoStones(vs, ns[0]);
    NbrTermNoStones(vs, ns[1]);
    NbrTermNoStones(vs, ns[2]);
    NbrTermNoStones(vs, ns[3]);
    NoStonesMerge4(NbrTerm(vs, ns[0]), NbrTerm(vs, ns[1]), NbrTerm(vs, ns[2]), NbrTerm(vs, ns[3]));
    EmptyTallyUnfold(vs, p);
  }

  lemma NbrTermNoStones(vs: seq<Vertex>, n: int)
    ensures NbrTerm(vs, n).numStones == 0
  {
  }

  /** A chain that `p` starts on its own: one point, closed on itself. */
  lemma FreshHead(vs': seq<Vertex>, p: int)
    requires 0 <= p < |vs'| && vs'[p].chainNext == p
    requires forall x :: Member(vs', p, x) <==> x == p
    ensures Cycle(vs', p, 1) && forall x :: Member(vs', p, x) <==> x in Walk(vs', p, 1)
  {
    assert Walk(vs', p, 1) == [p];
  }

  /** The chain `p` joined: its closed walk grows by `p`. */
  lemma JoinedHead(vs: seq<Vertex>, vs': seq<Vertex>, g: int, p: int, k0: nat)
    requires Cycle(vs, g, k0) && k0 >= 1 && 0 <= g < |vs| && 0 <= p < |vs|
    requires forall x :: Member(vs, g, x) <==> x in Walk(vs, g, k0)
    requires !Member(vs, g, p)
    requires SameNextExcept(vs, vs', {g, p}) && vs'[g].chainNext == p && vs'[p].chainNext == vs[g].chainNext
    requires forall x :: Member(vs', g, x) <==> x == p || Member(vs, g, x)
    ensures Cycle(vs', g, k0 + 1) && forall x :: Member(vs', g, x) <==> x in Walk(vs', g, k0 + 1)
  {
    InsertAfter(vs, vs', g, p, k0);
    var w := Walk(vs, g, k0);
    WalkInRange(vs, g, k0);
    assert w[0] == g;
    forall x ensures x in Walk(vs', g, k0 + 1) <==> x == p || x in w {
      if x in w && x != g {
        var i :| 0 <= i < |w| && w[i] == x;
        assert x == w[1..][i - 1];
      }
    }
  }

  /** Any other chain keeps its closed walk. */
  lemma OtherHead(vs: seq<Vertex>, vs': seq<Vertex>, q: int, k0: nat, g: int, p: int)
    requires Cycle(vs, q, k0) && forall x :: Member(vs, q, x) <==> x in Walk(vs, q, k0)
    requires !Member(vs, q, p) && !Member(vs, q, g)
    requires SameNextExcept(vs, vs', {g, p})
    requires forall x :: Member(vs', q, x) <==> Member(vs, q, x)
    ensures Cycle(vs', q, k0) && forall x :: Member(vs', q, x) <==> x in Walk(vs', q, k0)
  {
    var w := Walk(vs, q, k0);
    forall i | 0 <= i < |w| ensures w[i] !in {g, p} {
      assert w[i] in w;
    }
    WalkFrame(vs, vs', q, k0, {g, p});
  }

  lemma PlacedHead(b: Board, b': Board, p: int, c: Color, g: int, q: int)
    requires Placed(b, b', p, c, g) && 0 <= q < VirtualBoardPoints
    ensures HeadOk(b'.vertices, b'.chains, q)
  {
    if q == p && g == p {
      PlacedHeadFresh(b, b', p, c);
    } else if q == g {
      PlacedHeadJoined(b, b', p, c, g);
    } else if q != p {
      PlacedHeadOther(b, b', p, c, g, q);
    } else {
      PlacedFrame(b, b', p, c, g, q);
    }
  }

  /** The chain `p` starts on its own. */
  lemma PlacedHeadFresh(b: Board, b': Board, p: int, c: Color)
    requires Placed(b, b', p, c, p)
    ensures HeadOk(b'.vertices, b'.chains, p)
  {
    PlacedFrame(b, b', p, c, p, p);
    PlacedStones(b, b', p, p, p);
    PlacedMembers(b, b', p, c, p, p);
    FreshHead(b'.vertices, p);
  }

  /** The chain `p` joins. */
  lemma PlacedHeadJoined(b: Board, b': Board, p: int, c: Color, g: int)
    requires Placed(b, b', p, c, g) && g != p
    ensures HeadOk(b'.vertices, b'.chains, g)
  {
    PlacedFrame(b, b', p, c, g, g);
    PlacedFrame(b, b', p, c, g, p);
    PlacedStones(b, b', p, g, g);
    PlacedMembers(b, b', p, c, g, g);
    PlacedNext(b, b', p, c, g);
    assert HeadOk(b.vertices, b.chains, g);
    GrownHead(b.vertices, b'.vertices, b.chains, b'.chains, g, p);
  }

  /** A head whose chain gains `p` right after the head keeps a closed walk one longer. */
  lemma GrownHead(vs: seq<Vertex>, vs': seq<Vertex>, cs: seq<Chain>, cs': seq<Chain>, g: int, p: int)
    requires 0 <= g < |vs| == |cs| && |vs'| == |cs'| == |vs| && 0 <= p < |vs|
    requires HeadOk(vs, cs, g) && IsStone(vs[g].color) && vs[g].chainHead == g
    requires IsStone(vs'[g].color) && vs'[g].chainHead == g && cs'[g].numStones == cs[g].numStones + 1
    requires !Member(vs, g, p)
    requires SameNextExcept(vs, vs', {g, p}) && vs'[g].chainNext == p && vs'[p].chainNext == vs[g].chainNext
    requires forall x :: Member(vs', g, x) <==> x == p || Member(vs, g, x)
    ensures HeadOk(vs', cs', g)
  {
    JoinedHead(vs, vs', g, p, cs[g].numStones);
  }

  /** Every other chain. */
  lemma PlacedHeadOther(b: Board, b': Board, p: int, c: Color, g: int, q: int)
    requires Placed(b, b', p, c, g) && 0 <= q < VirtualBoardPoints && q != p && q != g
    ensures HeadOk(b'.vertices, b'.chains, q)
  {
    var vs, vs' := b.vertices, b'.vertices;
    PlacedFrame(b, b', p, c, g, q);
    if IsStone(vs'[q].color) && vs'[q].chainHead == q {
      PlacedStones(b, b', p, g, q);
      PlacedMembers(b, b', p, c, g, q);
      assert HeadOk(vs, b.chains, q);
      PlacedNext(b, b', p, c, g);
      assert !Member(vs, q, g) by {
        if g != p {
          assert vs[g].chainHead == g;
        }
      }
      OtherHead(vs, vs', q, b.chains[q].numStones, g, p);
    }
  }

  /** The liberty part of the record before the instances of `p` were taken out. */
  lemma PlacedRecordLibs(b: Board, b': Board, p: int, c: Color, g: int, q: int)
    requires Placed(b, b', p, c, g) && 0 <= q < VirtualBoardPoints
    requires IsStone(b'.vertices[q].color) && b'.vertices[q].chainHead == q
    ensures q == g ==> PlacedRecord(b, p, g, q).Liberties() == LibTally(b.vertices, q).Merge(EmptyTally(b.vertices, p))
    ensures q != g ==> PlacedRecord(b, p, g, q).Liberties() == LibTally(b.vertices, q)
  {
    var vs := b.vertices;
    PlacedFrame(b, b', p, c, g, q);
    if q != g {
      assert HeadLibsOk(vs, b.chains, q);
      RecordLibsOther(b, p, g, q, LibTally(vs, q));
    } else if g == p {
      PlacedMembers(b, b', p, c, g, p);
      LibTallyNone(vs, p);
      RecordLibsFresh(b, p, LibTally(vs, q));
    } else {
      assert HeadLibsOk(vs, b.chains, g);
      RecordLibsGrown(b, p, g, LibTally(vs, q));
    }
  }

  lemma RecordLibsOther(b: Board, p: int, g: int, q: int, t: Chain)
    requires Shaped(b) && 0 <= q < VirtualBoardPoints && q != g
    requires b.chains[q].Liberties() == t
    ensures PlacedRecord(b, p, g, q).Liberties() == t
  {
  }

  lemma RecordLibsFresh(b: Board, p: int, t: Chain)
    requires Shaped(b) && 0 <= p < VirtualBoardPoints && t == Zero
    ensures PlacedRecord(b, p, p, p).Liberties() == t.Merge(EmptyTally(b.vertices, p))
  {
    EmptyTallyNoStones(b.vertices, p);
    FreshLibs(EmptyTally(b.vertices, p), t);
  }

  lemma RecordLibsGrown(b: Board, p: int, g: int, t: Chain)
    requires Shaped(b) && 0 <= g < VirtualBoardPoints && g != p
    requires b.chains[g].Liberties() == t
    ensures PlacedRecord(b, p, g, g).Liberties() == t.Merge(EmptyTally(b.vertices, p))
  {
    EmptyTallyNoStones(b.vertices, p);
    GrownLibs(b.chains[g], EmptyTally(b.vertices, p), t);
  }

  lemma FreshLibs(e: Chain, t: Chain)
    requires e.numStones == 0 && t == Zero
    ensures Chain(1, 0, 0, 0).Merge(e).Liberties() == t.Merge(e)
  {
  }

  lemma GrownLibs(c: Chain, e: Chain, t: Chain)
    requires e.numStones == 0 && c.Liberties() == t
    ensures c.AddStone().Merge(e).Liberties() == t.Merge(e)
  {
  }

  /** `x` merged with `u` is `before`, which is `lt` merged with `t`, which equals `lt'` merged with `u`: so `x` is `lt'`. */
  lemma Settle(x: Chain, u: Chain, before: Chain, lt: Chain, t: Chain, lt': Chain)
    requires x.Merge(u) == before && before == lt.Merge(t) && lt.Merge(t) == lt'.Merge(u)
    ensures x == lt'
  {
  }

  /** The new stone's own term counts the empty points around it, which placing it did not change. */
  lemma SelfTerm(vs: seq<Vertex>, vs': seq<Vertex>, p: int, g: int)
    requires SameColorsExcept(vs, vs', p) && Member(vs', g, p)
    ensures Term(vs', g, p) == EmptyTally(vs, p)
  {
    NeighbourIndex(p, p);
    SameColorsFrame(vs, vs', p, p);
  }

  lemma PlacedHeadLibs(b: Board, b': Board, p: int, c: Color, g: int, q: int)
    requires Placed(b, b', p, c, g) && 0 <= q < VirtualBoardPoints
    ensures HeadLibsOk(b'.vertices, b'.chains, q)
  {
    var vs, vs' := b.vertices, b'.vertices;
    PlacedFrame(b, b', p, c, g, q);
    PlacedInterior(b, p);
    if IsStone(vs'[q].color) && vs'[q].chainHead == q {
      assert SameColorsExcept(vs, vs', p) by {
        forall x | 0 <= x < |vs| && x != p ensures vs'[x].color == vs[x].color {
          PlacedFrame(b, b', p, c, g, x);
        }
      }
      PlacedMembers(b, b', p, c, g, q);
      LibTallyFill(vs, vs', p, q);
      PlacedNeighbourHeads(b, b', p, c, g, q);
      OwnedStone(vs', q, p);
      OwnedNoStones(vs', q, p);
      var u := MemberAdj(vs', q, p);
      var x := b'.chains[q];
      LibertiesMerge(x, u);
      var before := PlacedRecord(b, p, g, q);
      assert x.Merge(u) == before;
      PlacedRecordLibs(b, b', p, c, g, q);
      if q == g {
        assert Member(vs', g, p);
        SelfTerm(vs, vs', p, g);
        Settle(x.Liberties(), u, before.Liberties(), LibTally(vs, q), EmptyTally(vs, p), LibTally(vs', q));
      } else {
        assert Term(vs', q, p) == Zero;
        MergeZero(LibTally(vs, q));
        Settle(x.Liberties(), u, before.Liberties(), LibTally(vs, q), Zero, LibTally(vs', q));
      }
    }
  }

  /** Placing a stone as described by `Placed` leaves a valid board. */
  lemma PlacedValid(b: Board, b': Board, p: int, c: Color, g: int)
    requires Placed(b, b', p, c, g)
    ensures Valid(b')
  {
    forall q | 0 <= q < VirtualBoardPoints ensures GuardOk(b'.size, b'.vertices, q) {
      PlacedGuard(b, b', p, c, g, q);
    }
    forall q | 0 <= q < VirtualBoardPoints ensures EmptyOk(b'.vertices, b'.chains, q) {
      PlacedEmpty(b, b', p, c, g, q);
    }
    forall q | 0 <= q < VirtualBoardPoints ensures EmptyLibsOk(b'.vertices, b'.chains, q) {
      PlacedEmptyLibs(b, b', p, c, g, q);
    }
    forall q | 0 <= q < VirtualBoardPoints ensures StoneOk(b'.vertices, q) {
      PlacedStone(b, b', p, c, g, q);
    }
    forall q | 0 <= q < VirtualBoardPoints ensures HeadOk(b'.vertices, b'.chains, q) {
      PlacedHead(b, b', p, c, g, q);
    }
    forall q | 0 <= q < VirtualBoardPoints ensures HeadLibsOk(b'.vertices, b'.chains, q) {
      PlacedHeadLibs(b, b', p, c, g, q);
    }
  }
}

=== FILE: queries.dfy ===
/**
 * The read-only queries of the board. Points are list indices, so a
 * negative point in `-441..-1` reads the slot `p + 441` as Python indexing
 * does, and any other point outside `0..440` raises `IndexError`.
 */
module Queries {
  import opened Errors
  import opened Colors
  import opened Coords
  import opened Chains
  import opened Vertices
  import opened Xors
  import opened Zobrist
  import opened Boards
  import opened Liberties

  /** `p` can index a 441-element list. */
  predicate Indexable(p: int) {
    -VirtualBoardPoints <= p < VirtualBoardPoints
  }

  /** The slot a list index designates. */
  function Slot(p: int): (i: int)
    requires Indexable(p)
    ensures 0 <= i < VirtualBoardPoints && (i - p) % VirtualBoardPoints == 0
  {
    if p < 0 then p + VirtualBoardPoints else p
  }

  /** `point_color`. */
  function PointColor(b: Board, p: int): (r: Result<Color>)
    requires Shaped(b)
    ensures r.Err? <==> !Indexable(p)
    ensures r.Err? ==> r.error == IndexError
  {
    if Indexable(p) then Ok(b.vertices[Slot(p)].color) else Err(IndexError)
  }

  /** `is_empty`. */
  function IsEmpty(b: Board, p: int): (r: Result<bool>)
    requires Shaped(b)
    ensures r.Ok? <==> PointColor(b, p).Ok?
    ensures r == Ok(true) <==> PointColor(b, p) == Ok(Empty)
  {
    if Indexable(p) then Ok(b.vertices[Slot(p)].color == Empty) else Err(IndexError)
  }

  /** `in_board_area`. */
  predicate InBoard(b: Board, p: int) {
    InBoardArea(b.size, p)
  }

  /** The colours of a valid board: guards exactly outside the board area. */
  lemma ColorsOfValid(b: Board, p: int)
    requires Valid(b) && 0 <= p < VirtualBoardPoints
    ensures InBoard(b, p) <==> PointColor(b, p).value != Guard
  {
    assert GuardOk(b.size, b.vertices, p);
  }

  /** `chain_head`. */
  function ChainHead(b: Board, p: int): (r: Result<int>)
    requires Shaped(b)
    ensures r.Err? <==> !Indexable(p)
  {
    if Indexable(p) then Ok(b.vertices[Slot(p)].chainHead) else Err(IndexError)
  }

  /**
   * The head of a stone is a stone of the same colour that is its own head,
   * and every orthogonal neighbour of the same colour has the same head; an
   * empty point or a border point is its own head.
   */
  lemma HeadsOfValid(b: Board, p: int)
    requires Valid(b) && 0 <= p < VirtualBoardPoints
    ensures var h := ChainHead(b, p).value;
            if IsStone(b.vertices[p].color) then
              0 <= h < VirtualBoardPoints && PointColor(b, h) == PointColor(b, p) && ChainHead(b, h) == Ok(h) &&
              forall n :: n in Neighbours(p) && PointColor(b, n) == PointColor(b, p) ==> ChainHead(b, n) == Ok(h)
            else h == p
  {
    var vs := b.vertices;
    assert GuardOk(b.size, vs, p) && EmptyOk(vs, b.chains, p) && StoneOk(vs, p);
    if IsStone(vs[p].color) {
      forall n | n in Neighbours(p) && PointColor(b, n) == PointColor(b, p)
        ensures ChainHead(b, n) == Ok(vs[p].chainHead)
      {
        assert InBoardArea(b.size, p);
        InBoardAreaBounds(b.size, p);
        var i :| 0 <= i < 4 && Neighbours(p)[i] == n;
      }
    } else if vs[p].color == Empty {
    } else {
      assert !InBoardArea(b.size, p);
    }
  }

  /** Every head a valid board stores is a real point. */
  lemma HeadInRange(b: Board, q: int)
    requires Valid(b) && 0 <= q < VirtualBoardPoints
    ensures 0 <= b.vertices[q].chainHead < VirtualBoardPoints
  {
    assert GuardOk(b.size, b.vertices, q) && EmptyOk(b.vertices, b.chains, q) && StoneOk(b.vertices, q);
  }

  /** `_chain`: the record kept at the head of `p`'s chain. */
  function ChainOf(b: Board, p: int): (r: Result<Chain>)
    requires Valid(b)
    ensures r.Err? <==> !Indexable(p)
  {
    if Indexable(p) then
      HeadInRange(b, Slot(p));
      Ok(b.chains[b.vertices[Slot(p)].chainHead])
    else Err(IndexError)
  }

  /** `chain_size`: the stone count of the record of `p`'s chain. */
  function ChainSize(b: Board, p: int): (r: Result<int>)
    requires Valid(b)
    ensures r.Err? <==> !Indexable(p)
  {
    if Indexable(p) then Ok(ChainOf(b, p).value.numStones) else Err(IndexError)
  }

  /** The stones of the chain headed by `h`. */
  ghost function Stones(vs: seq<Vertex>, h: int): set<int> {
    set x | 0 <= x < |vs| && Member(vs, h, x)
  }

  /** A list without repetitions has as many distinct elements as entries. */
  lemma {:induction false} DistinctCard(w: seq<int>)
    requires Distinct(w)
    ensures |set x | x in w| == |w|
    decreases |w|
  {
    if |w| > 0 {
      var rest := w[1..];
      assert Distinct(rest) by {
        forall i, j | 0 <= i < j < |rest| ensures rest[i] != rest[j] {
          assert rest[i] == w[i + 1] && rest[j] == w[j + 1];
        }
      }
      DistinctCard(rest);
      assert w[0] !in rest by {
        forall i | 0 <= i < |rest| ensures rest[i] != w[0] {
          assert rest[i] == w[i + 1];
        }
      }
      assert (set x | x in w) == {w[0]} + (set x | x in rest) by {
        assert w == [w[0]] + rest;
      }
    } else {
      assert (set x | x in w) == {};
    }
  }

  /** The size of a stone's chain is its number of stones. */
  lemma ChainSizeOfStone(b: Board, p: int)
    requires Valid(b) && 0 <= p < VirtualBoardPoints && IsStone(b.vertices[p].color)
    ensures ChainSize(b, p) == Ok(|Stones(b.vertices, b.vertices[p].chainHead)|)
  {
    var vs := b.vertices;
    assert StoneOk(vs, p);
    var h := vs[p].chainHead;
    assert HeadOk(vs, b.chains, h);
    StonesOfCycle(vs, h, b.chains[h].numStones);
  }

  /** The size of an empty point is 0 (never played) or 1 (emptied by a capture). */
  lemma ChainSizeOfEmpty(b: Board, p: int)
    requires Valid(b) && 0 <= p < VirtualBoardPoints && b.vertices[p].color == Empty
    ensures ChainSize(b, p) == Ok(0) || ChainSize(b, p) == Ok(1)
  {
    assert EmptyOk(b.vertices, b.chains, p);
  }

  lemma StonesOfCycle(vs: seq<Vertex>, h: int, k: nat)
    requires Cycle(vs, h, k)
    requires forall x :: Member(vs, h, x) <==> x in Walk(vs, h, k)
    ensures |Stones(vs, h)| == k
  {
    var w := Walk(vs, h, k);
    DistinctCard(w);
    WalkInRange(vs, h, k);
    assert Stones(vs, h) == set x | x in w;
  }

  /** `x` is the one and only liberty of `p`'s chain. */
  ghost predicate OnlyLiberty(vs: seq<Vertex>, p: int, x: int)
    requires 0 <= p < |vs|
  {
    IsLiberty(vs, p, x) && forall y :: IsLiberty(vs, p, y) ==> y == x
  }

  ghost predicate NoLiberty(vs: seq<Vertex>, p: int)
    requires 0 <= p < |vs|
  {
    forall x :: !IsLiberty(vs, p, x)
  }

  ghost predicate TwoLiberties(vs: seq<Vertex>, p: int)
    requires 0 <= p < |vs|
  {
    exists x, y :: x != y && IsLiberty(vs, p, x) && IsLiberty(vs, p, y)
  }

  /** How the shape of a counted list with the right elements decides the three cases. */
  lemma ListShape(vs: seq<Vertex>, p: int, libs: seq<int>)
    requires 0 <= p < |vs|
    requires forall x :: x in libs <==> IsLiberty(vs, p, x)
    ensures |libs| == 0 <==> NoLiberty(vs, p)
    ensures |libs| > 0 && AllEqual(libs, libs[0]) <==> OnlyLiberty(vs, p, if |libs| > 0 then libs[0] else 0)
    ensures |libs| > 0 && AllEqual(libs, libs[0]) <==> !NoLiberty(vs, p) && !TwoLiberties(vs, p)
    ensures |libs| > 0 && !AllEqual(libs, libs[0]) <==> TwoLiberties(vs, p)
  {
    if |libs| == 0 {
      assert NoLiberty(vs, p) by {
        forall x ensures !IsLiberty(vs, p, x) {
          assert x !in libs;
        }
      }
      assert !TwoLiberties(vs, p);
    } else {
      assert libs[0] in libs;
      if AllEqual(libs, libs[0]) {
        forall y | IsLiberty(vs, p, y) ensures y == libs[0] {
          assert y in libs;
        }
      } else {
        var i :| 0 <= i < |libs| && libs[i] != libs[0];
        assert libs[i] in libs;
        assert TwoLiberties(vs, p);
      }
    }
  }

  /** `pseudo_liberty`: 0 with no liberty, 1 in atari, the instance count otherwise. */
  function PseudoLiberty(b: Board, p: int): (r: Result<int>)
    requires Valid(b)
    ensures r.Err? <==> !Indexable(p)
  {
    if !Indexable(p) then Err(IndexError)
    else
      var chain := ChainOf(b, p).value;
      if chain.numPseudoLiberties == 0 then Ok(0)
      else if chain.InAtari() then Ok(1)
      else Ok(chain.numPseudoLiberties)
  }

  /**
   * On the board, `pseudo_liberty` is 0 exactly when the chain has no
   * liberty, 1 exactly when it has one, and at least 2 exactly when it has
   * two different ones.
   */
  lemma PseudoLibertyMeaning(b: Board, p: int)
    requires Valid(b) && InBoard(b, p)
    ensures 0 <= p < VirtualBoardPoints
    ensures PseudoLiberty(b, p) == Ok(0) <==> NoLiberty(b.vertices, p)
    ensures PseudoLiberty(b, p) == Ok(1) <==> exists x :: OnlyLiberty(b.vertices, p, x)
    ensures PseudoLiberty(b, p).Ok? && PseudoLiberty(b, p).value >= 2 <==> TwoLiberties(b.vertices, p)
  {
    ChainRecord(b, p);
    var libs := ChainLibList(b.vertices, p);
    ListShape(b.vertices, p, libs);
    AtariIffOnePoint(0, libs);
    if exists x :: OnlyLiberty(b.vertices, p, x) {
      var x :| OnlyLiberty(b.vertices, p, x);
      assert !NoLiberty(b.vertices, p);
    }
  }

  /** `in_atari`. */
  function InAtari(b: Board, p: int): (r: Result<bool>)
    requires Valid(b)
    ensures r.Err? <==> !Indexable(p)
  {
    if Indexable(p) then Ok(ChainOf(b, p).value.InAtari()) else Err(IndexError)
  }

  /** On the board, `in_atari` holds exactly when the chain has at most one liberty. */
  lemma InAtariMeaning(b: Board, p: int)
    requires Valid(b) && InBoard(b, p)
    ensures 0 <= p < VirtualBoardPoints
    ensures InAtari(b, p) == Ok(!TwoLiberties(b.vertices, p))
  {
    ChainRecord(b, p);
    var libs := ChainLibList(b.vertices, p);
    ListShape(b.vertices, p, libs);
    AtariIffOnePoint(0, libs);
  }

  /** Some point of `ns` reads as belonging to the chain headed by `head`. */
  predicate BordersHead(b: Board, ns: seq<int>, head: int)
    requires Shaped(b)
  {
    exists i :: 0 <= i < |ns| && ChainHead(b, ns[i]) == Ok(head)
  }

  /**
   * `single_liberty`: the liberty of a chain in atari, after checking that
   * it is an empty point of the board that touches the chain.
   */
  function SingleLiberty(b: Board, p: int): (r: Result<int>)
    requires Valid(b)
    ensures !Indexable(p) ==> r == Err(IndexError)
    ensures r.Ok? ==> InBoard(b, r.value) && IsEmpty(b, r.value) == Ok(true)
  {
    if !Indexable(p) then Err(IndexError)
    else
      var head := ChainHead(b, p).value;
      var liberty := ChainOf(b, p).value.SingleLiberty();
      if liberty.Err? then liberty
      else if !InBoard(b, liberty.value) then Err(AssertionError)
      else
        InBoardAreaBounds(b.size, liberty.value);
        if b.vertices[liberty.value].color != Empty then Err(AssertionError)
        else if BordersHead(b, Neighbours(liberty.value), head) then Ok(liberty.value)
        else Err(ValueError)
  }

  /**
   * On the board, `single_liberty` returns the chain's liberty exactly when
   * it has one, divides by zero when it has none, and fails its atari
   * assertion when it has two or more; the border check never fails.
   */
  lemma SingleLibertyMeaning(b: Board, p: int)
    requires Valid(b) && InBoard(b, p)
    ensures 0 <= p < VirtualBoardPoints
    ensures forall x :: SingleLiberty(b, p) == Ok(x) <==> OnlyLiberty(b.vertices, p, x)
    ensures SingleLiberty(b, p) == Err(ZeroDivisionError) <==> NoLiberty(b.vertices, p)
    ensures SingleLiberty(b, p) == Err(AssertionError) <==> TwoLiberties(b.vertices, p)
  {
    ChainRecord(b, p);
    var vs := b.vertices;
    var libs := ChainLibList(vs, p);
    ListShape(vs, p, libs);
    AtariIffOnePoint(0, libs);
    var c := ChainOf(b, p).value;
    assert c.SingleLiberty() == Tally(0, libs).SingleLiberty();
    if |libs| > 0 && AllEqual(libs, libs[0]) {
      SingleLibertyOfTally(0, libs);
      assert libs[0] in libs;
      LibertyBordersChain(b, p, libs[0]);
    }
  }

  /** A liberty of `p`'s chain that the record divides out passes the checks of `single_liberty`. */
  lemma LibertyBordersChain(b: Board, p: int, x: int)
    requires Valid(b) && InBoard(b, p) && 0 <= p < VirtualBoardPoints
    requires IsLiberty(b.vertices, p, x)
    requires ChainOf(b, p).value.SingleLiberty() == Ok(x)
    ensures SingleLiberty(b, p) == Ok(x)
  {
    var vs := b.vertices;
    var m :| InChain(vs, p, m) && x in Neighbours(m);
    assert 0 <= x < VirtualBoardPoints;
    assert GuardOk(b.size, vs, x);
    assert InBoard(b, x);
    InBoardAreaBounds(b.size, x);
    NeighboursSymmetric(x, m);
    var i :| 0 <= i < 4 && Neighbours(x)[i] == m;
    assert 0 <= m < VirtualBoardPoints;
    assert EmptyOk(vs, b.chains, p) && StoneOk(vs, p);
    assert ChainHead(b, m) == ChainHead(b, p);
    assert BordersHead(b, Neighbours(x), ChainHead(b, p).value);
  }

  /**
   * `__hash__`: the incrementally maintained Zobrist hash. The first ensures
   * repeats what `HashOk` says so that callers see it without unfolding `HashOk`.
   */
  function Hash(z: Table, b: Board): (h: nat)
    requires HashOk(z, b)
    ensures h == HashOf(z, b.vertices, 0)
    ensures h < Pow2(65)
  {
    HashBound(z, b.vertices, 0);
    b.zobristHash
  }

  /** Boards with the same stones on the same points hash equally. */
  lemma EqualLayoutsHashEqually(z: Table, b: Board, b': Board)
    requires HashOk(z, b) && HashOk(z, b')
    requires |b.vertices| == |b'.vertices|
    requires forall q :: 0 <= q < |b.vertices| ==> b'.vertices[q].color == b.vertices[q].color
    ensures Hash(z, b) == Hash(z, b')
  {
    HashOfColors(z, b.vertices, b'.vertices, 0);
  }
}

=== FILE: removal.dfy ===
/**
 * Removing a chain from the board. `_remove_chain` walks the circular list
 * of a chain and, at each stone, empties the point, makes it a fresh
 * one-point chain and hands the point back as a liberty to the neighbouring
 * chains (but not to the chain being removed). Module `Captures` uses it to
 * take off every opposing chain left without pseudo-liberties.
 */
module Removal {
  import opened Colors
  import opened Coords
  import opened Chains
  import opened Vertices
  import opened Zobrist
  import opened Boards
  import opened Tallies
  import opened Updates
  import opened Placing
  import opened Joins

  // ---------------------------------------------------------------------
  // The board part-way through `_remove_chain`
  // ---------------------------------------------------------------------

  /** Point `q` is either emptied already (it is in `gone`) or as it was on `b0`. */
  ghost predicate RemovedAt(b0: Board, b: Board, gone: set<int>, q: int)
    requires Shaped(b0) && Shaped(b) && 0 <= q < VirtualBoardPoints
  {
    b.vertices[q] == (if q in gone then Vertex(q, q, Empty) else b0.vertices[q]) &&
    b.chains[q].numStones == (if q in gone then 1 else b0.chains[q].numStones)
  }

  /** The liberty records kept right throughout: those of empty points and of every head but `h`. */
  ghost predicate RecordsOk(b: Board, h: int, q: int)
    requires Shaped(b) && 0 <= q < VirtualBoardPoints
  {
    (b.vertices[q].color == Empty ==> b.chains[q].Liberties() == EmptyTally(b.vertices, q)) &&
    (IsStone(b.vertices[q].color) && b.vertices[q].chainHead == q && q != h ==>
       b.chains[q].Liberties() == LibTally(b.vertices, q))
  }

  /**
   * The chain headed by `h` on the valid board `b0` is being removed and
   * `b` is the board once the stones in `gone` are off.
   */
  ghost predicate Removing(b0: Board, b: Board, h: int, gone: set<int>) {
    Valid(b0) && Shaped(b) && b.size == b0.size && b.lastKoPoint == b0.lastKoPoint && b.lastCaptures == b0.lastCaptures &&
    0 <= h < VirtualBoardPoints && IsStone(b0.vertices[h].color) && b0.vertices[h].chainHead == h &&
    (forall q :: q in gone ==> Member(b0.vertices, h, q)) &&
    (forall q :: 0 <= q < VirtualBoardPoints ==> RemovedAt(b0, b, gone, q)) &&
    (forall q :: 0 <= q < VirtualBoardPoints ==> RecordsOk(b, h, q))
  }

  lemma RemovingStart(b0: Board, h: int)
    requires Valid(b0) && 0 <= h < VirtualBoardPoints && IsStone(b0.vertices[h].color) && b0.vertices[h].chainHead == h
    ensures Removing(b0, b0, h, {})
  {
    forall q | 0 <= q < VirtualBoardPoints ensures RecordsOk(b0, h, q) {
      assert EmptyLibsOk(b0.vertices, b0.chains, q) && HeadLibsOk(b0.vertices, b0.chains, q);
    }
  }

  /** Heads part-way through: a point that is not a stone heads itself; a stone is untouched. */
  lemma RemovingHead(b0: Board, b: Board, h: int, gone: set<int>, q: int)
    requires Removing(b0, b, h, gone) && 0 <= q < VirtualBoardPoints
    ensures 0 <= b.vertices[q].chainHead < VirtualBoardPoints
    ensures !IsStone(b.vertices[q].color) ==> b.vertices[q].chainHead == q
    ensures IsStone(b.vertices[q].color) ==> q !in gone && b.vertices[q] == b0.vertices[q]
  {
    assert RemovedAt(b0, b, gone, q);
    if q !in gone {
      HeadKind(b0, q);
    }
  }

  // ---------------------------------------------------------------------
  // What the neighbours' chains regain
  // ---------------------------------------------------------------------

  lemma GainedNoStones(vs: seq<Vertex>, h: int, g: int, p: int)
    ensures Gained(vs, h, g, p).numStones == 0
    ensures Gained(vs, h, g, p).Liberties() == Gained(vs, h, g, p)
  {
    var ns := Neighbours(p);
    NoStonesMerge4(GainTerm(vs, ns[0], h, g, p), GainTerm(vs, ns[1], h, g, p),
                   GainTerm(vs, ns[2], h, g, p), GainTerm(vs, ns[3], h, g, p));
    GainedUnfold(vs, h, g, p);
  }

  lemma GainedNonNegative(vs: seq<Vertex>, h: int, g: int, p: int)
    ensures Gained(vs, h, g, p).numPseudoLiberties >= 0
  {
    var ns := Neighbours(p);
    GainedUnfold(vs, h, g, p);
    assert GainTerm(vs, ns[0], h, g, p).numPseudoLiberties >= 0 && GainTerm(vs, ns[1], h, g, p).numPseudoLiberties >= 0;
    assert GainTerm(vs, ns[2], h, g, p).numPseudoLiberties >= 0 && GainTerm(vs, ns[3], h, g, p).numPseudoLiberties >= 0;
  }

  /** The neighbour `n` hands `p` to the record at `q`. */
  predicate Hands(vs: seq<Vertex>, h: int, n: int, q: int) {
    At(vs, n).chainHead == q && Regains(vs, h, n)
  }

  /** An empty point `q` regains `p` once if it is a neighbour of `p`, otherwise not at all. */
  lemma GainedEmpty(vs: seq<Vertex>, h: int, q: int, p: int)
    requires forall i :: 0 <= i < 4 ==> (Hands(vs, h, Neighbours(p)[i], q) <==> Neighbours(p)[i] == q)
    ensures Gained(vs, h, q, p) == if q in Neighbours(p) then Unit(p) else Zero
  {
    var ns := Neighbours(p);
    NeighbourIndex(p, q);
    var i := if q == ns[0] then 0 else if q == ns[1] then 1 else if q == ns[2] then 2 else if q == ns[3] then 3 else 4;
    assert forall j :: 0 <= j < 4 ==> (ns[j] == q <==> j == i);
    Select4(GainTerm(vs, ns[0], h, q, p), GainTerm(vs, ns[1], h, q, p),
            GainTerm(vs, ns[2], h, q, p), GainTerm(vs, ns[3], h, q, p), Unit(p), i);
    GainedUnfold(vs, h, q, p);
  }

  /** A chain regains `p` once per member next to `p`. */
  lemma GainedStone(vs: seq<Vertex>, h: int, q: int, p: int)
    requires forall i :: 0 <= i < 4 ==> (Hands(vs, h, Neighbours(p)[i], q) <==> Member(vs, q, Neighbours(p)[i]))
    ensures Gained(vs, h, q, p) == MemberAdj(vs, q, p)
  {
    var ns := Neighbours(p);
    assert GainTerm(vs, ns[0], h, q, p) == AdjTerm(vs, q, ns[0], p);
    assert GainTerm(vs, ns[1], h, q, p) == AdjTerm(vs, q, ns[1], p);
    assert GainTerm(vs, ns[2], h, q, p) == AdjTerm(vs, q, ns[2], p);
    assert GainTerm(vs, ns[3], h, q, p) == AdjTerm(vs, q, ns[3], p);
    GainedUnfold(vs, h, q, p);
  }

  /**
   * Who hands the emptied point `cur` to whom, once `cur` is off: an empty
   * point only to itself, a stone to its own chain unless that is the
   * chain being removed.
   */
  lemma HandsAfter(b0: Board, b: Board, h: int, gone: set<int>, cur: int, vs': seq<Vertex>, n: int, q: int)
    requires Removing(b0, b, h, gone) && Member(b0.vertices, h, cur) && cur !in gone
    requires vs' == b.vertices[cur := Vertex(cur, cur, Empty)]
    requires 0 <= n < VirtualBoardPoints && n != cur && 0 <= q < VirtualBoardPoints
    ensures vs'[q].color == Empty ==> (Hands(vs', h, n, q) <==> n == q)
    ensures IsStone(vs'[q].color) && vs'[q].chainHead == q && q != h ==> (Hands(vs', h, n, q) <==> Member(vs', q, n))
  {
    RemovingHead(b0, b, h, gone, n);
    assert vs'[n] == b.vertices[n];
    if IsStone(vs'[n].color) {
      assert StoneOk(b0.vertices, n);
      assert StoneOk(b0.vertices, cur);
      if q != cur {
        RemovingHead(b0, b, h, gone, q);
        assert RemovedAt(b0, b, gone, q);
        if q in gone {
          assert Member(b0.vertices, h, q);
        }
      }
    }
  }

  /** `HandsAfter` for the four neighbours of `cur`. */
  lemma HandsAround(b0: Board, b: Board, h: int, gone: set<int>, cur: int, vs': seq<Vertex>, q: int)
    requires Removing(b0, b, h, gone) && Member(b0.vertices, h, cur) && cur !in gone && Interior(cur)
    requires vs' == b.vertices[cur := Vertex(cur, cur, Empty)] && 0 <= q < VirtualBoardPoints
    ensures vs'[q].color == Empty ==> Gained(vs', h, q, cur) == if q in Neighbours(cur) then Unit(cur) else Zero
    ensures IsStone(vs'[q].color) && vs'[q].chainHead == q && q != h ==> Gained(vs', h, q, cur) == MemberAdj(vs', q, cur)
  {
    var ns := Neighbours(cur);
    forall i | 0 <= i < 4
      ensures vs'[q].color == Empty ==> (Hands(vs', h, ns[i], q) <==> ns[i] == q)
      ensures IsStone(vs'[q].color) && vs'[q].chainHead == q && q != h ==> (Hands(vs', h, ns[i], q) <==> Member(vs', q, ns[i]))
    {
      HandsAfter(b0, b, h, gone, cur, vs', ns[i], q);
    }
    if vs'[q].color == Empty {
      GainedEmpty(vs', h, q, cur);
    }
    if IsStone(vs'[q].color) && vs'[q].chainHead == q && q != h {
      GainedStone(vs', h, q, cur);
    }
  }

  // ---------------------------------------------------------------------
  // One pass of the loop of `_remove_chain`
  // ---------------------------------------------------------------------

  /** A stone of the chain being removed is a point of the board. */
  lemma MemberInterior(b0: Board, h: int, x: int)
    requires Valid(b0) && Member(b0.vertices, h, x)
    ensures Interior(x)
  {
    assert GuardOk(b0.size, b0.vertices, x);
    InteriorOfBoard(b0.size, x);
  }

  /** The record of an empty point after `cur` is emptied. */
  lemma StepEmptyLibs(vs: seq<Vertex>, vs': seq<Vertex>, cur: int, q: int, before: Chain, gain: Chain, after: Chain)
    requires |vs| == VirtualBoardPoints && 0 <= cur < VirtualBoardPoints && 0 <= q < VirtualBoardPoints && q != cur
    requires vs' == vs[cur := Vertex(cur, cur, Empty)] && IsStone(vs[cur].color) && vs[q].color == Empty
    requires before.Liberties() == EmptyTally(vs, q)
    requires gain == (if q in Neighbours(cur) then Unit(cur) else Zero) && after == before.Merge(gain)
    ensures after.Liberties() == EmptyTally(vs', q)
  {
    EmptiedColors(vs, vs', cur);
    EmptyTallyEmptied(vs, vs', cur, q);
    UnitOrZero(q in Neighbours(cur), cur, gain);
    LibertiesGrow(before, gain, after, EmptyTally(vs, q), EmptyTally(vs', q));
  }

  /** Emptying `cur` changes no other colour. */
  lemma EmptiedColors(vs: seq<Vertex>, vs': seq<Vertex>, cur: int)
    requires 0 <= cur < |vs| && vs' == vs[cur := Vertex(cur, cur, Empty)]
    ensures SameColorsExcept(vs', vs, cur) && vs'[cur].color == Empty
  {
  }

  /** Emptying the stone `cur` gives every empty neighbour of `cur` one more instance of `cur`. */
  lemma EmptyTallyEmptied(vs: seq<Vertex>, vs': seq<Vertex>, cur: int, q: int)
    requires SameColorsExcept(vs', vs, cur) && 0 <= cur < |vs| && vs'[cur].color == Empty && IsStone(vs[cur].color)
    ensures EmptyTally(vs', q) == EmptyTally(vs, q).Merge(if q in Neighbours(cur) then Unit(cur) else Zero)
  {
    EmptyTallyFill(vs', vs, cur, q);
    NeighboursSymmetric(cur, q);
  }

  lemma UnitOrZero(b: bool, x: int, u: Chain)
    requires u == if b then Unit(x) else Zero
    ensures u.Liberties() == u
  {
  }

  /** A record that grows by liberty instances alone grows its liberty fields by them. */
  lemma LibertiesGrow(before: Chain, gain: Chain, after: Chain, e: Chain, e': Chain)
    requires before.Liberties() == e && gain.Liberties() == gain
    requires after == before.Merge(gain) && e' == e.Merge(gain)
    ensures after.Liberties() == e'
  {
    LibertiesMerge(before, gain);
  }

  /** The record of the emptied point itself: nobody hands `cur` to it. */
  lemma StepFreshLibs(vs': seq<Vertex>, h: int, cur: int, newRecord: Chain, after: Chain)
    requires newRecord.Liberties() == EmptyTally(vs', cur)
    requires Gained(vs', h, cur, cur) == (if cur in Neighbours(cur) then Unit(cur) else Zero)
    requires after == newRecord.Merge(Gained(vs', h, cur, cur))
    ensures after.Liberties() == EmptyTally(vs', cur)
  {
    NeighbourIndex(cur, cur);
    MergeZero(newRecord);
  }

  /** The members of `q`'s chain next to `cur` are the same before and after `cur` is emptied. */
  lemma MemberAdjFrame(vs: seq<Vertex>, vs': seq<Vertex>, q: int, cur: int)
    requires |vs| == |vs'| && 0 <= cur < |vs|
    requires forall x :: 0 <= x < |vs| && x != cur ==> vs'[x] == vs[x]
    ensures MemberAdj(vs', q, cur) == MemberAdj(vs, q, cur)
  {
    var ns := Neighbours(cur);
    assert AdjTerm(vs', q, ns[0], cur) == AdjTerm(vs, q, ns[0], cur);
    assert AdjTerm(vs', q, ns[1], cur) == AdjTerm(vs, q, ns[1], cur);
    assert AdjTerm(vs', q, ns[2], cur) == AdjTerm(vs, q, ns[2], cur);
    assert AdjTerm(vs', q, ns[3], cur) == AdjTerm(vs, q, ns[3], cur);
  }

  /** The record of another chain's head after `cur` is emptied: it regains `cur` once per member next to it. */
  lemma StepHeadLibs(vs: seq<Vertex>, vs': seq<Vertex>, cur: int, q: int, h: int, before: Chain, after: Chain, t: Chain, t': Chain)
    requires |vs| == VirtualBoardPoints && Interior(cur) && 0 <= q < VirtualBoardPoints && q != cur
    requires vs' == vs[cur := Vertex(cur, cur, Empty)] && IsStone(vs[cur].color) && vs[cur].chainHead == h && h != q
    requires t == LibTally(vs, q) && t' == LibTally(vs', q)
    requires before.Liberties() == t && after == before.Merge(MemberAdj(vs', q, cur))
    ensures after.Liberties() == t'
  {
    EmptiedColors(vs, vs', cur);
    EmptiedMembers(vs, vs', cur, q);
    LibTallyFill(vs', vs, cur, q);
    HeadStep(vs, vs', cur, q, h, before, after, t, t');
  }

  /** `StepHeadLibs` once the tallies are related. */
  lemma HeadStep(vs: seq<Vertex>, vs': seq<Vertex>, cur: int, q: int, h: int, before: Chain, after: Chain, t: Chain, t': Chain)
    requires |vs| == VirtualBoardPoints && 0 <= cur < VirtualBoardPoints
    requires vs' == vs[cur := Vertex(cur, cur, Empty)] && vs[cur].chainHead == h && h != q
    requires t'.Merge(Term(vs, q, cur)) == t.Merge(MemberAdj(vs, q, cur))
    requires before.Liberties() == t && after == before.Merge(MemberAdj(vs', q, cur))
    ensures after.Liberties() == t'
  {
    assert !Member(vs, q, cur);
    MemberAdjFrame(vs, vs', q, cur);
    AdjNoStones(vs', q, cur);
    HeadGrows(before, MemberAdj(vs', q, cur), after, t, t', Term(vs, q, cur));
  }

  /** Emptying `cur` leaves every other point's chain membership alone. */
  lemma EmptiedMembers(vs: seq<Vertex>, vs': seq<Vertex>, cur: int, q: int)
    requires 0 <= cur < |vs| && vs' == vs[cur := Vertex(cur, cur, Empty)]
    ensures forall x :: 0 <= x < |vs| && x != cur ==> (Member(vs', q, x) <==> Member(vs, q, x))
  {
  }

  lemma HeadGrows(before: Chain, m: Chain, after: Chain, t: Chain, t': Chain, z: Chain)
    requires before.Liberties() == t && m.Liberties() == m && after == before.Merge(m)
    requires z == Zero && t'.Merge(z) == t.Merge(m)
    ensures after.Liberties() == t'
  {
    MergeZero(t');
    LibertiesMerge(before, m);
  }

  lemma AdjNoStones(vs: seq<Vertex>, q: int, cur: int)
    ensures MemberAdj(vs, q, cur).Liberties() == MemberAdj(vs, q, cur)
  {
    var ns := Neighbours(cur);
    NoStonesMerge4(AdjTerm(vs, q, ns[0], cur), AdjTerm(vs, q, ns[1], cur), AdjTerm(vs, q, ns[2], cur), AdjTerm(vs, q, ns[3], cur));
  }

  /** `RecordsOk` from its two halves, each proved on its own. */
  lemma RecordsOkIntro(b: Board, h: int, q: int)
    requires Shaped(b) && 0 <= q < VirtualBoardPoints
    requires b.vertices[q].color == Empty ==> b.chains[q].Liberties() == EmptyTally(b.vertices, q)
    requires IsStone(b.vertices[q].color) && b.vertices[q].chainHead == q && q != h ==>
               b.chains[q].Liberties() == LibTally(b.vertices, q)
    ensures RecordsOk(b, h, q)
  {
  }

  /** The record of the emptied point after one pass of the loop. */
  lemma StepFreshRecord(b': Board, h: int, cur: int, newRecord: Chain)
    requires Shaped(b') && 0 <= cur < VirtualBoardPoints && b'.vertices[cur] == Vertex(cur, cur, Empty)
    requires newRecord.Liberties() == EmptyTally(b'.vertices, cur)
    requires b'.chains[cur] == newRecord.Merge(Gained(b'.vertices, h, cur, cur))
    requires Gained(b'.vertices, h, cur, cur) == if cur in Neighbours(cur) then Unit(cur) else Zero
    ensures RecordsOk(b', h, cur)
  {
    StepFreshLibs(b'.vertices, h, cur, newRecord, b'.chains[cur]);
    EmptyRecordOk(b', h, cur);
  }

  /** The record at any other point `q` after one pass of the loop. */
  lemma StepRecord(b: Board, b': Board, h: int, cur: int, q: int)
    requires Shaped(b) && Shaped(b') && Interior(cur) && 0 <= q < VirtualBoardPoints && q != cur
    requires IsStone(b.vertices[cur].color) && b.vertices[cur].chainHead == h
    requires b'.vertices == b.vertices[cur := Vertex(cur, cur, Empty)]
    requires RecordsOk(b, h, q)
    requires b'.chains[q] == b.chains[q].Merge(Gained(b'.vertices, h, q, cur))
    requires b'.vertices[q].color == Empty ==>
               Gained(b'.vertices, h, q, cur) == if q in Neighbours(cur) then Unit(cur) else Zero
    requires IsStone(b'.vertices[q].color) && b'.vertices[q].chainHead == q && q != h ==>
               Gained(b'.vertices, h, q, cur) == MemberAdj(b'.vertices, q, cur)
    ensures RecordsOk(b', h, q)
  {
    var vs, vs' := b.vertices, b'.vertices;
    if vs'[q].color == Empty {
      assert vs[q].color == Empty;
      assert b.chains[q].Liberties() == EmptyTally(vs, q);
      StepEmptyRecord(b, b', h, cur, q);
      EmptyRecordOk(b', h, q);
    } else if IsStone(vs'[q].color) && vs'[q].chainHead == q && q != h {
      StepHeadRecord(b, b', h, cur, q);
      RecordsOkIntro(b', h, q);
    } else {
      RecordsOkIntro(b', h, q);
    }
  }

  lemma StepEmptyRecord(b: Board, b': Board, h: int, cur: int, q: int)
    requires Shaped(b) && Shaped(b') && 0 <= cur < VirtualBoardPoints && 0 <= q < VirtualBoardPoints && q != cur
    requires IsStone(b.vertices[cur].color)
    requires b'.vertices == b.vertices[cur := Vertex(cur, cur, Empty)] && b.vertices[q].color == Empty
    requires b.chains[q].Liberties() == EmptyTally(b.vertices, q)
    requires b'.chains[q] == b.chains[q].Merge(Gained(b'.vertices, h, q, cur))
    requires Gained(b'.vertices, h, q, cur) == if q in Neighbours(cur) then Unit(cur) else Zero
    ensures b'.chains[q].Liberties() == EmptyTally(b'.vertices, q)
  {
    StepEmptyLibs(b.vertices, b'.vertices, cur, q, b.chains[q], Gained(b'.vertices, h, q, cur), b'.chains[q]);
  }

  /** `RecordsOk` at an empty point. */
  lemma EmptyRecordOk(b: Board, h: int, q: int)
    requires Shaped(b) && 0 <= q < VirtualBoardPoints && b.vertices[q].color == Empty
    requires b.chains[q].Liberties() == EmptyTally(b.vertices, q)
    ensures RecordsOk(b, h, q)
  {
    assert !IsStone(b.vertices[q].color);
    RecordsOkIntro(b, h, q);
  }

  lemma StepHeadRecord(b: Board, b': Board, h: int, cur: int, q: int)
    requires Shaped(b) && Shaped(b') && Interior(cur) && 0 <= q < VirtualBoardPoints && q != cur && q != h
    requires IsStone(b.vertices[cur].color) && b.vertices[cur].chainHead == h
    requires b'.vertices == b.vertices[cur := Vertex(cur, cur, Empty)]
    requires IsStone(b.vertices[q].color) && b.vertices[q].chainHead == q
    requires b.chains[q].Liberties() == LibTally(b.vertices, q)
    requires b'.chains[q] == b.chains[q].Merge(MemberAdj(b'.vertices, q, cur))
    ensures b'.chains[q].Liberties() == LibTally(b'.vertices, q)
  {
    StepHeadLibs(b.vertices, b'.vertices, cur, q, h, b.chains[q], b'.chains[q], LibTally(b.vertices, q), LibTally(b'.vertices, q));
  }

  /** Emptying the stone `cur` of the chain being removed, as one pass of the loop does, keeps `Removing`. */
  lemma RemoveStep(b0: Board, b: Board, b': Board, h: int, gone: set<int>, cur: int, newRecord: Chain)
    requires Removing(b0, b, h, gone) && Member(b0.vertices, h, cur) && cur !in gone
    requires b'.vertices == b.vertices[cur := Vertex(cur, cur, Empty)]
    requires newRecord.numStones == 1 && newRecord.Liberties() == EmptyTally(b'.vertices, cur)
    requires Shaped(b') && b'.size == b.size && b'.lastKoPoint == b.lastKoPoint && b'.lastCaptures == b.lastCaptures
    requires forall q :: 0 <= q < VirtualBoardPoints ==>
               b'.chains[q] == (if q == cur then newRecord else b.chains[q]).Merge(Gained(b'.vertices, h, q, cur))
    ensures Removing(b0, b', h, gone + {cur})
  {
    assert forall q :: 0 <= q < VirtualBoardPoints ==> RemovedAt(b0, b, gone, q);
    RemovedAtStep(b0, b, b', h, gone, cur, newRecord);
    forall q | 0 <= q < VirtualBoardPoints ensures RecordsOk(b', h, q) {
      RecordsStep(b0, b, b', h, gone, cur, newRecord, q);
    }
  }

  /** One pass empties `cur` and leaves every other point as it was. */
  lemma RemovedAtStep(b0: Board, b: Board, b': Board, h: int, gone: set<int>, cur: int, newRecord: Chain)
    requires Shaped(b0) && Shaped(b) && 0 <= cur < VirtualBoardPoints && cur !in gone
    requires forall q :: 0 <= q < VirtualBoardPoints ==> RemovedAt(b0, b, gone, q)
    requires b'.vertices == b.vertices[cur := Vertex(cur, cur, Empty)]
    requires newRecord.numStones == 1 && Shaped(b')
    requires forall q :: 0 <= q < VirtualBoardPoints ==>
               b'.chains[q] == (if q == cur then newRecord else b.chains[q]).Merge(Gained(b'.vertices, h, q, cur))
    ensures forall q :: 0 <= q < VirtualBoardPoints ==> RemovedAt(b0, b', gone + {cur}, q)
  {
    forall q | 0 <= q < VirtualBoardPoints ensures RemovedAt(b0, b', gone + {cur}, q) {
      assert RemovedAt(b0, b, gone, q);
      GainedNoStones(b'.vertices, h, q, cur);
    }
  }

  /** Records of points not yet emptied have lost no pseudo-liberties since `b0`. */
  ghost predicate Kept(b0: Board, b: Board, gone: set<int>)
    requires Shaped(b0) && Shaped(b)
  {
    forall q :: 0 <= q < VirtualBoardPoints && q !in gone ==>
      b.chains[q].numPseudoLiberties >= b0.chains[q].numPseudoLiberties
  }

  /** Emptying `cur` only ever hands liberties back. */
  lemma KeptStep(z: Table, b0: Board, b: Board, h: int, gone: set<int>, cur: int)
    requires Shaped(b0) && Shaped(b) && Interior(cur) && Kept(b0, b, gone)
    requires forall i :: 0 <= i < 4 ==> 0 <= b.vertices[Neighbours(cur)[i]].chainHead < VirtualBoardPoints
    ensures Shaped(ClearStone(z, b, h, cur)) && Kept(b0, ClearStone(z, b, h, cur), gone + {cur})
  {
    var r := ClearStone(z, b, h, cur);
    ClearStoneRecords(z, b, h, cur);
    forall q | 0 <= q < VirtualBoardPoints && q !in gone + {cur}
      ensures r.chains[q].numPseudoLiberties >= b0.chains[q].numPseudoLiberties
    {
      GainedNonNegative(r.vertices, h, q, cur);
    }
  }

  /** One pass keeps the record at `q` right. */
  lemma RecordsStep(b0: Board, b: Board, b': Board, h: int, gone: set<int>, cur: int, newRecord: Chain, q: int)
    requires Removing(b0, b, h, gone) && Member(b0.vertices, h, cur) && cur !in gone
    requires b'.vertices == b.vertices[cur := Vertex(cur, cur, Empty)]
    requires newRecord.Liberties() == EmptyTally(b'.vertices, cur) && Shaped(b') && 0 <= q < VirtualBoardPoints
    requires b'.chains[q] == (if q == cur then newRecord else b.chains[q]).Merge(Gained(b'.vertices, h, q, cur))
    ensures RecordsOk(b', h, q)
  {
    MemberInterior(b0, h, cur);
    assert RemovedAt(b0, b, gone, cur);
    HandsAround(b0, b, h, gone, cur, b'.vertices, q);
    if q == cur {
      StepFreshRecord(b', h, cur, newRecord);
    } else {
      assert RecordsOk(b, h, q);
      StepRecord(b, b', h, cur, q);
    }
  }

  // ---------------------------------------------------------------------
  // One pass of the loop of `_remove_chain`
  // ---------------------------------------------------------------------

  /**
   * The body of the loop of `_remove_chain` for the stone `cur` of the
   * chain headed by `h`: `_set_stone(cur, EMPTY)`, `_init_new_chain(cur)`,
   * then every neighbour that is not a stone of the chain being removed
   * gets `cur` back as a liberty.
   */
  function ClearStone(z: Table, b: Board, h: int, cur: int): (r: Board)
    requires Shaped(b) && Interior(cur)
    requires forall i :: 0 <= i < 4 ==> 0 <= b.vertices[Neighbours(cur)[i]].chainHead < VirtualBoardPoints
    ensures Shaped(r) && r.size == b.size && r.lastKoPoint == b.lastKoPoint && r.lastCaptures == b.lastCaptures
    ensures r.vertices == b.vertices[cur := Vertex(cur, cur, Empty)]
  {
    var b1 := SetStone(z, b, cur, Empty);
    var b2 := InitNewChain(b1, cur);
    ClearedIndexable(b.vertices, b2.vertices, b2.chains, cur);
    b2.(chains := AddLibertyAround(b2.vertices, b2.chains, h, cur))
  }

  lemma ClearedIndexable(vs: seq<Vertex>, vs': seq<Vertex>, cs: seq<Chain>, cur: int)
    requires |vs| == |vs'| == |cs| == VirtualBoardPoints && Interior(cur)
    requires forall i :: 0 <= i < 4 ==> 0 <= vs[Neighbours(cur)[i]].chainHead < VirtualBoardPoints
    requires forall x :: 0 <= x < VirtualBoardPoints && x != cur ==> vs'[x] == vs[x]
    ensures HeadsIndexable(vs', cs, cur)
  {
    forall i | 0 <= i < 4 ensures 0 <= At(vs', Neighbours(cur)[i]).chainHead < |cs| {
      assert vs'[Neighbours(cur)[i]] == vs[Neighbours(cur)[i]];
    }
  }

  /** What `ClearStone` does to the records: a fresh record at `cur`, and `cur` handed back around it. */
  lemma ClearStoneRecords(z: Table, b: Board, h: int, cur: int)
    requires Shaped(b) && Interior(cur)
    requires forall i :: 0 <= i < 4 ==> 0 <= b.vertices[Neighbours(cur)[i]].chainHead < VirtualBoardPoints
    ensures var r := ClearStone(z, b, h, cur);
            var newRecord := NewChainRecord(SetStone(z, b, cur, Empty).vertices, cur);
            newRecord.numStones == 1 && newRecord.Liberties() == EmptyTally(r.vertices, cur) &&
            forall q :: 0 <= q < VirtualBoardPoints ==>
              r.chains[q] == (if q == cur then newRecord else b.chains[q]).Merge(Gained(r.vertices, h, q, cur))
  {
    var b1 := SetStone(z, b, cur, Empty);
    var b2 := InitNewChain(b1, cur);
    var r := ClearStone(z, b, h, cur);
    assert r.vertices == b2.vertices;
    forall i | 0 <= i < 4 ensures At(r.vertices, Neighbours(cur)[i]).color == At(b1.vertices, Neighbours(cur)[i]).color {
      assert Neighbours(cur)[i] != cur;
    }
    EmptyTallyFrame(b1.vertices, r.vertices, cur);
  }

  /** Emptying a stone keeps the hash in step. */
  lemma ClearStoneHash(z: Table, b: Board, h: int, cur: int)
    requires Shaped(b) && Interior(cur) && HashOk(z, b) && IsStone(b.vertices[cur].color)
    requires forall i :: 0 <= i < 4 ==> 0 <= b.vertices[Neighbours(cur)[i]].chainHead < VirtualBoardPoints
    ensures HashOk(z, ClearStone(z, b, h, cur))
  {
    var b1 := SetStone(z, b, cur, Empty);
    var r := ClearStone(z, b, h, cur);
    SetStoneHash(z, b, cur, Empty);
    assert forall x :: 0 <= x < |b1.vertices| ==> r.vertices[x].color == b1.vertices[x].color;
    HashOfColors(z, b1.vertices, r.vertices, 0);
  }

  /** Part-way through, the neighbours of a stone of the chain have heads in range. */
  lemma RemovingNeighbourHeads(b0: Board, b: Board, h: int, gone: set<int>, cur: int)
    requires Removing(b0, b, h, gone) && Interior(cur)
    ensures forall i :: 0 <= i < 4 ==> 0 <= b.vertices[Neighbours(cur)[i]].chainHead < VirtualBoardPoints
  {
    forall i | 0 <= i < 4 ensures 0 <= b.vertices[Neighbours(cur)[i]].chainHead < VirtualBoardPoints {
      RemovingHead(b0, b, h, gone, Neighbours(cur)[i]);
    }
  }

  /** One pass of the loop keeps `Removing`, with one more stone gone, and the hash. */
  lemma ClearStoneStep(z: Table, b0: Board, b: Board, h: int, gone: set<int>, cur: int)
    requires Removing(b0, b, h, gone) && Member(b0.vertices, h, cur) && cur !in gone && HashOk(z, b)
    ensures Interior(cur)
    ensures forall i :: 0 <= i < 4 ==> 0 <= b.vertices[Neighbours(cur)[i]].chainHead < VirtualBoardPoints
    ensures Removing(b0, ClearStone(z, b, h, cur), h, gone + {cur}) && HashOk(z, ClearStone(z, b, h, cur))
  {
    MemberInterior(b0, h, cur);
    RemovingNeighbourHeads(b0, b, h, gone, cur);
    assert RemovedAt(b0, b, gone, cur);
    ClearStoneRecords(z, b, h, cur);
    ClearStoneHash(z, b, h, cur);
    RemoveStep(b0, b, ClearStone(z, b, h, cur), h, gone, cur, NewChainRecord(SetStone(z, b, cur, Empty).vertices, cur));
  }

  // ---------------------------------------------------------------------
  // Once every stone of the chain is gone
  // ---------------------------------------------------------------------

  /** Every point is emptied or as it was, and `gone` is exactly the chain headed by `h`. */
  ghost predicate Cleared(b0: Board, b: Board, h: int, gone: set<int>)
    requires Shaped(b0) && Shaped(b)
  {
    (forall q :: 0 <= q < VirtualBoardPoints ==> RemovedAt(b0, b, gone, q)) &&
    (forall x :: x in gone <==> Member(b0.vertices, h, x))
  }

  lemma ClearedGuards(b0: Board, b: Board, h: int, gone: set<int>)
    requires Valid(b0) && Shaped(b) && b.size == b0.size && Cleared(b0, b, h, gone)
    ensures forall q :: 0 <= q < VirtualBoardPoints ==> GuardOk(b.size, b.vertices, q)
  {
    forall q | 0 <= q < VirtualBoardPoints ensures GuardOk(b.size, b.vertices, q) {
      assert RemovedAt(b0, b, gone, q) && GuardOk(b0.size, b0.vertices, q);
    }
  }

  lemma ClearedEmpties(b0: Board, b: Board, h: int, gone: set<int>)
    requires Valid(b0) && Shaped(b) && Cleared(b0, b, h, gone)
    ensures forall q :: 0 <= q < VirtualBoardPoints ==> EmptyOk(b.vertices, b.chains, q)
  {
    forall q | 0 <= q < VirtualBoardPoints ensures EmptyOk(b.vertices, b.chains, q) {
      assert RemovedAt(b0, b, gone, q) && EmptyOk(b0.vertices, b0.chains, q);
    }
  }

  /** A stone left on the board, and its head, belong to another chain and are untouched. */
  lemma ClearedStone(b0: Board, b: Board, h: int, gone: set<int>, q: int)
    requires Valid(b0) && Shaped(b) && Cleared(b0, b, h, gone)
    requires 0 <= q < VirtualBoardPoints && IsStone(b.vertices[q].color)
    ensures q !in gone && b.vertices[q] == b0.vertices[q]
    ensures var hq := b0.vertices[q].chainHead;
            0 <= hq < VirtualBoardPoints && hq != h && hq !in gone && b.vertices[hq] == b0.vertices[hq]
  {
    assert RemovedAt(b0, b, gone, q);
    assert StoneOk(b0.vertices, q);
    var hq := b0.vertices[q].chainHead;
    assert !Member(b0.vertices, h, q);
    assert RemovedAt(b0, b, gone, hq);
  }

  lemma ClearedStones(b0: Board, b: Board, h: int, gone: set<int>)
    requires Valid(b0) && Shaped(b) && Cleared(b0, b, h, gone)
    ensures forall q :: 0 <= q < VirtualBoardPoints ==> StoneOk(b.vertices, q)
  {
    forall q | 0 <= q < VirtualBoardPoints ensures StoneOk(b.vertices, q) {
      if IsStone(b.vertices[q].color) {
        ClearedStone(b0, b, h, gone, q);
        assert StoneOk(b0.vertices, q);
        forall i | 0 <= i < 4 && At(b.vertices, Neighbours(q)[i]).color == b.vertices[q].color
          ensures At(b.vertices, Neighbours(q)[i]).chainHead == b.vertices[q].chainHead
        {
          var n := Neighbours(q)[i];
          ClearedStone(b0, b, h, gone, n);
        }
      }
    }
  }

  /** A chain other than the removed one keeps its list, its members and its stone count. */
  lemma ClearedHead(b0: Board, b: Board, h: int, gone: set<int>, q: int)
    requires Valid(b0) && Shaped(b) && Cleared(b0, b, h, gone)
    requires 0 <= q < VirtualBoardPoints && IsStone(b.vertices[q].color) && b.vertices[q].chainHead == q
    ensures HeadOk(b.vertices, b.chains, q)
  {
    var vs, vs' := b0.vertices, b.vertices;
    ClearedStone(b0, b, h, gone, q);
    assert RemovedAt(b0, b, gone, q) && HeadOk(vs, b0.chains, q);
    var k := b0.chains[q].numStones;
    assert SameNextExcept(vs, vs', gone) by {
      forall x | 0 <= x < |vs| && x !in gone ensures vs'[x].chainNext == vs[x].chainNext {
        assert RemovedAt(b0, b, gone, x);
      }
    }
    var w := Walk(vs, q, k);
    forall i | 0 <= i < |w| ensures w[i] !in gone {
      assert Member(vs, q, w[i]);
    }
    WalkFrame(vs, vs', q, k, gone);
    forall x ensures Member(vs', q, x) <==> Member(vs, q, x) {
      if 0 <= x < VirtualBoardPoints {
        assert RemovedAt(b0, b, gone, x);
      }
    }
  }

  lemma ClearedHeads(b0: Board, b: Board, h: int, gone: set<int>)
    requires Valid(b0) && Shaped(b) && Cleared(b0, b, h, gone)
    ensures forall q :: 0 <= q < VirtualBoardPoints ==> HeadOk(b.vertices, b.chains, q)
  {
    forall q | 0 <= q < VirtualBoardPoints ensures HeadOk(b.vertices, b.chains, q) {
      if IsStone(b.vertices[q].color) && b.vertices[q].chainHead == q {
        ClearedHead(b0, b, h, gone, q);
      }
    }
  }

  /** The records kept right throughout are all the records `Valid` asks for once `h` is off the board. */
  lemma ClearedLibs(b: Board, h: int)
    requires Shaped(b) && 0 <= h < VirtualBoardPoints && !IsStone(b.vertices[h].color)
    requires forall q :: 0 <= q < VirtualBoardPoints ==> RecordsOk(b, h, q)
    ensures forall q :: 0 <= q < VirtualBoardPoints ==> EmptyLibsOk(b.vertices, b.chains, q)
    ensures forall q :: 0 <= q < VirtualBoardPoints ==> HeadLibsOk(b.vertices, b.chains, q)
  {
    forall q | 0 <= q < VirtualBoardPoints ensures EmptyLibsOk(b.vertices, b.chains, q) {
      assert RecordsOk(b, h, q);
    }
    forall q | 0 <= q < VirtualBoardPoints ensures HeadLibsOk(b.vertices, b.chains, q) {
      assert RecordsOk(b, h, q);
    }
  }

  /** With every stone of the chain gone, the board is valid again. */
  lemma RemovedValid(b0: Board, b: Board, h: int, gone: set<int>)
    requires Removing(b0, b, h, gone) && forall x :: Member(b0.vertices, h, x) ==> x in gone
    ensures Valid(b)
  {
    assert Cleared(b0, b, h, gone);
    assert RemovedAt(b0, b, gone, h);
    ClearedGuards(b0, b, h, gone);
    ClearedEmpties(b0, b, h, gone);
    ClearedStones(b0, b, h, gone);
    ClearedHeads(b0, b, h, gone);
    ClearedLibs(b, h);
  }

  // ---------------------------------------------------------------------
  // _remove_chain
  // ---------------------------------------------------------------------

  /**
   * `_remove_chain(p)`: walk the circular list from `p`, emptying each
   * stone, until the walk is back at `p`. Every stone of `p`'s chain
   * becomes an empty one-point chain, every other point is untouched, and
   * the board is valid with its hash in step.
   */
  method RemoveChain(z: Table, b: Board, p: int) returns (r: Board)
    requires Valid(b) && HashOk(z, b) && 0 <= p < VirtualBoardPoints && IsStone(b.vertices[p].color)
    ensures Valid(r) && HashOk(z, r)
    ensures r.size == b.size && r.lastKoPoint == b.lastKoPoint && r.lastCaptures == b.lastCaptures
    ensures forall x :: 0 <= x < VirtualBoardPoints ==>
              r.vertices[x] == if Member(b.vertices, b.vertices[p].chainHead, x) then Vertex(x, x, Empty) else b.vertices[x]
    ensures forall x :: 0 <= x < VirtualBoardPoints && !Member(b.vertices, b.vertices[p].chainHead, x) ==>
              r.chains[x].numStones == b.chains[x].numStones &&
              r.chains[x].numPseudoLiberties >= b.chains[x].numPseudoLiberties
  {
    var h := b.vertices[p].chainHead;
    WalkFromStone(b, p);
    assert StoneOk(b.vertices, p);
    ghost var k := b.chains[h].numStones;
    ghost var w := Walk(b.vertices, p, k);
    WalkInRange(b.vertices, p, k);
    RemovingStart(b, h);
    r := b;
    var cur := p;
    ghost var gone: set<int> := {};
    ghost var i := 0;
    while true
      invariant 0 <= i < k && cur == w[i]
      invariant Removing(b, r, h, gone) && HashOk(z, r)
      invariant forall x :: x in gone <==> x in w[..i]
      invariant Kept(b, r, gone)
      decreases k - i
    {
      RemoveLoopStep(z, b, r, h, gone, p, k, i);
      KeptStep(z, b, r, h, gone, cur);
      var next := r.vertices[cur].chainNext;
      r := ClearStone(z, r, h, cur);
      gone := gone + {cur};
      i := i + 1;
      cur := next;
      if cur == p {
        break;
      }
    }
    RemoveLoopDone(b, r, h, gone, p, k, i);
  }

  /** One pass of the loop: `cur` is the `i`-th point of the walk from `p`. */
  lemma RemoveLoopStep(z: Table, b: Board, r: Board, h: int, gone: set<int>, p: int, k: nat, i: nat)
    requires Valid(b) && 0 <= h < VirtualBoardPoints && Cycle(b.vertices, p, k)
    requires forall x :: x in Walk(b.vertices, p, k) <==> Member(b.vertices, h, x)
    requires i < k && Removing(b, r, h, gone) && HashOk(z, r)
    requires forall x :: x in gone <==> x in Walk(b.vertices, p, k)[..i]
    ensures var w, cur := Walk(b.vertices, p, k), Walk(b.vertices, p, k)[i];
            Interior(cur) && (forall j :: 0 <= j < 4 ==> 0 <= r.vertices[Neighbours(cur)[j]].chainHead < VirtualBoardPoints) &&
            0 <= cur < VirtualBoardPoints &&
            Removing(b, ClearStone(z, r, h, cur), h, gone + {cur}) && HashOk(z, ClearStone(z, r, h, cur)) &&
            (forall x :: x in gone + {cur} <==> x in w[..i + 1]) &&
            (i + 1 < k ==> r.vertices[cur].chainNext == w[i + 1] && w[i + 1] != p) &&
            (i + 1 == k ==> r.vertices[cur].chainNext == p)
  {
    var w := Walk(b.vertices, p, k);
    var cur := w[i];
    WalkInRange(b.vertices, p, k);
    VisitedStep(w, gone, i);
    assert RemovedAt(b, r, gone, cur);
    NextOnWalk(b.vertices, p, k, i);
    ClearStoneStep(z, b, r, h, gone, cur);
  }

  /** The points visited so far are the first `i` of a walk without repeats. */
  lemma VisitedStep(w: seq<int>, gone: set<int>, i: nat)
    requires Distinct(w) && i < |w| && forall x :: x in gone <==> x in w[..i]
    ensures w[i] !in gone
    ensures forall x :: x in gone + {w[i]} <==> x in w[..i + 1]
    ensures i + 1 < |w| ==> w[i + 1] != w[0]
  {
    SameMembers(gone, w[..i], w[i]);
    assert w[..i + 1] == w[..i] + [w[i]];
  }

  /** Two collections with the same members agree on `y`. */
  lemma SameMembers(s: set<int>, t: seq<int>, y: int)
    requires forall x :: x in s <==> x in t
    ensures y in s <==> y in t
  {
  }

  /** When the walk is back at `p`, every stone of the chain is gone and the board is valid. */
  lemma RemoveLoopDone(b: Board, r: Board, h: int, gone: set<int>, p: int, k: nat, i: nat)
    requires Valid(b) && Cycle(b.vertices, p, k) && i == k
    requires forall x :: x in Walk(b.vertices, p, k) <==> Member(b.vertices, h, x)
    requires Removing(b, r, h, gone) && forall x :: x in gone <==> x in Walk(b.vertices, p, k)[..i]
    requires Kept(b, r, gone)
    ensures Valid(r)
    ensures forall x :: 0 <= x < VirtualBoardPoints ==>
              r.vertices[x] == if Member(b.vertices, h, x) then Vertex(x, x, Empty) else b.vertices[x]
    ensures forall x :: 0 <= x < VirtualBoardPoints && !Member(b.vertices, h, x) ==>
              r.chains[x].numStones == b.chains[x].numStones &&
              r.chains[x].numPseudoLiberties >= b.chains[x].numPseudoLiberties
  {
    var w := Walk(b.vertices, p, k);
    assert w[..i] == w;
    RemovedValid(b, r, h, gone);
    forall x | 0 <= x < VirtualBoardPoints
      ensures r.vertices[x] == if Member(b.vertices, h, x) then Vertex(x, x, Empty) else b.vertices[x]
      ensures !Member(b.vertices, h, x) ==> r.chains[x].numStones == b.chains[x].numStones
      ensures !Member(b.vertices, h, x) ==> r.chains[x].numPseudoLiberties >= b.chains[x].numPseudoLiberties
    {
      assert RemovedAt(b, r, gone, x);
      SameMembers(gone, w, x);
    }
  }

  /** The point after the `i`-th of a closed walk from `p` is the next one, or `p` again after the last. */
  lemma NextOnWalk(vs: seq<Vertex>, p: int, k: nat, i: nat)
    requires Cycle(vs, p, k) && i < k
    ensures 0 <= Walk(vs, p, k)[i] < |vs|
    ensures vs[Walk(vs, p, k)[i]].chainNext == if i + 1 < k then Walk(vs, p, k)[i + 1] else p
  {
    if i + 1 < k {
      WalkSucc(vs, p, k, i);
    } else {
      CycleLast(vs, p, k);
    }
  }
}


=== FILE: rules.dfy ===
/**
 * What a move means in terms of the colours and chain heads of the board,
 * without the incremental liberty records: which stones a move captures,
 * when the new stone's chain keeps a liberty, and how the records of a valid
 * board reflect liberties. A chain is the set of stones sharing a head;
 * `Valid` does not require it to be connected.
 */
module Rules {
  import opened Colors
  import opened Coords
  import opened Chains
  import opened Vertices
  import opened Boards
  import opened Tallies
  import opened Placing
  import opened Joins
  import opened Liberties
  import opened Queries
  import opened Captures

  // ---------------------------------------------------------------------
  // The rules of Go, stated on colours and chain heads
  // ---------------------------------------------------------------------

  /** Every liberty of the chain of `n` is `p`. */
  ghost predicate LastLiberty(vs: seq<Vertex>, n: int, p: int)
    requires 0 <= n < |vs|
  {
    forall y :: IsLiberty(vs, n, y) ==> y == p
  }

  /**
   * A stone of colour `c` played at `p` captures `x`: `x` is an opposing
   * stone of the chain of a neighbour of `p` that has no liberty but `p`.
   */
  ghost predicate Captured(vs: seq<Vertex>, p: int, c: Color, x: int) {
    0 <= x < |vs| && vs[x].color == Opponent(c) &&
    exists j :: 0 <= j < 4 && 0 <= Neighbours(p)[j] < |vs| && vs[Neighbours(p)[j]].color == Opponent(c) &&
                LastLiberty(vs, Neighbours(p)[j], p) && InChain(vs, Neighbours(p)[j], x)
  }

  /** The move captures exactly one stone, `k`. */
  ghost predicate SoleCapture(vs: seq<Vertex>, p: int, c: Color, k: int) {
    Captured(vs, p, c, k) && forall x :: Captured(vs, p, c, x) ==> x == k
  }

  /**
   * A stone of colour `c` at `p` has a liberty once the captures are made:
   * `p` has an empty neighbour, or joins a chain of its colour that has a
   * liberty besides `p`, or takes the last liberty of an opposing chain.
   */
  ghost predicate Breathes(vs: seq<Vertex>, p: int, c: Color) {
    exists j :: 0 <= j < 4 && 0 <= Neighbours(p)[j] < |vs| &&
      (vs[Neighbours(p)[j]].color == Empty ||
       (vs[Neighbours(p)[j]].color == c && TwoLiberties(vs, Neighbours(p)[j])) ||
       (vs[Neighbours(p)[j]].color == Opponent(c) && !TwoLiberties(vs, Neighbours(p)[j])))
  }

  // ---------------------------------------------------------------------
  // Records and liberties
  // ---------------------------------------------------------------------

  /** On a valid board every stone lies on the board. */
  lemma StoneOnBoard(b: Board, x: int)
    requires Valid(b) && 0 <= x < VirtualBoardPoints && IsStone(b.vertices[x].color)
    ensures InBoardArea(b.size, x)
  {
    assert GuardOk(b.size, b.vertices, x);
  }

  /**
   * On a valid board the record of a point's chain has a positive
   * pseudo-liberty count exactly when the chain has a liberty, and the
   * count is never negative.
   */
  lemma LibertyCount(b: Board, x: int)
    requires Valid(b) && InBoardArea(b.size, x)
    ensures 0 <= x < VirtualBoardPoints && 0 <= b.vertices[x].chainHead < VirtualBoardPoints
    ensures b.chains[b.vertices[x].chainHead].numPseudoLiberties >= 0
    ensures b.chains[b.vertices[x].chainHead].numPseudoLiberties > 0 <==> !NoLiberty(b.vertices, x)
  {
    ChainRecord(b, x);
    ListShape(b.vertices, x, ChainLibList(b.vertices, x));
  }

  /** An empty point's liberties are its empty neighbours. */
  lemma EmptyPointLiberties(vs: seq<Vertex>, p: int, y: int)
    requires 0 <= p < |vs| && vs[p].color == Empty
    ensures IsLiberty(vs, p, y) <==> At(vs, y).color == Empty && y in Neighbours(p)
  {
    if At(vs, y).color == Empty && y in Neighbours(p) {
      assert InChain(vs, p, p);
    }
  }

  /** A point next to a stone, if empty, is a liberty of that stone's chain. */
  lemma NextToStone(vs: seq<Vertex>, n: int, y: int)
    requires 0 <= n < |vs| && IsStone(vs[n].color)
    requires At(vs, y).color == Empty && y in Neighbours(n)
    ensures IsLiberty(vs, n, y)
  {
    assert InChain(vs, n, n);
  }

  /** With `p` among its liberties, a chain has two liberties unless `p` is its last. */
  lemma LastLibertyShape(vs: seq<Vertex>, n: int, p: int)
    requires 0 <= n < |vs| && IsLiberty(vs, n, p)
    ensures LastLiberty(vs, n, p) <==> !TwoLiberties(vs, n)
  {
    if !LastLiberty(vs, n, p) {
      var y :| IsLiberty(vs, n, y) && y != p;
      assert TwoLiberties(vs, n);
    }
  }

  // ---------------------------------------------------------------------
  // Placing a stone, seen from the opposing chains
  // ---------------------------------------------------------------------

  /** What placing a stone of colour `c` at `p` on `b` promises of the resulting board `placed`, whose new chain is headed by `g`. */
  ghost predicate AfterPlacing(b: Board, placed: Board, p: int, c: Color, g: int) {
    Valid(b) && Valid(placed) && InBoardArea(b.size, p) && 0 <= p < VirtualBoardPoints && 0 <= g < VirtualBoardPoints &&
    b.vertices[p].color == Empty && IsStone(c) && placed.size == b.size &&
    placed.vertices[p].color == c && placed.vertices[p].chainHead == g &&
    (forall x :: 0 <= x < VirtualBoardPoints && x != p ==> placed.vertices[x].color == b.vertices[x].color) &&
    (forall x :: Member(placed.vertices, g, x) <==> x == p || InChains(b.vertices, NbrHeads(b.vertices, p, c, 4), x)) &&
    (forall h, x :: h != g ==> (Member(placed.vertices, h, x) <==> Member(b.vertices, h, x) && h !in NbrHeads(b.vertices, p, c, 4)))
  }

  /** The head of an opposing stone is neither the new chain's head nor the head of a chain that joined it. */
  lemma OpposingHead(b: Board, placed: Board, p: int, c: Color, g: int, n: int)
    requires AfterPlacing(b, placed, p, c, g) && 0 <= n < VirtualBoardPoints && b.vertices[n].color == Opponent(c)
    ensures var h := b.vertices[n].chainHead;
            0 <= h < VirtualBoardPoints && b.vertices[h].color == Opponent(c) && h != g && h !in NbrHeads(b.vertices, p, c, 4)
  {
    var vs := b.vertices;
    var h := vs[n].chainHead;
    assert StoneOk(vs, n) && StoneOk(placed.vertices, p);
    NbrHeadsMembers(vs, p, c, 4, h);
    forall j | 0 <= j < 4 && At(vs, Neighbours(p)[j]).color == c ensures At(vs, Neighbours(p)[j]).chainHead != h {
      assert StoneOk(vs, Neighbours(p)[j]);
    }
  }

  /** An opposing stone keeps its chain when the stone is placed. */
  lemma OpposingChainKept(b: Board, placed: Board, p: int, c: Color, g: int, n: int)
    requires AfterPlacing(b, placed, p, c, g) && 0 <= n < VirtualBoardPoints && b.vertices[n].color == Opponent(c)
    ensures placed.vertices[n].color == Opponent(c) && placed.vertices[n].chainHead == b.vertices[n].chainHead
    ensures forall x :: InChain(placed.vertices, n, x) <==> InChain(b.vertices, n, x)
  {
    OpposingHead(b, placed, p, c, g, n);
    var h := b.vertices[n].chainHead;
    assert Member(b.vertices, h, n);
    assert Member(placed.vertices, h, n);
  }

  /** An opposing chain loses the liberty `p` and keeps every other one. */
  lemma PlacedLiberties(b: Board, placed: Board, p: int, c: Color, g: int, n: int)
    requires AfterPlacing(b, placed, p, c, g) && 0 <= n < VirtualBoardPoints && b.vertices[n].color == Opponent(c)
    ensures forall y :: IsLiberty(placed.vertices, n, y) <==> IsLiberty(b.vertices, n, y) && y != p
  {
    OpposingChainKept(b, placed, p, c, g, n);
    forall y ensures IsLiberty(placed.vertices, n, y) <==> IsLiberty(b.vertices, n, y) && y != p {
      assert At(placed.vertices, y).color == Empty <==> At(b.vertices, y).color == Empty && y != p;
    }
  }

  // ---------------------------------------------------------------------
  // Capturing, seen from the stones
  // ---------------------------------------------------------------------

  /** What removing the dead chains next to `p` promises of the board `swept` it makes from `placed`. */
  ghost predicate AfterCapture(placed: Board, swept: Board, p: int, c: Color, dead: seq<int>) {
    Valid(placed) && Valid(swept) && swept.size == placed.size && 0 <= p < VirtualBoardPoints && IsStone(c) &&
    |dead| <= 4 && Distinct(dead) &&
    (forall j :: 0 <= j < |dead| ==>
       dead[j] in NbrHeads(placed.vertices, p, Opponent(c), 4) && 0 <= dead[j] < VirtualBoardPoints &&
       placed.chains[dead[j]].numPseudoLiberties == 0) &&
    (forall x :: 0 <= x < VirtualBoardPoints ==>
       swept.vertices[x] == if InDead(placed.vertices, dead, x) then Vertex(x, x, Empty) else placed.vertices[x]) &&
    (forall m :: 0 <= m < 4 ==> 0 <= Neighbours(p)[m] < VirtualBoardPoints && Survives(swept, Neighbours(p)[m], c))
  }

  /** A recorded head heads an opposing chain that touches `p` at the neighbour `Neighbours(p)[j]`. */
  lemma DeadHead(placed: Board, swept: Board, p: int, c: Color, dead: seq<int>, i: int) returns (j: int)
    requires AfterCapture(placed, swept, p, c, dead) && 0 <= i < |dead|
    ensures 0 <= j < 4 && 0 <= Neighbours(p)[j] < VirtualBoardPoints
    ensures placed.vertices[Neighbours(p)[j]].color == Opponent(c) && placed.vertices[Neighbours(p)[j]].chainHead == dead[i]
    ensures placed.vertices[dead[i]].color == Opponent(c) && placed.vertices[dead[i]].chainHead == dead[i]
  {
    NbrHeadsMembers(placed.vertices, p, Opponent(c), 4, dead[i]);
    j :| 0 <= j < 4 && At(placed.vertices, Neighbours(p)[j]).color == Opponent(c) &&
         At(placed.vertices, Neighbours(p)[j]).chainHead == dead[i];
    assert StoneOk(placed.vertices, Neighbours(p)[j]);
  }

  /** Every stone of a removed chain is an opposing stone. */
  lemma DeadColour(placed: Board, swept: Board, p: int, c: Color, dead: seq<int>, x: int)
    requires AfterCapture(placed, swept, p, c, dead)
    ensures InDead(placed.vertices, dead, x) ==> placed.vertices[x].color == Opponent(c)
  {
    if InDead(placed.vertices, dead, x) {
      var i :| 0 <= i < |dead| && dead[i] == placed.vertices[x].chainHead;
      var _ := DeadHead(placed, swept, p, c, dead, i);
      assert StoneOk(placed.vertices, x);
    }
  }

  /** A chain that is not removed has on `swept` no liberty it lacked on `placed`. */
  lemma SweptLiberty(placed: Board, swept: Board, p: int, c: Color, dead: seq<int>, n: int)
    requires AfterCapture(placed, swept, p, c, dead) && 0 <= n < VirtualBoardPoints
    requires placed.vertices[n].color == Opponent(c) && !InDead(placed.vertices, dead, n)
    ensures forall y :: IsLiberty(swept.vertices, n, y) ==> IsLiberty(placed.vertices, n, y)
  {
    var ps, ss := placed.vertices, swept.vertices;
    var h := ps[n].chainHead;
    forall y | IsLiberty(ss, n, y) ensures IsLiberty(ps, n, y) {
      var m :| InChain(ss, n, m) && y in Neighbours(m);
      assert Member(ps, h, m);
      assert StoneOk(ps, m) && StoneOk(ps, n);
      NeighbourIndex(m, y);
      DeadColour(placed, swept, p, c, dead, y);
      assert InDead(ps, dead, y) ==> At(ps, y).chainHead == h;
      assert InChain(ps, n, m);
    }
  }

  /** An opposing neighbour of `p` without liberties on `placed` is removed. */
  lemma DeadOrBreathing(placed: Board, swept: Board, p: int, c: Color, dead: seq<int>, j: int)
    requires AfterCapture(placed, swept, p, c, dead) && 0 <= j < 4
    requires placed.vertices[Neighbours(p)[j]].color == Opponent(c)
    ensures NoLiberty(placed.vertices, Neighbours(p)[j]) ==> InDead(placed.vertices, dead, Neighbours(p)[j])
  {
    var n := Neighbours(p)[j];
    if !InDead(placed.vertices, dead, n) {
      assert Survives(swept, n, c);
      StoneOnBoard(placed, n);
      LibertyCount(swept, n);
      var y :| IsLiberty(swept.vertices, n, y);
      SweptLiberty(placed, swept, p, c, dead, n);
    }
  }

  /** A removed stone is a stone the move captures, and it was in the same chain before the move. */
  lemma DeadIsCaptured(b: Board, placed: Board, swept: Board, p: int, c: Color, g: int, dead: seq<int>, x: int)
    requires AfterPlacing(b, placed, p, c, g) && AfterCapture(placed, swept, p, c, dead)
    ensures InDead(placed.vertices, dead, x) ==>
              Captured(b.vertices, p, c, x) && b.vertices[x].chainHead == placed.vertices[x].chainHead
  {
    if InDead(placed.vertices, dead, x) {
      var d := placed.vertices[x].chainHead;
      var i :| 0 <= i < |dead| && dead[i] == d;
      var j := DeadHead(placed, swept, p, c, dead, i);
      var n := Neighbours(p)[j];
      OpposingChainKept(b, placed, p, c, g, n);
      PlacedLiberties(b, placed, p, c, g, n);
      StoneOnBoard(placed, n);
      LibertyCount(placed, n);
      assert LastLiberty(b.vertices, n, p);
      assert InChain(placed.vertices, n, x);
      DeadColour(placed, swept, p, c, dead, x);
    }
  }

  /** A stone the move captures is removed. */
  lemma CapturedIsDead(b: Board, placed: Board, swept: Board, p: int, c: Color, g: int, dead: seq<int>, x: int)
    requires AfterPlacing(b, placed, p, c, g) && AfterCapture(placed, swept, p, c, dead)
    ensures Captured(b.vertices, p, c, x) ==> InDead(placed.vertices, dead, x)
  {
    if Captured(b.vertices, p, c, x) {
      var j :| 0 <= j < 4 && 0 <= Neighbours(p)[j] < |b.vertices| && b.vertices[Neighbours(p)[j]].color == Opponent(c) &&
               LastLiberty(b.vertices, Neighbours(p)[j], p) && InChain(b.vertices, Neighbours(p)[j], x);
      var n := Neighbours(p)[j];
      OpposingChainKept(b, placed, p, c, g, n);
      PlacedLiberties(b, placed, p, c, g, n);
      assert NoLiberty(placed.vertices, n);
      DeadOrBreathing(placed, swept, p, c, dead, j);
      assert InChain(placed.vertices, n, x);
    }
  }

  /** The removed stones are exactly the captured ones. */
  lemma DeadIffCaptured(b: Board, placed: Board, swept: Board, p: int, c: Color, g: int, dead: seq<int>)
    requires AfterPlacing(b, placed, p, c, g) && AfterCapture(placed, swept, p, c, dead)
    ensures forall x :: InDead(placed.vertices, dead, x) <==> Captured(b.vertices, p, c, x)
  {
    forall x ensures InDead(placed.vertices, dead, x) <==> Captured(b.vertices, p, c, x) {
      DeadIsCaptured(b, placed, swept, p, c, g, dead, x);
      CapturedIsDead(b, placed, swept, p, c, g, dead, x);
    }
  }

  /** After the captures a point is empty exactly when it was captured, or was empty and is not `p`. */
  lemma SweptEmpty(b: Board, placed: Board, swept: Board, p: int, c: Color, g: int, dead: seq<int>)
    requires AfterPlacing(b, placed, p, c, g) && AfterCapture(placed, swept, p, c, dead)
    ensures forall y :: At(swept.vertices, y).color == Empty <==>
                        Captured(b.vertices, p, c, y) || (At(b.vertices, y).color == Empty && y != p)
  {
    DeadIffCaptured(b, placed, swept, p, c, g, dead);
  }

  /** After the captures the chain of `p` is the stone `p` and the chains of colour `c` it joined. */
  lemma SweptChainOfP(b: Board, placed: Board, swept: Board, p: int, c: Color, g: int, dead: seq<int>)
    requires AfterPlacing(b, placed, p, c, g) && AfterCapture(placed, swept, p, c, dead)
    ensures swept.vertices[p] == placed.vertices[p]
    ensures forall m :: InChain(swept.vertices, p, m) <==> m == p || InChains(b.vertices, NbrHeads(b.vertices, p, c, 4), m)
  {
    var ps := placed.vertices;
    DeadColour(placed, swept, p, c, dead, p);
    forall m ensures Member(swept.vertices, g, m) <==> Member(ps, g, m) {
      DeadColour(placed, swept, p, c, dead, m);
      if Member(ps, g, m) {
        assert StoneOk(ps, m) && StoneOk(ps, p);
      }
    }
  }

  /**
   * The facts about a move from `vs` to `ss` that decide whether the chain
   * of `p` keeps a liberty: which points are empty afterwards, and which
   * stones form the chain of `p`.
   */
  ghost predicate MoveOutline(vs: seq<Vertex>, ss: seq<Vertex>, p: int, c: Color) {
    |vs| == |ss| == VirtualBoardPoints && 0 <= p < VirtualBoardPoints && IsStone(c) &&
    vs[p].color == Empty && ss[p].color == c &&
    (forall j :: 0 <= j < 4 ==> 0 <= Neighbours(p)[j] < VirtualBoardPoints) &&
    (forall y :: At(ss, y).color == Empty <==> Captured(vs, p, c, y) || (At(vs, y).color == Empty && y != p)) &&
    (forall m :: InChain(ss, p, m) <==> m == p || InChains(vs, NbrHeads(vs, p, c, 4), m))
  }

  /** A liberty of the new chain comes from one of the three ways of breathing. */
  lemma BreathesIfLiberty(vs: seq<Vertex>, ss: seq<Vertex>, p: int, c: Color, y: int)
    requires MoveOutline(vs, ss, p, c) && IsLiberty(ss, p, y)
    ensures Breathes(vs, p, c)
  {
    var m :| InChain(ss, p, m) && y in Neighbours(m);
    if Captured(vs, p, c, y) {
      var j :| 0 <= j < 4 && 0 <= Neighbours(p)[j] < |vs| && vs[Neighbours(p)[j]].color == Opponent(c) &&
               LastLiberty(vs, Neighbours(p)[j], p) && InChain(vs, Neighbours(p)[j], y);
      assert !TwoLiberties(vs, Neighbours(p)[j]);
    } else if m == p {
      NeighbourIndex(p, y);
      var j :| 0 <= j < 4 && Neighbours(p)[j] == y;
      assert vs[Neighbours(p)[j]].color == Empty;
    } else {
      var h := vs[m].chainHead;
      NbrHeadsMembers(vs, p, c, 4, h);
      var j :| 0 <= j < 4 && At(vs, Neighbours(p)[j]).color == c && At(vs, Neighbours(p)[j]).chainHead == h;
      var n := Neighbours(p)[j];
      assert InChain(vs, n, m) && IsLiberty(vs, n, y);
      NeighboursSymmetric(p, n);
      NextToStone(vs, n, p);
      assert TwoLiberties(vs, n);
    }
  }

  /** Each of the three ways of breathing gives the new chain a liberty. */
  lemma LibertyIfBreathes(vs: seq<Vertex>, ss: seq<Vertex>, p: int, c: Color)
    requires MoveOutline(vs, ss, p, c) && Breathes(vs, p, c)
    ensures !NoLiberty(ss, p)
  {
    var j :| 0 <= j < 4 && 0 <= Neighbours(p)[j] < |vs| &&
      (vs[Neighbours(p)[j]].color == Empty ||
       (vs[Neighbours(p)[j]].color == c && TwoLiberties(vs, Neighbours(p)[j])) ||
       (vs[Neighbours(p)[j]].color == Opponent(c) && !TwoLiberties(vs, Neighbours(p)[j])));
    var n := Neighbours(p)[j];
    assert InChain(ss, p, p);
    if vs[n].color == Empty {
      assert IsLiberty(ss, p, n);
    } else if vs[n].color == c && TwoLiberties(vs, n) {
      var y1, y2 :| y1 != y2 && IsLiberty(vs, n, y1) && IsLiberty(vs, n, y2);
      var y := if y1 != p then y1 else y2;
      var m :| InChain(vs, n, m) && y in Neighbours(m);
      NbrHeadsMembers(vs, p, c, 4, vs[n].chainHead);
      assert InChains(vs, NbrHeads(vs, p, c, 4), m);
      assert IsLiberty(ss, p, y);
    } else {
      NeighboursSymmetric(p, n);
      NextToStone(vs, n, p);
      LastLibertyShape(vs, n, p);
      assert InChain(vs, n, n);
      assert Captured(vs, p, c, n);
      assert IsLiberty(ss, p, n);
    }
  }

  /**
   * After placing and capturing, the record of `p`'s chain has a
   * pseudo-liberty exactly when the move breathes.
   */
  lemma SurvivalMeaning(b: Board, placed: Board, swept: Board, p: int, c: Color, g: int, dead: seq<int>)
    requires AfterPlacing(b, placed, p, c, g) && AfterCapture(placed, swept, p, c, dead)
    ensures 0 <= swept.vertices[p].chainHead < VirtualBoardPoints
    ensures swept.chains[swept.vertices[p].chainHead].numPseudoLiberties > 0 <==> Breathes(b.vertices, p, c)
  {
    PlacedInterior(b, p);
    SweptEmpty(b, placed, swept, p, c, g, dead);
    SweptChainOfP(b, placed, swept, p, c, g, dead);
    assert MoveOutline(b.vertices, swept.vertices, p, c);
    LibertyCount(swept, p);
    if !NoLiberty(swept.vertices, p) {
      var y :| IsLiberty(swept.vertices, p, y);
      BreathesIfLiberty(b.vertices, swept.vertices, p, c, y);
    }
    if Breathes(b.vertices, p, c) {
      LibertyIfBreathes(b.vertices, swept.vertices, p, c);
    }
  }

  // ---------------------------------------------------------------------
  // Counting the captured stones
  // ---------------------------------------------------------------------

  /** Chains of at least one stone each hold together at least as many stones as there are chains. */
  lemma {:induction false} StonesOfAtLeast(cs: seq<Chain>, hs: seq<int>)
    requires forall j :: 0 <= j < |hs| ==> 0 <= hs[j] < |cs| && cs[hs[j]].numStones >= 1
    ensures StonesOf(cs, hs) >= |hs|
  {
    if |hs| > 0 {
      StonesOfAtLeast(cs, hs[..|hs| - 1]);
    }
  }

  /** A removed chain's head is a stone of `placed` heading a cycle of `num_stones` members. */
  lemma DeadCycle(placed: Board, swept: Board, p: int, c: Color, dead: seq<int>, i: int)
    requires AfterCapture(placed, swept, p, c, dead) && 0 <= i < |dead|
    ensures var d, vs := dead[i], placed.vertices;
            var k := placed.chains[d].numStones;
            Member(vs, d, d) && k >= 1 && Cycle(vs, d, k) && (forall x :: Member(vs, d, x) <==> x in Walk(vs, d, k))
  {
    var _ := DeadHead(placed, swept, p, c, dead, i);
    assert HeadOk(placed.vertices, placed.chains, dead[i]);
  }

  /** One stone removed in all means one chain of one stone is removed. */
  lemma OneStoneRemoved(placed: Board, swept: Board, p: int, c: Color, dead: seq<int>)
    requires AfterCapture(placed, swept, p, c, dead) && StonesOf(placed.chains, dead) == 1
    ensures |dead| == 1 && placed.chains[dead[0]].numStones == 1
  {
    forall j | 0 <= j < |dead| ensures placed.chains[dead[j]].numStones >= 1 {
      DeadCycle(placed, swept, p, c, dead, j);
    }
    StonesOfAtLeast(placed.chains, dead);
    assert |dead| == 1;
    assert dead[..0] == [];
  }

  /** A removed chain of one stone is that stone, next to `p`. */
  lemma SingleStoneChain(placed: Board, swept: Board, p: int, c: Color, dead: seq<int>)
    requires AfterCapture(placed, swept, p, c, dead) && |dead| == 1 && placed.chains[dead[0]].numStones == 1
    ensures dead[0] in Neighbours(p)
    ensures forall x :: InDead(placed.vertices, dead, x) <==> x == dead[0]
  {
    var d, vs := dead[0], placed.vertices;
    DeadCycle(placed, swept, p, c, dead, 0);
    assert Walk(vs, d, 1) == [d];
    assert forall x :: InDead(vs, dead, x) <==> Member(vs, d, x);
    var j := DeadHead(placed, swept, p, c, dead, 0);
    assert Member(vs, d, Neighbours(p)[j]);
  }

  /** When the move captures exactly the stone `k`, the removed chains are the chain `[k]`. */
  lemma SoleCaptureRemoved(b: Board, placed: Board, swept: Board, p: int, c: Color, g: int, dead: seq<int>, k: int)
    requires AfterPlacing(b, placed, p, c, g) && AfterCapture(placed, swept, p, c, dead)
    requires SoleCapture(b.vertices, p, c, k)
    ensures dead == [k]
  {
    var vs := placed.vertices;
    CapturedIsDead(b, placed, swept, p, c, g, dead, k);
    forall i | 0 <= i < |dead| ensures dead[i] == k {
      DeadCycle(placed, swept, p, c, dead, i);
      DeadIsCaptured(b, placed, swept, p, c, g, dead, dead[i]);
    }
    assert vs[k].chainHead in dead;
    assert (set x | x in dead) == {k};
    DistinctCard(dead);
  }

  /** When the move captures exactly one stone, one stone is counted. */
  lemma SoleCaptureCounted(b: Board, placed: Board, swept: Board, p: int, c: Color, g: int, dead: seq<int>, k: int)
    requires AfterPlacing(b, placed, p, c, g) && AfterCapture(placed, swept, p, c, dead)
    requires SoleCapture(b.vertices, p, c, k)
    ensures StonesOf(placed.chains, dead) == 1
  {
    var vs := placed.vertices;
    SoleCaptureRemoved(b, placed, swept, p, c, g, dead, k);
    DeadCycle(placed, swept, p, c, dead, 0);
    var n := placed.chains[k].numStones;
    StonesOfCycle(vs, k, n);
    forall x | Member(vs, k, x) ensures x == k {
      DeadIsCaptured(b, placed, swept, p, c, g, dead, x);
    }
    assert Stones(vs, k) == {k};
    assert dead[..0] == [];
  }

  /** One stone is counted exactly when the move captures exactly one stone, and then it is the recorded head. */
  lemma KoMeaning(b: Board, placed: Board, swept: Board, p: int, c: Color, g: int, dead: seq<int>)
    requires AfterPlacing(b, placed, p, c, g) && AfterCapture(placed, swept, p, c, dead)
    ensures StonesOf(placed.chains, dead) == 1 <==> exists k :: SoleCapture(b.vertices, p, c, k)
    ensures StonesOf(placed.chains, dead) == 1 ==>
              |dead| == 1 && SoleCapture(b.vertices, p, c, dead[0]) && dead[0] in Neighbours(p)
  {
    if StonesOf(placed.chains, dead) == 1 {
      OneStoneRemoved(placed, swept, p, c, dead);
      SingleStoneChain(placed, swept, p, c, dead);
      DeadIffCaptured(b, placed, swept, p, c, g, dead);
      assert SoleCapture(b.vertices, p, c, dead[0]);
    }
    if exists k :: SoleCapture(b.vertices, p, c, k) {
      var k :| SoleCapture(b.vertices, p, c, k);
      SoleCaptureCounted(b, placed, swept, p, c, g, dead, k);
    }
  }

  /** The recorded heads are captured stones, and every captured stone's chain is recorded by its head. */
  lemma CapturesRecorded(b: Board, placed: Board, swept: Board, p: int, c: Color, g: int, dead: seq<int>)
    requires AfterPlacing(b, placed, p, c, g) && AfterCapture(placed, swept, p, c, dead)
    ensures forall i :: 0 <= i < |dead| ==> Captured(b.vertices, p, c, dead[i])
    ensures forall x :: Captured(b.vertices, p, c, x) ==> b.vertices[x].chainHead in dead
  {
    forall i | 0 <= i < |dead| ensures Captured(b.vertices, p, c, dead[i]) {
      DeadCycle(placed, swept, p, c, dead, i);
      DeadIsCaptured(b, placed, swept, p, c, g, dead, dead[i]);
    }
    forall x | Captured(b.vertices, p, c, x) ensures b.vertices[x].chainHead in dead {
      CapturedIsDead(b, placed, swept, p, c, g, dead, x);
      DeadIsCaptured(b, placed, swept, p, c, g, dead, x);
    }
  }

  /**
   * `last_captures` after a move at `p`: the heads of the captured chains,
   * each once, followed by `INVALID_POINT` padding, and every captured
   * stone's chain among them.
   */
  ghost predicate CaptureList(vs: seq<Vertex>, p: int, c: Color, caps: seq<int>) {
    |caps| == 4 &&
    (forall i :: 0 <= i < 4 ==>
       caps[i] == InvalidPoint || (Captured(vs, p, c, caps[i]) && vs[caps[i]].chainHead == caps[i])) &&
    (forall i, j :: 0 <= i < j < 4 && caps[i] == InvalidPoint ==> caps[j] == InvalidPoint) &&
    (forall i, j :: 0 <= i < j < 4 && caps[i] != InvalidPoint ==> caps[i] != caps[j]) &&
    (forall x :: Captured(vs, p, c, x) ==> vs[x].chainHead in caps)
  }

  /** The padded list of removed heads is the capture list of the move. */
  lemma CaptureListOf(b: Board, placed: Board, swept: Board, p: int, c: Color, g: int, dead: seq<int>)
    requires AfterPlacing(b, placed, p, c, g) && AfterCapture(placed, swept, p, c, dead)
    ensures CaptureList(b.vertices, p, c, dead + Padding(4 - |dead|))
  {
    CapturesRecorded(b, placed, swept, p, c, g, dead);
    forall i | 0 <= i < |dead| ensures b.vertices[dead[i]].chainHead == dead[i] {
      var _ := DeadHead(placed, swept, p, c, dead, i);
      DeadCycle(placed, swept, p, c, dead, i);
      DeadIsCaptured(b, placed, swept, p, c, g, dead, dead[i]);
    }
  }

  /** After the move, `p` has colour `c`, the captured stones are gone, and every other point is as before. */
  lemma ColoursAfterMove(b: Board, placed: Board, swept: Board, p: int, c: Color, g: int, dead: seq<int>)
    requires AfterPlacing(b, placed, p, c, g) && AfterCapture(placed, swept, p, c, dead)
    ensures forall x :: 0 <= x < VirtualBoardPoints ==>
              swept.vertices[x].color ==
                if x == p then c else if Captured(b.vertices, p, c, x) then Empty else b.vertices[x].color
  {
    DeadIffCaptured(b, placed, swept, p, c, g, dead);
  }
}

=== FILE: sums.dfy ===
/**
 * Sums of chain records over a range of points. The liberty record a chain
 * head should carry is the sum, over all points of the array, of what each
 * point contributes; these lemmas say how such a sum changes when the
 * contributions change at a few points.
 */
module Sums {
  import opened Chains

  /** The merge of `f(lo)`, ..., `f(hi - 1)`. */
  ghost function SumOf(f: int -> Chain, lo: int, hi: int): Chain
    decreases hi - lo
  {
    if lo >= hi then Zero else f(lo).Merge(SumOf(f, lo + 1, hi))
  }

  /** Summing pointwise merges is merging the sums. */
  lemma {:induction false} SumOfMerge(f: int -> Chain, g: int -> Chain, h: int -> Chain, lo: int, hi: int)
    requires forall q :: lo <= q < hi ==> h(q) == f(q).Merge(g(q))
    ensures SumOf(h, lo, hi) == SumOf(f, lo, hi).Merge(SumOf(g, lo, hi))
    decreases hi - lo
  {
    if lo < hi {
      SumOfMerge(f, g, h, lo + 1, hi);
      MergeShuffle(f(lo), g(lo), SumOf(f, lo + 1, hi), SumOf(g, lo + 1, hi));
    }
  }

  lemma MergeShuffle(a: Chain, b: Chain, c: Chain, d: Chain)
    ensures a.Merge(b).Merge(c.Merge(d)) == a.Merge(c).Merge(b.Merge(d))
  {
  }

  /** Sums of functions that agree on the range agree. */
  lemma {:induction false} SumOfSame(f: int -> Chain, g: int -> Chain, lo: int, hi: int)
    requires forall q :: lo <= q < hi ==> f(q) == g(q)
    ensures SumOf(f, lo, hi) == SumOf(g, lo, hi)
    decreases hi - lo
  {
    if lo < hi {
      SumOfSame(f, g, lo + 1, hi);
    }
  }

  /** A function that is `Zero` everywhere on the range sums to `Zero`. */
  lemma {:induction false} SumOfZero(f: int -> Chain, lo: int, hi: int)
    requires forall q :: lo <= q < hi ==> f(q) == Zero
    ensures SumOf(f, lo, hi) == Zero
    decreases hi - lo
  {
    if lo < hi {
      SumOfZero(f, lo + 1, hi);
    }
  }

  /** A function that is `Zero` except at one point `x` of the range sums to its value there. */
  lemma {:induction false} SumOfSpike(f: int -> Chain, x: int, lo: int, hi: int)
    requires lo <= x < hi
    requires forall q :: lo <= q < hi && q != x ==> f(q) == Zero
    ensures SumOf(f, lo, hi) == f(x)
    decreases hi - lo
  {
    if lo < x {
      SumOfSpike(f, x, lo + 1, hi);
    } else {
      SumOfZero(f, lo + 1, hi);
    }
  }
}

=== FILE: tallies.dfy ===
/**
 * How the liberty records a valid board should carry change when one point
 * changes colour. When `x` goes from empty to a stone, every empty
 * neighbour of `x` loses the instance `x` from its own record and every
 * chain loses one instance of `x` per member next to it; emptying a stone
 * does the reverse. The engine applies exactly these corrections, one
 * neighbour at a time.
 */
module Tallies {
  import opened Colors
  import opened Coords
  import opened Chains
  import opened Vertices
  import opened Sums
  import opened Boards

  /** The two arrays give every point but `x` the same colour. */
  ghost predicate SameColorsExcept(vs: seq<Vertex>, vs': seq<Vertex>, x: int) {
    |vs| == |vs'| && forall q :: 0 <= q < |vs| && q != x ==> vs'[q].color == vs[q].color
  }

  /** `x` is a point whose four neighbours are inside the virtual grid. */
  predicate Interior(x: int) {
    VirtualBoardSize <= x < VirtualBoardPoints - VirtualBoardSize
  }

  lemma InteriorOfBoard(size: int, x: int)
    requires size <= MaxBoardSize && InBoardArea(size, x)
    ensures Interior(x)
  {
    InBoardAreaBounds(size, x);
  }

  // ---------------------------------------------------------------------
  // Spikes at the four neighbours of a point
  // ---------------------------------------------------------------------

  /** `c` at `x`, nothing elsewhere. */
  function Spike(x: int, c: Chain, q: int): Chain {
    if q == x then c else Zero
  }

  /** The contributions `c0`..`c3` attached to the four neighbours of `x`, read at `q`. */
  function NbrSpikes(x: int, c0: Chain, c1: Chain, c2: Chain, c3: Chain, q: int): Chain {
    var ns := Neighbours(x);
    Spike(ns[0], c0, q).Merge(Spike(ns[1], c1, q)).Merge(Spike(ns[2], c2, q)).Merge(Spike(ns[3], c3, q))
  }

  function NbrSpikesFn(x: int, c0: Chain, c1: Chain, c2: Chain, c3: Chain): int -> Chain {
    q => NbrSpikes(x, c0, c1, c2, c3, q)
  }

  /** Contributions attached to the four neighbours sum, over the grid, to their merge. */
  lemma SumOfNbrSpikes(x: int, c0: Chain, c1: Chain, c2: Chain, c3: Chain)
    requires Interior(x)
    ensures SumOf(NbrSpikesFn(x, c0, c1, c2, c3), 0, VirtualBoardPoints) == c0.Merge(c1).Merge(c2).Merge(c3)
  {
    var ns := Neighbours(x);
    var f0 := q => Spike(ns[0], c0, q);
    var f1 := q => Spike(ns[1], c1, q);
    var f2 := q => Spike(ns[2], c2, q);
    var f3 := q => Spike(ns[3], c3, q);
    SumOfSpike(f0, ns[0], 0, VirtualBoardPoints);
    SumOfSpike(f1, ns[1], 0, VirtualBoardPoints);
    SumOfSpike(f2, ns[2], 0, VirtualBoardPoints);
    SumOfSpike(f3, ns[3], 0, VirtualBoardPoints);
    var g1 := q => f0(q).Merge(f1(q));
    var g2 := q => g1(q).Merge(f2(q));
    var g3 := q => g2(q).Merge(f3(q));
    SumOfMerge(f0, f1, g1, 0, VirtualBoardPoints);
    SumOfMerge(g1, f2, g2, 0, VirtualBoardPoints);
    SumOfMerge(g2, f3, g3, 0, VirtualBoardPoints);
    SumOfSame(NbrSpikesFn(x, c0, c1, c2, c3), g3, 0, VirtualBoardPoints);
  }

  /** At a neighbour of `x` the spikes read its own contribution; elsewhere nothing. */
  lemma NbrSpikesAt(x: int, c0: Chain, c1: Chain, c2: Chain, c3: Chain, q: int)
    ensures NbrSpikes(x, c0, c1, c2, c3, q) ==
              if q == Neighbours(x)[0] then c0 else if q == Neighbours(x)[1] then c1
              else if q == Neighbours(x)[2] then c2 else if q == Neighbours(x)[3] then c3 else Zero
  {
  }

  // ---------------------------------------------------------------------
  // The record of an empty point
  // ---------------------------------------------------------------------

  /** The record of an empty point only depends on the colours of its neighbours. */
  lemma EmptyTallyFrame(vs: seq<Vertex>, vs': seq<Vertex>, q: int)
    requires forall i :: 0 <= i < 4 ==> At(vs', Neighbours(q)[i]).color == At(vs, Neighbours(q)[i]).color
    ensures EmptyTally(vs', q) == EmptyTally(vs, q)
  {
    var ns := Neighbours(q);
    assert NbrTerm(vs', ns[0]) == NbrTerm(vs, ns[0]);
    assert NbrTerm(vs', ns[1]) == NbrTerm(vs, ns[1]);
    assert NbrTerm(vs', ns[2]) == NbrTerm(vs, ns[2]);
    assert NbrTerm(vs', ns[3]) == NbrTerm(vs, ns[3]);
    EmptyTallyUnfold(vs, q);
    EmptyTallyUnfold(vs', q);
  }

  lemma SameColorsFrame(vs: seq<Vertex>, vs': seq<Vertex>, x: int, q: int)
    requires SameColorsExcept(vs, vs', x) && x !in Neighbours(q)
    ensures EmptyTally(vs', q) == EmptyTally(vs, q)
  {
    forall i | 0 <= i < 4 ensures At(vs', Neighbours(q)[i]).color == At(vs, Neighbours(q)[i]).color {
      assert Neighbours(q)[i] in Neighbours(q);
    }
    EmptyTallyFrame(vs, vs', q);
  }

  /**
   * Filling the empty point `x` (`vs` before, `vs'` after) takes the
   * instance `x` out of the record of every neighbour of `x`.
   */
  lemma EmptyTallyFill(vs: seq<Vertex>, vs': seq<Vertex>, x: int, q: int)
    requires SameColorsExcept(vs, vs', x) && 0 <= x < |vs|
    requires vs[x].color == Empty && vs'[x].color != Empty
    ensures EmptyTally(vs, q) == EmptyTally(vs', q).Merge(if x in Neighbours(q) then Unit(x) else Zero)
  {
    var ns := Neighbours(q);
    if x in ns {
      var i :| 0 <= i < 4 && ns[i] == x;
      NbrTermFill(vs, vs', x, ns[0]);
      NbrTermFill(vs, vs', x, ns[1]);
      NbrTermFill(vs, vs', x, ns[2]);
      NbrTermFill(vs, vs', x, ns[3]);
      ShiftOne(NbrTerm(vs, ns[0]), NbrTerm(vs, ns[1]), NbrTerm(vs, ns[2]), NbrTerm(vs, ns[3]),
               NbrTerm(vs', ns[0]), NbrTerm(vs', ns[1]), NbrTerm(vs', ns[2]), NbrTerm(vs', ns[3]), Unit(x), i);
      EmptyTallyUnfold(vs, q);
      EmptyTallyUnfold(vs', q);
    } else {
      SameColorsFrame(vs, vs', x, q);
      MergeZero(EmptyTally(vs', q));
    }
  }

  /** Filling `x` changes what `n` contributes to a neighbour exactly when `n` is `x`. */
  lemma NbrTermFill(vs: seq<Vertex>, vs': seq<Vertex>, x: int, n: int)
    requires SameColorsExcept(vs, vs', x) && 0 <= x < |vs|
    requires vs[x].color == Empty && vs'[x].color != Empty
    ensures n == x ==> NbrTerm(vs, n) == NbrTerm(vs', n).Merge(Unit(x))
    ensures n != x ==> NbrTerm(vs, n) == NbrTerm(vs', n)
  {
    if n == x {
      assert NbrTerm(vs, n) == Unit(x) && NbrTerm(vs', n) == Zero;
      MergeZero(Unit(x));
    }
  }

  /** Four records of which the `i`-th grew by `u`: their merge grew by `u`. */
  lemma ShiftOne(a0: Chain, a1: Chain, a2: Chain, a3: Chain, b0: Chain, b1: Chain, b2: Chain, b3: Chain, u: Chain, i: int)
    requires 0 <= i < 4
    requires a0 == (if i == 0 then b0.Merge(u) else b0)
    requires a1 == (if i == 1 then b1.Merge(u) else b1)
    requires a2 == (if i == 2 then b2.Merge(u) else b2)
    requires a3 == (if i == 3 then b3.Merge(u) else b3)
    ensures a0.Merge(a1).Merge(a2).Merge(a3) == b0.Merge(b1).Merge(b2).Merge(b3).Merge(u)
  {
  }

  // ---------------------------------------------------------------------
  // The record of a chain
  // ---------------------------------------------------------------------

  /** `Unit(x)` for a neighbour `n` of `x` in the chain headed by `g`. */
  ghost function AdjTerm(vs: seq<Vertex>, g: int, n: int, x: int): Chain {
    if Member(vs, g, n) then Unit(x) else Zero
  }

  /** One instance of `x` at each neighbour of `x` in the chain headed by `g`; nothing elsewhere. */
  ghost function AdjSpike(vs: seq<Vertex>, g: int, x: int, q: int): Chain {
    if q in Neighbours(x) && Member(vs, g, q) then Unit(x) else Zero
  }

  ghost function AdjSpikeFn(vs: seq<Vertex>, g: int, x: int): int -> Chain {
    q => AdjSpike(vs, g, x, q)
  }

  /** The instances of `x` owed by the members of `g` next to `x`, in `neighbours` order. */
  ghost function MemberAdj(vs: seq<Vertex>, g: int, x: int): Chain {
    var ns := Neighbours(x);
    AdjTerm(vs, g, ns[0], x).Merge(AdjTerm(vs, g, ns[1], x)).Merge(AdjTerm(vs, g, ns[2], x)).Merge(AdjTerm(vs, g, ns[3], x))
  }

  lemma SumOfAdjSpike(vs: seq<Vertex>, g: int, x: int)
    requires Interior(x)
    ensures SumOf(AdjSpikeFn(vs, g, x), 0, VirtualBoardPoints) == MemberAdj(vs, g, x)
  {
    var ns := Neighbours(x);
    var a0, a1, a2, a3 := AdjTerm(vs, g, ns[0], x), AdjTerm(vs, g, ns[1], x), AdjTerm(vs, g, ns[2], x), AdjTerm(vs, g, ns[3], x);
    AdjSpikesAsNbrSpikes(vs, g, x);
    SumOfSame(AdjSpikeFn(vs, g, x), NbrSpikesFn(x, a0, a1, a2, a3), 0, VirtualBoardPoints);
    SumOfNbrSpikes(x, a0, a1, a2, a3);
  }

  /** Pointwise, the spikes of the members next to `x` are the four neighbour spikes. */
  lemma AdjSpikesAsNbrSpikes(vs: seq<Vertex>, g: int, x: int)
    ensures var ns := Neighbours(x);
            forall q :: 0 <= q < VirtualBoardPoints ==>
              AdjSpikeFn(vs, g, x)(q) ==
              NbrSpikesFn(x, AdjTerm(vs, g, ns[0], x), AdjTerm(vs, g, ns[1], x), AdjTerm(vs, g, ns[2], x), AdjTerm(vs, g, ns[3], x))(q)
  {
    forall q | 0 <= q < VirtualBoardPoints
      ensures var ns := Neighbours(x);
              AdjSpikeFn(vs, g, x)(q) ==
              NbrSpikesFn(x, AdjTerm(vs, g, ns[0], x), AdjTerm(vs, g, ns[1], x), AdjTerm(vs, g, ns[2], x), AdjTerm(vs, g, ns[3], x))(q)
    {
      AdjSpikeAt(vs, g, x, q);
    }
  }

  lemma AdjSpikeAt(vs: seq<Vertex>, g: int, x: int, q: int)
    ensures var ns := Neighbours(x);
            AdjSpike(vs, g, x, q) ==
            NbrSpikes(x, AdjTerm(vs, g, ns[0], x), AdjTerm(vs, g, ns[1], x), AdjTerm(vs, g, ns[2], x), AdjTerm(vs, g, ns[3], x), q)
  {
    var ns := Neighbours(x);
    var a0, a1, a2, a3 := AdjTerm(vs, g, ns[0], x), AdjTerm(vs, g, ns[1], x), AdjTerm(vs, g, ns[2], x), AdjTerm(vs, g, ns[3], x);
    NbrSpikesAt(x, a0, a1, a2, a3, q);
    NeighbourIndex(x, q);
    if q == ns[0] {
      assert AdjSpike(vs, g, x, q) == a0;
    } else if q == ns[1] {
      assert AdjSpike(vs, g, x, q) == a1;
    } else if q == ns[2] {
      assert AdjSpike(vs, g, x, q) == a2;
    } else if q == ns[3] {
      assert AdjSpike(vs, g, x, q) == a3;
    } else {
      assert AdjSpike(vs, g, x, q) == Zero;
    }
  }

  /** Pointwise form of `LibTallyFill`. */
  lemma TermFillAt(vs: seq<Vertex>, vs': seq<Vertex>, x: int, g: int, q: int)
    requires |vs| == |vs'| && 0 <= x < |vs| && 0 <= q < |vs|
    requires vs[x].color == Empty && vs'[x].color != Empty
    requires SameColorsExcept(vs, vs', x)
    requires q != x ==> (Member(vs', g, q) <==> Member(vs, g, q))
    ensures Term(vs, g, q).Merge(if q == x then Term(vs', g, x) else Zero) ==
            Term(vs', g, q).Merge(AdjSpike(vs', g, x, q))
  {
    if q == x {
      assert Term(vs, g, x) == Zero;
      assert AdjSpike(vs', g, x, x) == Zero;
      MergeZero(Term(vs', g, x));
    } else if Member(vs, g, q) {
      var u := if x in Neighbours(q) then Unit(x) else Zero;
      EmptyTallyFill(vs, vs', x, q);
      NeighboursSymmetric(x, q);
      assert AdjSpike(vs', g, x, q) == u;
      assert Term(vs, g, q) == EmptyTally(vs', q).Merge(u);
      assert Term(vs', g, q) == EmptyTally(vs', q);
      MergeZero(Term(vs, g, q));
    } else {
      assert Term(vs, g, q) == Zero && Term(vs', g, q) == Zero;
      assert AdjSpike(vs', g, x, q) == Zero;
    }
  }

  /**
   * Filling the empty point `x` takes from the chain headed by `g` one
   * instance of `x` per member next to `x`, and adds what `x` itself now
   * contributes.
   */
  lemma LibTallyFill(vs: seq<Vertex>, vs': seq<Vertex>, x: int, g: int)
    requires |vs| == VirtualBoardPoints && Interior(x)
    requires SameColorsExcept(vs, vs', x)
    requires vs[x].color == Empty && vs'[x].color != Empty
    requires forall q :: 0 <= q < |vs| && q != x ==> (Member(vs', g, q) <==> Member(vs, g, q))
    ensures LibTally(vs, g).Merge(Term(vs', g, x)) == LibTally(vs', g).Merge(MemberAdj(vs', g, x))
  {
    var f, f' := TermFn(vs, g), TermFn(vs', g);
    var single := q => if q == x then Term(vs', g, x) else Zero;
    var spikes := AdjSpikeFn(vs', g, x);
    var lhs := q => f(q).Merge(single(q));
    var rhs := q => f'(q).Merge(spikes(q));
    forall q | 0 <= q < VirtualBoardPoints ensures lhs(q) == rhs(q) {
      TermFillAt(vs, vs', x, g, q);
    }
    SumOfMerge(f, single, lhs, 0, VirtualBoardPoints);
    SumOfMerge(f', spikes, rhs, 0, VirtualBoardPoints);
    SumOfSame(lhs, rhs, 0, VirtualBoardPoints);
    SumOfSpike(single, x, 0, VirtualBoardPoints);
    SumOfAdjSpike(vs', g, x);
  }

  /** A chain whose members and their neighbours' colours are unchanged keeps its record. */
  lemma LibTallyFrame(vs: seq<Vertex>, vs': seq<Vertex>, g: int)
    requires |vs| == |vs'| == VirtualBoardPoints
    requires forall q :: 0 <= q < |vs| ==> vs'[q].color == vs[q].color
    requires forall q :: 0 <= q < |vs| ==> (Member(vs', g, q) <==> Member(vs, g, q))
    ensures LibTally(vs', g) == LibTally(vs, g)
  {
    forall q | 0 <= q < VirtualBoardPoints ensures TermFn(vs', g)(q) == TermFn(vs, g)(q) {
      if Member(vs, g, q) {
        EmptyTallyFrame(vs, vs', q);
      }
    }
    SumOfSame(TermFn(vs', g), TermFn(vs, g), 0, VirtualBoardPoints);
  }

  /** A head with no members has an empty liberty tally. */
  lemma LibTallyNone(vs: seq<Vertex>, g: int)
    requires forall q :: 0 <= q < |vs| ==> !Member(vs, g, q)
    ensures LibTally(vs, g) == Zero
  {
    forall q | 0 <= q < VirtualBoardPoints ensures TermFn(vs, g)(q) == Zero {
      assert !Member(vs, g, q);
    }
    SumOfZero(TermFn(vs, g), 0, VirtualBoardPoints);
  }
}

=== FILE: updates.dfy ===
/**
 * The primitive updates the engine composes: `_set_stone`, the record a
 * fresh chain starts with, and the loops that hand one liberty instance of
 * a point to, or take it from, the chain of each of its neighbours.
 */
module Updates {
  import opened Colors
  import opened Coords
  import opened Chains
  import opened Vertices
  import opened Xors
  import opened Zobrist
  import opened Boards
  import opened Tallies

  // ---------------------------------------------------------------------
  // _set_stone
  // ---------------------------------------------------------------------

  /**
   * `_set_stone`: recolour `p`, xor-ing into the hash the table value of
   * the stone placed, or of the stone taken off when the new colour is empty.
   */
  function SetStone(z: Table, b: Board, p: int, c: Color): (r: Board)
    requires 0 <= p < |b.vertices|
    ensures |r.vertices| == |b.vertices| && r.vertices[p].color == c
    ensures r.vertices[p].chainHead == b.vertices[p].chainHead && r.vertices[p].chainNext == b.vertices[p].chainNext
    ensures forall q :: 0 <= q < |b.vertices| && q != p ==> r.vertices[q] == b.vertices[q]
    ensures r.chains == b.chains && r.size == b.size && r.lastKoPoint == b.lastKoPoint && r.lastCaptures == b.lastCaptures
  {
    var key := if c == Empty then z(p, b.vertices[p].color) else z(p, c);
    b.(vertices := b.vertices[p := b.vertices[p].(color := c)], zobristHash := Xor(b.zobristHash, key))
  }

  /**
   * Putting a stone on an empty point, or emptying a stone, keeps the hash
   * equal to the xor of the table values of the stones on the board.
   */
  lemma SetStoneHash(z: Table, b: Board, p: int, c: Color)
    requires 0 <= p < |b.vertices| && HashOk(z, b)
    requires (IsStone(c) && b.vertices[p].color == Empty) || (c == Empty && IsStone(b.vertices[p].color))
    ensures HashOk(z, SetStone(z, b, p, c))
  {
    var vs := b.vertices;
    var v := vs[p].(color := c);
    HashUpdate(z, vs, p, v, 0);
    if c == Empty {
      XorZero(Xor(b.zobristHash, z(p, vs[p].color)));
    } else {
      XorZero(b.zobristHash);
    }
    assert vs[p := v] == SetStone(z, b, p, c).vertices;
  }

  // ---------------------------------------------------------------------
  // Counting the empty neighbours
  // ---------------------------------------------------------------------

  /** One step of the loop `if is_empty(n): c.add_liberty(n)`. */
  function AddIfEmpty(vs: seq<Vertex>, c: Chain, n: int): Chain {
    if At(vs, n).color == Empty then c.AddLiberty(n) else c
  }

  /** The loop over the neighbours of `p` adding each empty one as a liberty instance of `c`. */
  function AddEmptyNeighbours(vs: seq<Vertex>, c: Chain, p: int): Chain {
    var ns := Neighbours(p);
    AddIfEmpty(vs, AddIfEmpty(vs, AddIfEmpty(vs, AddIfEmpty(vs, c, ns[0]), ns[1]), ns[2]), ns[3])
  }

  lemma AddIfEmptyMerge(vs: seq<Vertex>, c: Chain, n: int)
    ensures AddIfEmpty(vs, c, n) == c.Merge(NbrTerm(vs, n))
  {
    AddLibertyMerge(c, n);
    if At(vs, n).color != Empty {
      MergeZero(c);
    }
  }

  /** The loop adds exactly the record of the empty neighbours. */
  lemma AddEmptyNeighboursTally(vs: seq<Vertex>, c: Chain, p: int)
    ensures AddEmptyNeighbours(vs, c, p) == c.Merge(EmptyTally(vs, p))
  {
    var ns := Neighbours(p);
    var c1 := AddIfEmpty(vs, c, ns[0]);
    var c2 := AddIfEmpty(vs, c1, ns[1]);
    var c3 := AddIfEmpty(vs, c2, ns[2]);
    AddIfEmptyMerge(vs, c, ns[0]);
    AddIfEmptyMerge(vs, c1, ns[1]);
    AddIfEmptyMerge(vs, c2, ns[2]);
    AddIfEmptyMerge(vs, c3, ns[3]);
    FourMerges(c, NbrTerm(vs, ns[0]), NbrTerm(vs, ns[1]), NbrTerm(vs, ns[2]), NbrTerm(vs, ns[3]));
    EmptyTallyUnfold(vs, p);
  }

  lemma FourMerges(c: Chain, t0: Chain, t1: Chain, t2: Chain, t3: Chain)
    ensures c.Merge(t0).Merge(t1).Merge(t2).Merge(t3) == c.Merge(t0.Merge(t1).Merge(t2).Merge(t3))
  {
  }

  // ---------------------------------------------------------------------
  // _init_new_chain
  // ---------------------------------------------------------------------

  /** The record `_init_new_chain` builds for `p`: one stone and the empty neighbours. */
  function NewChainRecord(vs: seq<Vertex>, p: int): (r: Chain)
    ensures r.numStones == 1 && r.Liberties() == EmptyTally(vs, p)
  {
    AddEmptyNeighboursTally(vs, Chain(1, 0, 0, 0), p);
    AddEmptyNeighbours(vs, Chain(0, 0, 0, 0).Reset().(numStones := 1), p)
  }

  /**
   * `_init_new_chain`: `p` becomes its own one-point list and its record
   * counts one stone and its currently empty neighbours.
   */
  function InitNewChain(b: Board, p: int): (r: Board)
    requires Shaped(b) && 0 <= p < VirtualBoardPoints
    ensures Shaped(r) && r.size == b.size
    ensures r.vertices == b.vertices[p := Vertex(p, p, b.vertices[p].color)]
    ensures r.chains == b.chains[p := NewChainRecord(b.vertices, p)]
    ensures r.lastKoPoint == b.lastKoPoint && r.lastCaptures == b.lastCaptures && r.zobristHash == b.zobristHash
  {
    var vs := b.vertices[p := Vertex(p, p, b.vertices[p].color)];
    SameColorsFrame(b.vertices, vs, p, p);
    b.(vertices := vs, chains := b.chains[p := NewChainRecord(vs, p)])
  }

  // ---------------------------------------------------------------------
  // Handing liberty instances of one point to the neighbours' chains
  // ---------------------------------------------------------------------

  /** One instance of `p` if the neighbour's head `h` is `g`. */
  function OwnTerm(h: int, g: int, p: int): Chain {
    if h == g then Unit(p) else Zero
  }

  /** The instances of `p` that the record at index `g` loses: one per neighbour of `p` whose head is `g`. */
  function Owned(vs: seq<Vertex>, g: int, p: int): Chain {
    var ns := Neighbours(p);
    OwnTerm(At(vs, ns[0]).chainHead, g, p).Merge(OwnTerm(At(vs, ns[1]).chainHead, g, p))
      .Merge(OwnTerm(At(vs, ns[2]).chainHead, g, p)).Merge(OwnTerm(At(vs, ns[3]).chainHead, g, p))
  }

  /** `self._chain(n).remove_liberty(p)` for a neighbour whose head is `h`. */
  function Debit(cs: seq<Chain>, h: int, p: int): seq<Chain>
    requires 0 <= h < |cs|
  {
    cs[h := cs[h].RemoveLiberty(p)]
  }

  /** The heads of the four neighbours of `p` index the chain array. */
  predicate HeadsIndexable(vs: seq<Vertex>, cs: seq<Chain>, p: int) {
    forall i :: 0 <= i < 4 ==> 0 <= At(vs, Neighbours(p)[i]).chainHead < |cs|
  }

  /** `_remove_liberty_from_neighbouring_chains`: the records of the neighbours' chains. */
  function RemoveLibertyAround(vs: seq<Vertex>, cs: seq<Chain>, p: int): (r: seq<Chain>)
    requires HeadsIndexable(vs, cs, p)
    ensures |r| == |cs|
    ensures forall g :: 0 <= g < |cs| ==> r[g].Merge(Owned(vs, g, p)) == cs[g]
  {
    var ns := Neighbours(p);
    var h0, h1, h2, h3 := At(vs, ns[0]).chainHead, At(vs, ns[1]).chainHead, At(vs, ns[2]).chainHead, At(vs, ns[3]).chainHead;
    var r := Debit(Debit(Debit(Debit(cs, h0, p), h1, p), h2, p), h3, p);
    forall g | 0 <= g < |cs| ensures r[g].Merge(Owned(vs, g, p)) == cs[g] {
      DebitsEffect(cs, h0, h1, h2, h3, p, g);
    }
    r
  }

  lemma DebitsEffect(cs: seq<Chain>, h0: int, h1: int, h2: int, h3: int, p: int, g: int)
    requires 0 <= h0 < |cs| && 0 <= h1 < |cs| && 0 <= h2 < |cs| && 0 <= h3 < |cs| && 0 <= g < |cs|
    ensures Debit(Debit(Debit(Debit(cs, h0, p), h1, p), h2, p), h3, p)[g].Merge(
              OwnTerm(h0, g, p).Merge(OwnTerm(h1, g, p)).Merge(OwnTerm(h2, g, p)).Merge(OwnTerm(h3, g, p))) == cs[g]
  {
    var c1 := Debit(cs, h0, p);
    var c2 := Debit(c1, h1, p);
    var c3 := Debit(c2, h2, p);
    var c4 := Debit(c3, h3, p);
    DebitEffect(cs, h0, p, g);
    DebitEffect(c1, h1, p, g);
    DebitEffect(c2, h2, p, g);
    DebitEffect(c3, h3, p, g);
    Unwind(c4[g], c3[g], c2[g], c1[g], cs[g], OwnTerm(h0, g, p), OwnTerm(h1, g, p), OwnTerm(h2, g, p), OwnTerm(h3, g, p));
  }

  lemma DebitEffect(cs: seq<Chain>, h: int, p: int, g: int)
    requires 0 <= h < |cs| && 0 <= g < |cs|
    ensures Debit(cs, h, p)[g].Merge(OwnTerm(h, g, p)) == cs[g]
  {
    AddLibertyMerge(cs[h], p);
    if h != g {
      MergeZero(cs[g]);
    }
  }

  lemma Unwind(a4: Chain, a3: Chain, a2: Chain, a1: Chain, a0: Chain, t0: Chain, t1: Chain, t2: Chain, t3: Chain)
    requires a1.Merge(t0) == a0 && a2.Merge(t1) == a1 && a3.Merge(t2) == a2 && a4.Merge(t3) == a3
    ensures a4.Merge(t0.Merge(t1).Merge(t2).Merge(t3)) == a0
  {
  }

  /** `self._chain(n).add_liberty(p)` for a neighbour whose head is `h`, if `take` holds. */
  function Credit(cs: seq<Chain>, h: int, p: int, take: bool): seq<Chain>
    requires 0 <= h < |cs|
  {
    if take then cs[h := cs[h].AddLiberty(p)] else cs
  }

  /** `n` gets the liberty `p` back when `p`'s chain headed by `h` is removed: it is empty or outside that chain. */
  predicate Regains(vs: seq<Vertex>, h: int, n: int) {
    At(vs, n).chainHead != h || At(vs, n).color == Empty
  }

  function GainTerm(vs: seq<Vertex>, n: int, h: int, g: int, p: int): Chain {
    GainOf(At(vs, n).chainHead, Regains(vs, h, n), g, p)
  }

  /** The instances of `p` the record at index `g` regains when `p` leaves the chain headed by `h`. */
  function Gained(vs: seq<Vertex>, h: int, g: int, p: int): Chain {
    GainedFrom(vs, h, g, p, Neighbours(p))
  }

  /** What the points `ns` hand back to the record at `g`, taken in order. */
  function GainedFrom(vs: seq<Vertex>, h: int, g: int, p: int, ns: seq<int>): Chain {
    if |ns| == 0 then Zero else GainedFrom(vs, h, g, p, ns[..|ns| - 1]).Merge(GainTerm(vs, ns[|ns| - 1], h, g, p))
  }

  lemma GainedSnoc(vs: seq<Vertex>, h: int, g: int, p: int, ns: seq<int>, n: int)
    ensures GainedFrom(vs, h, g, p, ns + [n]) == GainedFrom(vs, h, g, p, ns).Merge(GainTerm(vs, n, h, g, p))
  {
    assert (ns + [n])[..|ns|] == ns;
  }

  /** `Gained` spelled out over the four neighbours. */
  lemma GainedUnfold(vs: seq<Vertex>, h: int, g: int, p: int)
    ensures var ns := Neighbours(p);
            Gained(vs, h, g, p) == GainTerm(vs, ns[0], h, g, p).Merge(GainTerm(vs, ns[1], h, g, p))
                                     .Merge(GainTerm(vs, ns[2], h, g, p)).Merge(GainTerm(vs, ns[3], h, g, p))
  {
    var ns := Neighbours(p);
    var s0: seq<int> := [];
    var s1, s2, s3 := s0 + [ns[0]], s0 + [ns[0]] + [ns[1]], s0 + [ns[0]] + [ns[1]] + [ns[2]];
    assert ns == s3 + [ns[3]];
    GainedSnoc(vs, h, g, p, s0, ns[0]);
    GainedSnoc(vs, h, g, p, s1, ns[1]);
    GainedSnoc(vs, h, g, p, s2, ns[2]);
    GainedSnoc(vs, h, g, p, s3, ns[3]);
    MergeZero(GainTerm(vs, ns[0], h, g, p));
  }

  /** The loop of `_remove_chain` that gives the removed point `p` back to the neighbours' chains. */
  function AddLibertyAround(vs: seq<Vertex>, cs: seq<Chain>, h: int, p: int): (r: seq<Chain>)
    requires HeadsIndexable(vs, cs, p)
    ensures |r| == |cs|
    ensures forall g :: 0 <= g < |cs| ==> r[g] == cs[g].Merge(Gained(vs, h, g, p))
  {
    var ns := Neighbours(p);
    var h0, h1, h2, h3 := At(vs, ns[0]).chainHead, At(vs, ns[1]).chainHead, At(vs, ns[2]).chainHead, At(vs, ns[3]).chainHead;
    var t0, t1, t2, t3 := Regains(vs, h, ns[0]), Regains(vs, h, ns[1]), Regains(vs, h, ns[2]), Regains(vs, h, ns[3]);
    var r := Credit(Credit(Credit(Credit(cs, h0, p, t0), h1, p, t1), h2, p, t2), h3, p, t3);
    forall g | 0 <= g < |cs| ensures r[g] == cs[g].Merge(Gained(vs, h, g, p)) {
      CreditsEffect(cs, h0, h1, h2, h3, t0, t1, t2, t3, p, g);
      GainedUnfold(vs, h, g, p);
    }
    r
  }

  function GainOf(h: int, take: bool, g: int, p: int): Chain {
    if take && h == g then Unit(p) else Zero
  }

  lemma CreditsEffect(cs: seq<Chain>, h0: int, h1: int, h2: int, h3: int,
                      t0: bool, t1: bool, t2: bool, t3: bool, p: int, g: int)
    requires 0 <= h0 < |cs| && 0 <= h1 < |cs| && 0 <= h2 < |cs| && 0 <= h3 < |cs| && 0 <= g < |cs|
    ensures Credit(Credit(Credit(Credit(cs, h0, p, t0), h1, p, t1), h2, p, t2), h3, p, t3)[g] ==
            cs[g].Merge(GainOf(h0, t0, g, p).Merge(GainOf(h1, t1, g, p)).Merge(GainOf(h2, t2, g, p)).Merge(GainOf(h3, t3, g, p)))
  {
    var c1 := Credit(cs, h0, p, t0);
    var c2 := Credit(c1, h1, p, t1);
    var c3 := Credit(c2, h2, p, t2);
    CreditEffect(cs, h0, p, t0, g);
    CreditEffect(c1, h1, p, t1, g);
    CreditEffect(c2, h2, p, t2, g);
    CreditEffect(c3, h3, p, t3, g);
    FourMerges(cs[g], GainOf(h0, t0, g, p), GainOf(h1, t1, g, p), GainOf(h2, t2, g, p), GainOf(h3, t3, g, p));
  }

  lemma CreditEffect(cs: seq<Chain>, h: int, p: int, take: bool, g: int)
    requires 0 <= h < |cs| && 0 <= g < |cs|
    ensures Credit(cs, h, p, take)[g] == cs[g].Merge(GainOf(h, take, g, p))
  {
    AddLibertyMerge(cs[h], p);
    if !(take && h == g) {
      MergeZero(cs[g]);
    }
  }
}

=== FILE: vertices.dfy ===
/**
 * The per-point record and the circular lists that `chain_next` threads
 * through the vertex array. A chain with head `h` and `k` stones is a closed
 * walk: following `chain_next` from `h` visits `k` distinct points and comes
 * back to `h`.
 */
module Vertices {
  import opened Colors

  /** `Vertex`: the chain a point belongs to, the next point of that chain, and its colour. */
  datatype Vertex = Vertex(chainHead: int, chainNext: int, color: Color)

  /** The `k` points met by following `chain_next` from `q`, `q` first (stopping outside the array). */
  ghost function Walk(vs: seq<Vertex>, q: int, k: nat): seq<int>
    decreases k
  {
    if k == 0 || !(0 <= q < |vs|) then [] else [q] + Walk(vs, vs[q].chainNext, k - 1)
  }

  /** The point reached after `k` steps along `chain_next` from `q`. */
  ghost function Nth(vs: seq<Vertex>, q: int, k: nat): int
    decreases k
  {
    if k == 0 || !(0 <= q < |vs|) then q else Nth(vs, vs[q].chainNext, k - 1)
  }

  ghost predicate Distinct(s: seq<int>) {
    forall i, j :: 0 <= i < j < |s| ==> s[i] != s[j]
  }

  /** Following `chain_next` from `h` visits `k` distinct points and returns to `h`. */
  ghost predicate Cycle(vs: seq<Vertex>, h: int, k: nat) {
    var w := Walk(vs, h, k);
    |w| == k && Distinct(w) && Nth(vs, h, k) == h
  }

  /** The two arrays agree on `chain_next` everywhere outside `changed`. */
  ghost predicate SameNextExcept(vs: seq<Vertex>, vs': seq<Vertex>, changed: set<int>) {
    |vs| == |vs'| &&
    forall x :: 0 <= x < |vs| && x !in changed ==> vs'[x].chainNext == vs[x].chainNext
  }

  lemma {:induction false} WalkInRange(vs: seq<Vertex>, q: int, k: nat)
    ensures |Walk(vs, q, k)| <= k
    ensures forall i :: 0 <= i < |Walk(vs, q, k)| ==> 0 <= Walk(vs, q, k)[i] < |vs|
    ensures |Walk(vs, q, k)| == k ==> k == 0 || Walk(vs, q, k)[0] == q
    decreases k
  {
    if k > 0 && 0 <= q < |vs| {
      WalkInRange(vs, vs[q].chainNext, k - 1);
    }
  }

  /** A walk of `a + b` steps is the walk of `a` steps followed by a walk of `b` steps. */
  lemma {:induction false} WalkAppend(vs: seq<Vertex>, q: int, a: nat, b: nat)
    ensures Walk(vs, q, a + b) == Walk(vs, q, a) + Walk(vs, Nth(vs, q, a), b)
    ensures Nth(vs, q, a + b) == Nth(vs, Nth(vs, q, a), b)
    decreases a
  {
    if a == 0 {
      assert Walk(vs, q, a) == [];
    } else if 0 <= q < |vs| {
      WalkAppend(vs, vs[q].chainNext, a - 1, b);
      assert a + b - 1 == (a - 1) + b;
    } else {
      assert Walk(vs, q, a + b) == [] && Walk(vs, q, a) == [];
      assert Walk(vs, Nth(vs, q, a), b) == [];
    }
  }

  /** The `i`-th point of a walk is the point reached after `i` steps. */
  lemma {:induction false} WalkIndex(vs: seq<Vertex>, q: int, k: nat, i: nat)
    requires i < |Walk(vs, q, k)|
    ensures Walk(vs, q, k)[i] == Nth(vs, q, i)
    decreases k
  {
    if i > 0 {
      WalkIndex(vs, vs[q].chainNext, k - 1, i - 1);
    }
  }

  /** Consecutive points of a walk are linked by `chain_next`. */
  lemma WalkSucc(vs: seq<Vertex>, q: int, k: nat, i: nat)
    requires i + 1 < |Walk(vs, q, k)|
    ensures 0 <= Walk(vs, q, k)[i] < |vs|
    ensures Walk(vs, q, k)[i + 1] == vs[Walk(vs, q, k)[i]].chainNext
  {
    WalkInRange(vs, q, k);
    WalkIndex(vs, q, k, i);
    WalkIndex(vs, q, k, i + 1);
    WalkAppend(vs, q, i, 1);
  }

  /** The last point of a closed walk links back to its start. */
  lemma CycleLast(vs: seq<Vertex>, h: int, k: nat)
    requires Cycle(vs, h, k) && k > 0
    ensures 0 <= Walk(vs, h, k)[k - 1] < |vs|
    ensures vs[Walk(vs, h, k)[k - 1]].chainNext == h
  {
    WalkInRange(vs, h, k);
    WalkIndex(vs, h, k, k - 1);
    WalkAppend(vs, h, k - 1, 1);
  }

  /** A walk only depends on `chain_next` at the points it visits. */
  lemma {:induction false} WalkFrame(vs: seq<Vertex>, vs': seq<Vertex>, q: int, k: nat, changed: set<int>)
    requires SameNextExcept(vs, vs', changed)
    requires forall i :: 0 <= i < |Walk(vs, q, k)| ==> Walk(vs, q, k)[i] !in changed
    ensures Walk(vs', q, k) == Walk(vs, q, k)
    ensures Nth(vs', q, k) == Nth(vs, q, k)
    decreases k
  {
    if k > 0 && 0 <= q < |vs| {
      var w := Walk(vs, q, k);
      var rest := Walk(vs, vs[q].chainNext, k - 1);
      assert w == [q] + rest;
      assert forall i :: 0 <= i < |rest| ==> rest[i] == w[i + 1];
      assert w[0] == q && q !in changed;
      assert vs'[q].chainNext == vs[q].chainNext;
      WalkFrame(vs, vs', vs[q].chainNext, k - 1, changed);
    }
  }

  /**
   * Starting a closed walk at any of its points gives a closed walk over the
   * same points (the list is circular).
   */
  lemma Rotate(vs: seq<Vertex>, h: int, k: nat, j: nat)
    requires Cycle(vs, h, k) && j < k
    ensures var x := Walk(vs, h, k)[j];
            Cycle(vs, x, k) &&
            Walk(vs, x, k) == Walk(vs, h, k)[j..] + Walk(vs, h, k)[..j]
  {
    var w := Walk(vs, h, k);
    WalkIndex(vs, h, k, j);
    var x := w[j];
    WalkAppend(vs, h, j, k - j);
    assert k == j + (k - j);
    assert w == Walk(vs, h, j) + Walk(vs, x, k - j);
    WalkInRange(vs, h, j);
    WalkInRange(vs, x, k - j);
    assert Walk(vs, h, j) == w[..j];
    assert Walk(vs, x, k - j) == w[j..];
    WalkAppend(vs, x, k - j, j);
    assert k - j + j == k;
    WalkAppend(vs, h, k, j);
    // Nth(x, k - j) is Nth(h, k) == h.
    assert Nth(vs, x, k - j) == h;
    var r := Walk(vs, x, k);
    assert r == w[j..] + w[..j];
    RotatedDistinct(w, j);
    assert Nth(vs, x, k) == Nth(vs, h, j);
    WalkIndex(vs, h, k, j);
  }

  /** A rotation of a sequence of distinct points has distinct points. */
  lemma RotatedDistinct(w: seq<int>, j: nat)
    requires Distinct(w) && j <= |w|
    ensures Distinct(w[j..] + w[..j])
  {
    var r := w[j..] + w[..j];
    var m := |w| - j;
    forall a, b | 0 <= a < b < |r| ensures r[a] != r[b] {
      var ia := if a < m then a + j else a - m;
      var ib := if b < m then b + j else b - m;
      assert r[a] == w[ia] && r[b] == w[ib];
    }
  }

  /**
   * Linking `p` in right after `g` (`p` takes `g`'s old successor, `g`
   * points to `p`) turns a closed walk of `k` points from `g` into one of
   * `k + 1` points that also visits `p`.
   */
  lemma InsertAfter(vs: seq<Vertex>, vs': seq<Vertex>, g: int, p: int, k: nat)
    requires Cycle(vs, g, k) && k >= 1
    requires 0 <= g < |vs| && 0 <= p < |vs| && p !in Walk(vs, g, k)
    requires SameNextExcept(vs, vs', {g, p})
    requires vs'[g].chainNext == p && vs'[p].chainNext == vs[g].chainNext
    ensures Cycle(vs', g, k + 1)
    ensures Walk(vs', g, k + 1) == [g, p] + Walk(vs, g, k)[1..]
  {
    var w := Walk(vs, g, k);
    var ng := vs[g].chainNext;
    WalkInRange(vs, g, k);
    WalkAppend(vs, g, 1, k - 1);
    assert Walk(vs, g, 1) == [g];
    var rest := Walk(vs, ng, k - 1);
    assert w == [g] + rest;
    assert rest == w[1..];
    forall i | 0 <= i < |rest| ensures rest[i] !in {g, p} {
      assert rest[i] == w[i + 1];
      assert w[0] == g;
    }
    WalkFrame(vs, vs', ng, k - 1, {g, p});
    assert Walk(vs', g, k + 1) == [g] + Walk(vs', p, k);
    assert Walk(vs', p, k) == [p] + Walk(vs', ng, k - 1);
    assert Nth(vs', g, k + 1) == Nth(vs', p, k) == Nth(vs', ng, k - 1);
    var w' := Walk(vs', g, k + 1);
    assert w' == [g, p] + rest;
    forall i, j | 0 <= i < j < |w'| ensures w'[i] != w'[j] {
      if i >= 2 {
        assert w'[i] == w[i - 1] && w'[j] == w[j - 1];
      } else if j >= 2 {
        assert w'[j] == rest[j - 2];
      }
    }
  }

  /** Two duplicate-free lists with no point in common concatenate to a duplicate-free list. */
  lemma DistinctConcat(a: seq<int>, b: seq<int>)
    requires Distinct(a) && Distinct(b)
    requires forall x :: x in a ==> x !in b
    ensures Distinct(a + b)
  {
    var ab := a + b;
    forall i, j | 0 <= i < j < |ab| ensures ab[i] != ab[j] {
      if j >= |a| && i < |a| {
        assert ab[i] == a[i] && ab[j] == b[j - |a|];
        assert a[i] in a;
      }
    }
  }

  /**
   * Swapping the successors of `g` and `n`, which lie on two disjoint closed
   * walks, splices the two walks into one closed walk over both point sets.
   */
  lemma Splice(vs: seq<Vertex>, vs': seq<Vertex>, g: int, n: int, kg: nat, kh: nat)
    requires Cycle(vs, g, kg) && Cycle(vs, n, kh) && kg >= 1 && kh >= 1
    requires 0 <= g < |vs| && 0 <= n < |vs|
    requires forall x :: x in Walk(vs, g, kg) ==> x !in Walk(vs, n, kh)
    requires SameNextExcept(vs, vs', {g, n})
    requires vs'[g].chainNext == vs[n].chainNext && vs'[n].chainNext == vs[g].chainNext
    ensures Cycle(vs', g, kg + kh)
    ensures forall x :: x in Walk(vs', g, kg + kh) <==> x in Walk(vs, g, kg) || x in Walk(vs, n, kh)
  {
    var wg, wn := Walk(vs, g, kg), Walk(vs, n, kh);
    var g1, n1 := vs[g].chainNext, vs[n].chainNext;
    WalkInRange(vs, g, kg);
    WalkInRange(vs, n, kh);
    assert wg == [g] + Walk(vs, g1, kg - 1) && wn == [n] + Walk(vs, n1, kh - 1);
    assert Nth(vs, g1, kg - 1) == g && Nth(vs, n1, kh - 1) == n;
    assert Walk(vs, g1, kg - 1) == wg[1..] && Walk(vs, n1, kh - 1) == wn[1..];
    assert g in wg;
    TailAvoids(wg, g, n);
    TailAvoids(wn, n, g);
    WalkFrame(vs, vs', g1, kg - 1, {g, n});
    WalkFrame(vs, vs', n1, kh - 1, {g, n});
    SpliceWalk(vs', g, n, g1, n1, kg, kh);
    SpliceDistinct(wg, wn);
  }

  /** The tail of a duplicate-free list starting at `a` avoids `a`, and avoids `b` when the list does. */
  lemma TailAvoids(w: seq<int>, a: int, b: int)
    requires Distinct(w) && |w| >= 1 && w[0] == a && (a == b || b !in w)
    ensures forall i :: 0 <= i < |w[1..]| ==> w[1..][i] !in {a, b}
  {
    forall i | 0 <= i < |w[1..]| ensures w[1..][i] !in {a, b} {
      assert w[1..][i] == w[i + 1];
    }
  }

  /** The walk after the swap: `g`, the old tail from `n`, `n`, the old tail from `g`. */
  lemma SpliceWalk(vs': seq<Vertex>, g: int, n: int, g1: int, n1: int, kg: nat, kh: nat)
    requires 0 <= g < |vs'| && 0 <= n < |vs'| && kg >= 1 && kh >= 1
    requires vs'[g].chainNext == n1 && vs'[n].chainNext == g1
    requires Nth(vs', n1, kh - 1) == n && Nth(vs', g1, kg - 1) == g
    ensures Walk(vs', g, kg + kh) == [g] + Walk(vs', n1, kh - 1) + ([n] + Walk(vs', g1, kg - 1))
    ensures Nth(vs', g, kg + kh) == g
  {
    WalkAppend(vs', n1, kh - 1, kg);
    assert Walk(vs', n, kg) == [n] + Walk(vs', g1, kg - 1);
    assert kh - 1 + kg == kg + kh - 1;
  }

  /** The spliced list `[g] + wn[1..] + [n] + wg[1..]` of two disjoint duplicate-free lists has no duplicates and holds both. */
  lemma SpliceDistinct(wg: seq<int>, wn: seq<int>)
    requires Distinct(wg) && Distinct(wn) && |wg| >= 1 && |wn| >= 1
    requires forall x :: x in wg ==> x !in wn
    ensures Distinct([wg[0]] + wn[1..] + ([wn[0]] + wg[1..]))
    ensures forall x :: x in [wg[0]] + wn[1..] + ([wn[0]] + wg[1..]) <==> x in wg || x in wn
  {
    var g, n := wg[0], wn[0];
    var left, right := [g] + wn[1..], [n] + wg[1..];
    assert g in wg;
    assert Distinct(left) by {
      forall i, j | 0 <= i < j < |left| ensures left[i] != left[j] {
        if i > 0 {
          assert left[i] == wn[i] && left[j] == wn[j];
        } else {
          assert left[j] == wn[j];
          assert wn[j] in wn;
        }
      }
    }
    assert Distinct(right) by {
      forall i, j | 0 <= i < j < |right| ensures right[i] != right[j] {
        if i > 0 {
          assert right[i] == wg[i] && right[j] == wg[j];
        } else {
          assert right[j] == wg[j];
          assert wg[j] in wg;
        }
      }
    }
    forall x | x in left ensures x !in right {
      if x != g {
        var i :| 1 <= i < |wn| && wn[i] == x;
        assert x != n;
        forall j | 1 <= j < |wg| ensures wg[j] != x {
          assert wg[j] in wg;
        }
      }
    }
    DistinctConcat(left, right);
    assert wg == [g] + wg[1..] && wn == [n] + wn[1..];
  }
}

=== FILE: xors.dfy ===
/**
 * Bitwise exclusive or on unbounded non-negative integers, as the `^`
 * operator of a language with arbitrary-precision integers computes it,
 * with the algebra the incremental hash relies on.
 */
module Xors {
  /** `a ^ b`, one bit at a time from the least significant end. */
  function Xor(a: nat, b: nat): nat
    decreases a + b
  {
    if a == 0 && b == 0 then 0 else 2 * Xor(a / 2, b / 2) + (a % 2 + b % 2) % 2
  }

  /** The low bit of `a ^ b` is the sum of the low bits mod 2; the rest is the xor of the rest. */
  lemma XorBits(a: nat, b: nat)
    ensures Xor(a, b) % 2 == (a % 2 + b % 2) % 2
    ensures Xor(a, b) / 2 == Xor(a / 2, b / 2)
  {
    if a == 0 && b == 0 {
      assert Xor(0, 0) == 0;
    } else {
      Halves(Xor(a / 2, b / 2), (a % 2 + b % 2) % 2);
    }
  }

  lemma Halves(x: nat, r: nat)
    requires r < 2
    ensures (2 * x + r) % 2 == r && (2 * x + r) / 2 == x
  {
  }

  /** Two numbers with the same low bit and the same remaining bits are equal. */
  lemma SameBits(x: nat, y: nat)
    requires x % 2 == y % 2 && x / 2 == y / 2
    ensures x == y
  {
  }

  lemma {:induction false} XorZero(a: nat)
    ensures Xor(a, 0) == a && Xor(0, a) == a
    decreases a
  {
    if a != 0 {
      XorBits(a, 0);
      XorBits(0, a);
      XorZero(a / 2);
      SameBits(Xor(a, 0), a);
      SameBits(Xor(0, a), a);
    }
  }

  lemma {:induction false} XorSelf(a: nat)
    ensures Xor(a, a) == 0
    decreases a
  {
    if a != 0 {
      XorBits(a, a);
      XorSelf(a / 2);
      SameBits(Xor(a, a), 0);
    }
  }

  lemma {:induction false} XorComm(a: nat, b: nat)
    ensures Xor(a, b) == Xor(b, a)
    decreases a + b
  {
    if a != 0 || b != 0 {
      XorBits(a, b);
      XorBits(b, a);
      XorComm(a / 2, b / 2);
      SameBits(Xor(a, b), Xor(b, a));
    }
  }

  lemma {:induction false} XorAssoc(a: nat, b: nat, c: nat)
    ensures Xor(Xor(a, b), c) == Xor(a, Xor(b, c))
    decreases a + b + c
  {
    if a != 0 || b != 0 || c != 0 {
      XorAssoc(a / 2, b / 2, c / 2);
      XorAssocStep(a, b, c);
    } else {
      assert Xor(0, 0) == 0;
    }
  }

  /** Associativity for `a`, `b`, `c` from associativity for their halves. */
  lemma XorAssocStep(a: nat, b: nat, c: nat)
    requires Xor(Xor(a / 2, b / 2), c / 2) == Xor(a / 2, Xor(b / 2, c / 2))
    ensures Xor(Xor(a, b), c) == Xor(a, Xor(b, c))
  {
    HighAssoc(a, b, c);
    LowAssoc(a, b, c);
    SameBits(Xor(Xor(a, b), c), Xor(a, Xor(b, c)));
  }

  /** The bits above the lowest agree, given associativity for the halves. */
  lemma HighAssoc(a: nat, b: nat, c: nat)
    requires Xor(Xor(a / 2, b / 2), c / 2) == Xor(a / 2, Xor(b / 2, c / 2))
    ensures Xor(Xor(a, b), c) / 2 == Xor(a, Xor(b, c)) / 2
  {
    XorBits(a, b);
    XorBits(b, c);
    XorBits(Xor(a, b), c);
    XorBits(a, Xor(b, c));
  }

  /** The lowest bits agree. */
  lemma LowAssoc(a: nat, b: nat, c: nat)
    ensures Xor(Xor(a, b), c) % 2 == Xor(a, Xor(b, c)) % 2
  {
    var ab, bc := Xor(a, b), Xor(b, c);
    var l, r := Xor(ab, c), Xor(a, bc);
    assert ab % 2 == (a % 2 + b % 2) % 2 by { XorLow(a, b); }
    assert bc % 2 == (b % 2 + c % 2) % 2 by { XorLow(b, c); }
    assert l % 2 == (ab % 2 + c % 2) % 2 by { XorLow(ab, c); }
    assert r % 2 == (a % 2 + bc % 2) % 2 by { XorLow(a, bc); }
    ParityAssoc(a % 2, b % 2, c % 2, ab % 2, bc % 2, l % 2, r % 2);
  }

  /** The low bit of `a ^ b`. */
  lemma XorLow(a: nat, b: nat)
    ensures Xor(a, b) % 2 == (a % 2 + b % 2) % 2
  {
    XorBits(a, b);
  }

  lemma ParityAssoc(x: nat, y: nat, z: nat, xy: int, yz: int, l: int, r: int)
    requires x < 2 && y < 2 && z < 2
    requires xy == (x + y) % 2 && yz == (y + z) % 2 && l == (xy + z) % 2 && r == (x + yz) % 2
    ensures l == r
  {
  }

  /** Xor-ing the same value in twice leaves a number unchanged. */
  lemma XorCancel(a: nat, b: nat)
    ensures Xor(Xor(a, b), b) == a
  {
    XorAssoc(a, b, b);
    XorSelf(b);
    XorZero(a);
  }

  /** Bounds: xor never sets a bit above the highest bit of its operands. */
  function Pow2(k: nat): nat {
    if k == 0 then 1 else 2 * Pow2(k - 1)
  }

  lemma {:induction false} Pow2Positive(k: nat)
    ensures Pow2(k) > 0
  {
    if k > 0 {
      Pow2Positive(k - 1);
    }
  }

  lemma {:induction false} XorBound(a: nat, b: nat, k: nat)
    requires a < Pow2(k) && b < Pow2(k)
    ensures Xor(a, b) < Pow2(k)
    decreases k
  {
    if k == 0 {
      assert a == 0 && b == 0;
      assert Xor(0, 0) == 0;
    } else if a != 0 || b != 0 {
      XorBound(a / 2, b / 2, k - 1);
    }
  }
}

=== FILE: zobrist.dfy ===
/**
 * The incremental position hash. The table of random values is drawn once
 * per process; here it is a parameter. Values come from
 * `random.randint(0, 2**64)`, whose upper bound is inclusive, and the hash is
 * an unbounded integer combined with `^`.
 */
module Zobrist {
  import opened Colors
  import opened Vertices
  import opened Xors

  /** A table value: `random.randint(0, 2**64)` includes both ends. */
  type Key = k: nat | k <= Pow2(64)

  /** `_ZOBRIST_VALUES[p][c]`: one value per point and colour. */
  type Table = (int, Color) -> Key

  /** What a point with colour `c` contributes to the hash: its table value if it holds a stone. */
  function StoneKey(z: Table, q: int, c: Color): (k: nat)
    ensures !IsStone(c) ==> k == 0
  {
    if IsStone(c) then z(q, c) else 0
  }

  /** The hash a board with these vertices should carry: the xor of the keys of points `lo..`. */
  function HashOf(z: Table, vs: seq<Vertex>, lo: nat): nat
    decreases |vs| - lo
  {
    if lo >= |vs| then 0 else Xor(StoneKey(z, lo, vs[lo].color), HashOf(z, vs, lo + 1))
  }

  /**
   * Changing the colour of one point changes the hash by xor-ing out its old
   * key and xor-ing in the new one; nothing else about the vertex matters.
   */
  lemma {:induction false} HashUpdate(z: Table, vs: seq<Vertex>, q: int, v: Vertex, lo: nat)
    requires lo <= q < |vs|
    ensures HashOf(z, vs[q := v], lo) == Xor(Xor(HashOf(z, vs, lo), StoneKey(z, q, vs[q].color)), StoneKey(z, q, v.color))
    decreases |vs| - lo
  {
    var a := StoneKey(z, q, vs[q].color);
    var b := StoneKey(z, q, v.color);
    var rest := HashOf(z, vs, lo + 1);
    if lo == q {
      HashOfColors(z, vs, vs[q := v], lo + 1);
      XorReplace(a, b, rest);
    } else {
      HashUpdate(z, vs, q, v, lo + 1);
      XorShift(StoneKey(z, lo, vs[lo].color), rest, a, b);
    }
  }

  /** `b ^ r == ((a ^ r) ^ a) ^ b`. */
  lemma XorReplace(a: nat, b: nat, r: nat)
    ensures Xor(b, r) == Xor(Xor(Xor(a, r), a), b)
  {
    XorComm(a, r);
    XorCancel(r, a);
    XorComm(r, b);
  }

  /** `k ^ ((r ^ a) ^ b) == ((k ^ r) ^ a) ^ b`. */
  lemma XorShift(k: nat, r: nat, a: nat, b: nat)
    ensures Xor(k, Xor(Xor(r, a), b)) == Xor(Xor(Xor(k, r), a), b)
  {
    XorAssoc(k, Xor(r, a), b);
    XorAssoc(k, r, a);
  }

  /** Vertices whose points have the same colours give the same hash. */
  lemma {:induction false} HashOfColors(z: Table, vs: seq<Vertex>, vs': seq<Vertex>, lo: nat)
    requires |vs| == |vs'| && forall x :: lo <= x < |vs| ==> vs'[x].color == vs[x].color
    ensures HashOf(z, vs', lo) == HashOf(z, vs, lo)
    decreases |vs| - lo
  {
    if lo < |vs| {
      HashOfColors(z, vs, vs', lo + 1);
    }
  }

  /** Every hash fits in 65 bits, since every table value does and xor sets no higher bit. */
  lemma {:induction false} HashBound(z: Table, vs: seq<Vertex>, lo: nat)
    ensures HashOf(z, vs, lo) < Pow2(65)
    decreases |vs| - lo
  {
    assert Pow2(65) == 2 * Pow2(64);
    Pow2Positive(64);
    if lo < |vs| {
      HashBound(z, vs, lo + 1);
      XorBound(StoneKey(z, lo, vs[lo].color), HashOf(z, vs, lo + 1), 65);
    }
  }

  /** With no stone among the points the hash is 0. */
  lemma {:induction false} HashOfNoStones(z: Table, vs: seq<Vertex>, lo: nat)
    requires forall x :: lo <= x < |vs| ==> !IsStone(vs[x].color)
    ensures HashOf(z, vs, lo) == 0
    decreases |vs| - lo
  {
    if lo < |vs| {
      HashOfNoStones(z, vs, lo + 1);
      XorZero(0);
    }
  }
}
